=== FILE: README.md ===
# patent_tfidf text pipeline, modelled in Dafny

The modelled code is the text pipeline of patent_tfidf. It runs in this order:

1. It reads NTCIR-format Japanese patent documents and picks out the abstract, claims and description. These sit in `<SDO ABJ>`, `<SDO CLJ>` and `<SDO DEJ>` blocks. The description of reference signs follows `【符号の説明】`.
2. It cleans the text. Markup tags, bracketed labels and newlines are removed. Then the text is normalized: hyphen, long-vowel mark and tilde variants, and spacing.
3. It splits the text into sentences ending in `。`. It can also split into paragraphs ending in `。\n`, into claims after each `【請求項N】` marker, and into the effect-of-invention section (`【発明の効果】`).
4. It hands each sentence to a morphological analyzer. Each morpheme becomes a record `dictionary form###POS1,POS2,...`.
5. `filter_pos` reads the records back and keeps the surfaces whose part of speech starts with an allowed category.

Each regular expression of the source is written out as a scanner with Python's semantics:

- a search finds the leftmost match;
- `+?` is lazy;
- `findall` and `sub` take non-overlapping matches from left to right;
- `$` also matches before a final newline.

| file | module | source |
|---|---|---|
| wrappers.dfy | Wrappers | `Option` and `Result` |
| strings.dfy | Strings | find, count, `split`, `rsplit`, `join`, `strip`, ASCII case |
| normalization.dfy | Normalization | `_normalize` and `_remove_extra_spaces` (utils.py) |
| cleaning.dfy | Cleaning | `cleaning` (utils.py) |
| extraction.dfy | Extraction, ExtractionExamples | `extract_content_from_NTCIR` and `split_claims` (utils.py) |
| segmentation.dfy | Segmentation, SegmentationExamples | `split_paragraph`, `split_sentence`, `is_paragraph_tag` and `extract_effect_section_paragraphs` (utils.py) |
| calc_tfidf.dfy | CalcTfidf | `filter_pos` (calc_tfidf.py) |
| sudachi_tokenizer.dfy | SudachiTokenizer | `flatten`, `Tokenizer`, `extract_text`, `preprocessing` and the file-type parse of `load_input_file` |
| roundtrip.dfy | TokenRoundTrip | token records written by the tokenizer and read back by `filter_pos`; the corrected reader |

Some behaviour differs from what one might expect. Each difference is proved:

- The regex part of `_normalize` is not idempotent. Replacing `’` by `'` runs after the space removal, so it can expose a space that would now be removed: `"あ ’"` becomes `"あ '"`, which becomes `"あ'"` (`Normalization.NormalizeRegexNotIdempotent`). What is proved idempotent is each step on its own: `_remove_extra_spaces`, label removal, the run collapses and the single-character replacements.
- Tag removal is not idempotent: `"<<a>b>"` becomes `"<b>"`, which becomes `""`.
- A label broken by a newline survives label removal. Newline removal then joins it back into one label (`Cleaning.BrokenLabelIsJoined`).
- `filter_pos` also keeps a record whose POS starts with a bare comma. This holds even with an empty allow-list.
- The reference-sign pattern `[^(?:【.+?】)]+` is a character class. It stops at any of the characters `( ? : 【 . + 】 )`, so `"【符号の説明】a.b"` gives `"a"`.
- The claim lookahead `$` also matches before a final newline. So when the last claim has other text, that newline is not part of it (`Extraction.ClaimEndNearest`, `ExtractionExamples.FinalNewlineDropped`). A marker followed only by a newline still gets the newline as its claim, because the lazy body takes at least one character (`ExtractionExamples.LoneNewlineClaim`).
- Writing a record and reading it back returns the surface only when the surface holds no `###` and does not end in `#` (`TokenRoundTrip.FilterPosRoundTrip` and its converse `TokenRoundTrip.SurfaceCutEarly`; see Findings).

## Model

| member | source | states |
|---|---|---|
| Normalization.VariantSteps | utils.py:45-47 | no hyphen variant remains; every long-vowel variant is `ー` and no `ーー` is left; every tilde variant is `〜`; the characters outside the variant classes and `-` are kept in order; where each run goes is stated by `Normalization.VariantStepsHyphenRun` and `Normalization.VariantStepsChoonpuRun` |
| Normalization.VariantStepsHyphenRun | utils.py:45 | a run of hyphen variants anywhere in the text, between text without variants, becomes exactly one `-` in place, and the text on both sides is kept |
| Normalization.VariantStepsChoonpuRun | utils.py:46 | a run of long-vowel variants anywhere in the text, between text without variants, becomes exactly one `ー` in place, and the text on both sides is kept |
| Normalization.CollapseRuns | utils.py:45-46 | the result uses only the replacement from the class, and takes every other character from the input; when the replacement itself belongs to the class, it never appears twice in a row; where each run goes is stated by `Normalization.CollapseRunsRun`, `Normalization.CollapseRunsAppend` and `Normalization.CollapseRunsMiddle` |
| Normalization.CollapseRunsRun | utils.py:45-46 | a maximal run of class characters at the start of the text becomes exactly one replacement character, and the text after the run is collapsed on its own |
| Normalization.CollapseRunsAppend | utils.py:45-46 | when no run crosses the seam, collapsing a concatenation equals collapsing each part and concatenating the results |
| Normalization.CollapseRunsMiddle | utils.py:45-46 | a maximal run anywhere in the text becomes exactly one replacement character in place, and the text on each side is collapsed on its own |
| Normalization.CollapseRunsKeepsOthers | utils.py:45-46 | collapsing runs keeps every character outside the class and the replacement, in order |
| Normalization.CollapseRunsIdempotent | utils.py:45-46 | collapsing the runs a second time changes nothing |
| Normalization.ReplaceEach | utils.py:47 | each class character becomes the replacement; every other position is unchanged |
| Normalization.ReplaceEachIdempotent | utils.py:47 | replacing a second time changes nothing |
| Normalization.SubSpaceBetween | utils.py:70-72 | one substitution pass shortens a text that holds a match, keeps the first character, and introduces no new characters; which spaces it deletes is stated by `Normalization.SubSpaceBetweenDropsFlanked` |
| Normalization.SubSpaceBetweenDropsFlanked | utils.py:70-72 | in a text without double spaces, one pass deletes only spaces between a character of the first class and one of the second: deleting all such spaces after the pass gives the same text as deleting them from the input |
| Normalization.SubSpaceBetweenDeletesSpaces | utils.py:70-72 | one substitution pass deletes spaces and nothing else |
| Normalization.SubKeepsNoSpaceBetween | utils.py:70-72 | a pass for one class pair does not create a match for any other pair in a text without double spaces |
| Normalization.RemoveSpaceBetween | utils.py:69-73 | the loop stops only when the pattern no longer matches |
| Normalization.RemoveSpaceBetweenReference | utils.py:69-73 | in a text without double spaces, the loop deletes exactly the spaces between a character of the first class and one of the second, and keeps every other character |
| Normalization.DropFlankedCompose | utils.py:75-77 | in a text without double spaces, deleting the spaces flanked by one set of class pairs and then by another equals deleting the spaces flanked by either set, because a space's neighbours are never deleted |
| Normalization.RemoveSpaceBetweenKeeps | utils.py:69-73 | the loop deletes only spaces, creates no double space, and creates no match for any other class pair |
| Normalization.RemoveExtraSpaces | utils.py:59-78 | no full-width space and no double space remain; no space stands between wide/wide, wide/basic-Latin or basic-Latin/wide characters; deleting spaces from the output gives the input without its half- and full-width spaces; which spaces survive is stated by `Normalization.RemoveExtraSpacesReference` |
| Normalization.RemoveExtraSpacesReference | utils.py:59-78 | runs of half- and full-width spaces become one space; then exactly the spaces between wide/wide, wide/basic-Latin or basic-Latin/wide neighbours are deleted, and every other space survives |
| Normalization.LatinSpaceKept | utils.py:59-78 | `"x y あ"` becomes `"x yあ"`: the space between two basic-Latin characters is kept |
| Normalization.RemoveExtraSpacesFixes | utils.py:59-78 | a text that already meets those conditions is returned unchanged |
| Normalization.RemoveExtraSpacesIdempotent | utils.py:59-78 | `_remove_extra_spaces` applied twice equals applying it once |
| Normalization.NormalizeRegex | utils.py:43-51 | after stripping, the variant steps, the space removal and the quote replacements, no variant, full-width space, `’`, `”` or double space remains |
| Normalization.Normalize | utils.py:27-57 | `_normalize`: the regex part (`Normalization.NormalizeRegex`) followed by the width and case tables; no contract of its own, since the tables are parameters |
| Normalization.NormalizeRegexNotIdempotent | utils.py:49-51 | `"あ ’"` normalizes to `"あ '"`, which normalizes further to `"あ'"` |
| Cleaning.TagAt | utils.py:19 | a tag starts the text exactly when the lazy tag pattern matches there, and its length is unique |
| Cleaning.RemoveTags | utils.py:19 | tag removal never lengthens the text; what it deletes and keeps is stated by `Cleaning.RemoveTagsDropsTag`, `Cleaning.RemoveTagsKeepsUntagged` and `Cleaning.RemoveTagsKeepsText` |
| Cleaning.RemoveTagsDropsTag | utils.py:19 | a tag preceded by text without `<` is deleted, that text is kept, and the rest is processed on its own |
| Cleaning.RemoveTagsKeepsUntagged | utils.py:19 | text at none of whose positions a tag starts is kept as it is, stray `<` included, and what follows is processed on its own |
| Cleaning.StrayAngleKept | utils.py:19 | `"x<y <b>"` becomes `"x<y "`: the `<` that opens no tag stays |
| Cleaning.RemoveTagsKeepsText | utils.py:19 | tag removal deletes tag characters only: everything else survives in order |
| Cleaning.RemoveTagsWithoutAngle | utils.py:19 | a text without `<` is unchanged |
| Cleaning.RemoveTagsNotIdempotent | utils.py:19 | `"<<a>b>"` becomes `"<b>"`, and a second pass gives `""` |
| Cleaning.LabelAt | utils.py:20 | the label match at the start is the shortest `【…】` span with at least one character inside and no newline |
| Cleaning.RemoveLabels | utils.py:20 | label removal never lengthens the text; what it deletes and keeps is stated by `Cleaning.RemoveLabelsDropsLabel`, `Cleaning.RemoveLabelsKeepsUnlabelled`, `Cleaning.RemoveLabelsWithoutOpen`, `Cleaning.RemoveLabelsLeavesNoLabel` and `Cleaning.RemoveLabelsKeepsNewlines` |
| Cleaning.RemoveLabelsDropsLabel | utils.py:20 | a label preceded by text without `【` is deleted, that text is kept, and the rest is processed on its own |
| Cleaning.RemoveLabelsKeepsUnlabelled | utils.py:20 | text at none of whose positions a label starts is kept as it is, an unclosed `【` included, and what follows is processed on its own |
| Cleaning.UnclosedLabelKept | utils.py:20 | `"【x\n【a】"` becomes `"【x\n"`: a `【` not closed on its line stays |
| Cleaning.RemoveLabelsKeepsNewlines | utils.py:20 | label removal keeps every newline |
| Cleaning.RemoveLabelsLeavesNoLabel | utils.py:20 | no label remains after one pass |
| Cleaning.RemoveLabelsIdempotent | utils.py:20 | label removal applied twice equals applying it once |
| Cleaning.RemoveLabelsWithoutOpen | utils.py:20 | a text without `【` is unchanged |
| Cleaning.StripMarkup | utils.py:19-21 | the cleaned text holds no newline and is no longer than the raw text |
| Cleaning.BrokenLabelIsJoined | utils.py:20-21 | a label split by a newline survives label removal and comes out joined |
| Cleaning.Clean | utils.py:5-25 | `cleaning`: markup stripping (`Cleaning.StripMarkup`) followed by `_normalize`; no contract of its own, since the width and case tables are parameters |
| Extraction.SearchSdo | utils.py:104-110 | the leftmost opening tag that has a close tag after at least one character, paired with the nearest such close tag; `None` when there is no match |
| Extraction.SearchEs | utils.py:106-110 | the leftmost `【符号の説明】` followed by a character outside the stop class |
| Extraction.ExtractContent | utils.py:103-108 | fails exactly for a field outside `ab`, `cl`, `de`, `es`, and the error names that field |
| Extraction.ExtractTaggedField | utils.py:103-114 | for `ab`/`cl`/`de` the result is `""` exactly when no tagged block matches; otherwise it is the text between the first matching open tag and its nearest close tag |
| Extraction.ExtractDrawingReference | utils.py:105-114 | for `es` the result is `""` exactly when no label is followed by a non-stop character; otherwise it is the maximal run of non-stop characters after the first such label |
| Extraction.MarkerAtMeaning | utils.py:131 | a claim marker is `【請求項`, one or more digits and `】`, with only one possible length |
| Extraction.ClaimEndNearest | utils.py:131 | the lazy claim body ends at the nearest later marker, the end of the text, or a final newline |
| Extraction.ClaimSpansFromValid | utils.py:131 | every match found is a claim span; the matches are in order and do not overlap |
| Extraction.ClaimSpansFromNone | utils.py:131 | no match is found only when no attempt of the claim pattern succeeds |
| Extraction.ClaimSpansFromFirst | utils.py:131 | the first match found is the first successful attempt, and the later matches are those found from its end |
| Extraction.MarkerWithTextMatches | utils.py:131 | a marker with at least one character after it starts a match |
| Extraction.MarkerWithTextGivesClaim | utils.py:117-131 | a text holding a marker with at least one character after it has at least one claim |
| Extraction.ClaimsFollowMarkers | utils.py:131 | every claim is non-empty text that directly follows a marker, excludes the marker, and holds no marker after its first character |
| Extraction.NoMarkerNoClaims | utils.py:131 | without a marker there are no claims |
| Extraction.ClaimsAtMostMarkers | utils.py:131 | there are no more claims than markers |
| Extraction.SplitClaims | utils.py:117-131 | `split_claims`: the text of each claim span in order; its meaning is stated by `Extraction.ClaimsFollowMarkers` (each claim is a match), `Extraction.ClaimSpansFromNone` and `Extraction.ClaimSpansFromFirst` (every match is found), `Extraction.MarkerWithTextGivesClaim`, `Extraction.NoMarkerNoClaims` and `Extraction.ClaimsAtMostMarkers` |
| ExtractionExamples.TwoClaims | utils.py:131 | `【請求項1】A【請求項2】B` gives `["A", "B"]` |
| ExtractionExamples.AdjacentMarkers | utils.py:131 | with an empty first claim, the second marker becomes the first claim's text: `【請求項1】【請求項2】B` gives `["【請求項2】B"]` |
| ExtractionExamples.FinalNewlineDropped | utils.py:131 | `【請求項1】A` followed by a newline gives `["A"]` |
| ExtractionExamples.LoneNewlineClaim | utils.py:131 | `【請求項1】` followed only by a newline gives a claim that is that newline |
| ExtractionExamples.AbstractExample | utils.py:104-112 | `<SDO ABJ>x</SDO>` gives the abstract `x` |
| ExtractionExamples.DrawingReferenceStopsAtPeriod | utils.py:106 | the reference-sign text stops at the first `.` |
| Segmentation.ParagraphMatchesValid | utils.py:149 | every raw paragraph match holds exactly one `。\n`, at its end; the matches cover a prefix of the text, and the rest holds no `。\n` |
| Segmentation.ParagraphMatchesCons | utils.py:149 | a text that starts with a complete paragraph yields that paragraph first, then the paragraphs of the rest |
| Segmentation.ParagraphCount | utils.py:148-151 | `split_paragraph` returns one element per occurrence of `。\n` |
| Segmentation.SplitParagraph | utils.py:148-151 | `split_paragraph`: each raw match stripped; its meaning is stated by `Segmentation.ParagraphCount`, `Segmentation.ParagraphsEndWithFullStop` and `Segmentation.SplitParagraphCons` |
| Segmentation.ParagraphsEndWithFullStop | utils.py:148-151 | every paragraph is non-empty and ends with `。` |
| Segmentation.SplitParagraphCons | utils.py:148-151 | a leading complete paragraph contributes its stripped text and the rest splits independently |
| Segmentation.SentenceMatchesValid | utils.py:155 | every raw sentence match has at least one character before its only `。`; the matches cover a prefix of the text, and the rest holds no `。` after its first character |
| Segmentation.SentenceMatchesCons | utils.py:155 | a text that starts with a complete sentence yields that sentence first, then the sentences of the rest |
| Segmentation.SplitSentence | utils.py:154-155 | `split_sentence`: each raw match stripped; its meaning is stated by `Segmentation.SentencesEndWithFullStop`, `Segmentation.SplitSentenceCons` and `Segmentation.NoSentence` |
| Segmentation.SentencesEndWithFullStop | utils.py:154-155 | every sentence is non-empty and ends with `。` |
| Segmentation.SplitSentenceCons | utils.py:154-155 | a leading complete sentence contributes its stripped text and the rest splits independently |
| Segmentation.NoSentence | utils.py:154-155 | text without a `。` after its first character yields no sentence |
| SegmentationExamples.TwoSentences | utils.py:154-155 | `これはテスト。これも。` gives both sentences |
| SegmentationExamples.TrailingTextDropped | utils.py:154-155 | text after the last `。` is not returned |
| SegmentationExamples.LoneFullStop | utils.py:155 | a lone `。` is not a sentence |
| Segmentation.EffectStart | utils.py:135-137 | the section starts after the first `【発明の効果】`, provided text follows it; otherwise no label has text after it |
| Segmentation.IsParagraphTag | utils.py:158-159 | `is_paragraph_tag`: the text starts with `【`, four digits and `】`; a predicate, used by `Segmentation.FirstUntagged` and `Segmentation.EffectParagraphs` |
| Segmentation.FirstUntagged | utils.py:141-143 | the first paragraph from the given index on that does not start with `【` followed by four digits and `】` |
| Segmentation.EffectParagraphs | utils.py:134-145 | `[]` without the label; otherwise a prefix of the section's paragraphs that keeps the first paragraph, has only tagged paragraphs after it, and when it stops early stops at an untagged one |
| SegmentationExamples.EffectTruncation | utils.py:134-145 | `【発明の効果】A。\n【0001】B。\n C。\n` gives `["A。", "【0001】B。"]` |
| CalcTfidf.TryAlternatives | calc_tfidf.py:50-59 | some allowed entry followed by a comma starts the POS |
| CalcTfidf.PosMatchesMeaning | calc_tfidf.py:50-59 | the POS pattern matches exactly when the POS starts with an allowed entry and a comma, or with a comma alone |
| CalcTfidf.FilterPos | calc_tfidf.py:49-62 | the output is no longer than the input and no surface in it holds `###` |
| CalcTfidf.FilterPosSingle | calc_tfidf.py:54-60 | a record is kept, as its surface, exactly when it splits into two parts on `###` and its POS matches; otherwise it is skipped |
| CalcTfidf.FilterPosAppend | calc_tfidf.py:53-60 | filtering a concatenation concatenates the filtered parts |
| CalcTfidf.FilterPosSurfaces | calc_tfidf.py:53-60 | every output element is the surface of some kept input record |
| CalcTfidf.NoSeparatorDropped | calc_tfidf.py:54-57 | a record without `###` is skipped without an error |
| CalcTfidf.NoCommaNeverPasses | calc_tfidf.py:50-59 | a POS without a comma never matches |
| CalcTfidf.EmptyAllowList | calc_tfidf.py:50-59 | with an empty allow-list, only a POS that starts with a comma matches |
| CalcTfidf.NounExample | calc_tfidf.py:49-62 | with `["名詞"]`, the records `猫###名詞,一般,*`, `走る###動詞,自立,*` and `malformed` give `["猫"]` |
| SudachiTokenizer.GetToken | sudachi_tokenizer.py:34-41 | with POS, the record is the dictionary form, `###` and the comma-joined POS; without POS, it is the dictionary form alone |
| SudachiTokenizer.TokensOf | sudachi_tokenizer.py:29 | one record per morpheme, in order |
| SudachiTokenizer.Tokenize | sudachi_tokenizer.py:27-32 | one record per morpheme when the analyzer succeeds, and `[]` when it raises |
| SudachiTokenizer.TokenizeLines | sudachi_tokenizer.py:23-25 | one token list per line, in order |
| SudachiTokenizer.Flatten | sudachi_tokenizer.py:13 | the sublists concatenated in order; the length is the sum of their lengths |
| SudachiTokenizer.ExtractText | sudachi_tokenizer.py:85-91 | `extract_text` over a list of fields; its meaning is stated by `SudachiTokenizer.ExtractTextFailure` and `SudachiTokenizer.ExtractTextConcat` |
| SudachiTokenizer.ExtractTextFailure | sudachi_tokenizer.py:85-91 | extraction fails exactly when some field is invalid, and then reports the first invalid field |
| SudachiTokenizer.ExtractTextConcat | sudachi_tokenizer.py:85-91 | with valid fields, the text is the concatenation of the field contents in field order |
| SudachiTokenizer.DefaultExtractText | sudachi_tokenizer.py:85-91 | the default extraction succeeds and is the abstract, then the claims, then the description |
| SudachiTokenizer.DefaultExtractTextEmpty | sudachi_tokenizer.py:85-91 | the default extraction is `""` when none of the three blocks is present |
| SudachiTokenizer.Preprocess | sudachi_tokenizer.py:75-82 | `preprocessing`: one sentence list per patent; the content of each list is stated by `SudachiTokenizer.PreprocessEach` |
| SudachiTokenizer.PreprocessEach | sudachi_tokenizer.py:75-82 | the document of each patent is the sentence split of its cleaned abstract, claims and description, in that order |
| SudachiTokenizer.PreprocessSentences | sudachi_tokenizer.py:75-82 | every sentence produced for every patent is non-empty and ends with `。`, whatever the width and case tables do |
| SudachiTokenizer.PreprocessAppend | sudachi_tokenizer.py:75-82 | patents are preprocessed independently and in input order |
| SudachiTokenizer.Extension | sudachi_tokenizer.py:61 | the suffix is the run of ASCII letters after the last `.`, at the end of the path or before a final newline; `None` exactly when the pattern does not match |
| SudachiTokenizer.FileType | sudachi_tokenizer.py:61-72 | the lower-cased suffix `pkl`, `csv` or `txt` selects the reader; a missing suffix and any other suffix are distinct errors |
| SudachiTokenizer.UpperCaseExtension | sudachi_tokenizer.py:62-66 | `patents.CSV` is read as CSV |
| SudachiTokenizer.LastSuffixOnly | sudachi_tokenizer.py:61-72 | `a.tar.gz` fails with the unsupported type `gz` |
| SudachiTokenizer.TrailingNewline | sudachi_tokenizer.py:61 | `data.txt` followed by a newline is still a text file |
| SudachiTokenizer.NoSuffix | sudachi_tokenizer.py:61 | a path without a suffix fails |
| TokenRoundTrip.RecordShape | sudachi_tokenizer.py:38-39 | the record holds `###` right after the dictionary form, and the `#`-free POS follows it |
| TokenRoundTrip.FilterPosRoundTrip | sudachi_tokenizer.py:38-39 | a record splits back into the surface and the joined POS, and `filter_pos` returns the surface exactly when the POS matches; this holds when the surface holds no `###` and does not end in `#`, and no POS entry holds `###` |
| TokenRoundTrip.SurfaceCutEarly | calc_tfidf.py:55 | conversely, a surface that holds `###` or ends in `#` is cut to a proper prefix by the split, so `filter_pos` never returns that surface for its record |
| TokenRoundTrip.JoinNoSeparator | sudachi_tokenizer.py:38 | POS entries without `###`, joined with commas, give a POS text without `###` |
| TokenRoundTrip.AllowedMorphemeKept | sudachi_tokenizer.py:38-39 | a morpheme with at least two POS parts, whose first part is allowed, is returned as its surface, when the surface holds no `###` and does not end in `#` and no POS entry holds `###` |
| TokenRoundTrip.WithoutPosDropped | sudachi_tokenizer.py:41 | records written without POS are all skipped by `filter_pos` |
| TokenRoundTrip.SharpSurfaceLost | calc_tfidf.py:55 | the noun `C#` is written as `C####名詞,固有名詞` and dropped, although its POS matches |
| TokenRoundTrip.FilterPosLast | calc_tfidf.py:49-62 | the corrected reader, which splits at the last `###`, never returns more surfaces than records |
| TokenRoundTrip.FilterPosLastRoundTrip | calc_tfidf.py:55 | with the corrected reader, every record splits back into the surface and the joined POS, and the surface is returned exactly when the POS matches, whatever the surface holds, provided no POS entry holds `#` |
| TokenRoundTrip.FilterPosLastAppend | calc_tfidf.py:53-60 | the corrected reader also works record by record |
| TokenRoundTrip.ReadingsAgree | calc_tfidf.py:55 | the two readers agree on every record whose surface holds no `###` and does not end in `#`, written from `#`-free POS entries |
| TokenRoundTrip.FilterPosLastRecords | sudachi_tokenizer.py:38-39 | reading a sequence of records back keeps exactly the dictionary forms of the morphemes whose POS matches, in order |
| TokenRoundTrip.TokenizeThenFilter | sudachi_tokenizer.py:27-39 | tokenizing a text with POS and filtering the records with the corrected reader keeps exactly the allowed morphemes' dictionary forms, when no POS entry holds `#`; the reader as written can lose a surface such as `C#` |

## Left out

- `\d`: Python's `\d` matches every Unicode decimal digit. `Strings.IsDigit` accepts ASCII and full-width digits only, as a stand-in for the Unicode table.
- `\s` and `str.strip` share one whitespace set, the characters for which Python's `str.isspace` holds.
- `mojimoji.han_to_zen`, `mojimoji.zen_to_han` and `str.lower` (utils.py:53-55) are external width and case tables. They are parameters (`Normalization.TextMaps`), and nothing is claimed about them. `Normalization.Normalize` and `Cleaning.Clean` carry no contract for this reason. No idempotence is claimed for `_normalize`.
- The SudachiPy dictionary and tokenizer (sudachi_tokenizer.py:20-21,29) are an external analyzer. They are a function parameter that returns the morphemes, or `None` when the analyzer raises. The split mode and the warning log are not modelled.
- POS allow-list entries are treated as literal strings. They are spliced into the pattern unescaped (calc_tfidf.py:50), so an entry with regex metacharacters would behave differently.
- The gensim dictionary and TF-IDF model, and the pickle dumps (calc_tfidf.py:23-34), are external statistics and I/O.
- The rest is I/O and concurrency plumbing, not modelled: file reading, pandas, the YAML configuration, argparse, tqdm, logging, joblib `Parallel`, both `main` functions, the three read branches of `load_input_file` (only the file-type choice is modelled), and `load_tokenized_file`.
- `load_input_file` fails in two ways. A path without a suffix raises on `.group` of no match. An unknown suffix reaches `return` with `patents` unbound. Both are `Failure` values of `SudachiTokenizer.FileType`, not Python exceptions.
- `SudachiTokenizer.PatentText` maps a failed extraction to `""`. That branch cannot happen, because the default fields are valid (`SudachiTokenizer.DefaultExtractText`).
- TokenRoundTrip.FilterPosRoundTrip, TokenRoundTrip.AllowedMorphemeKept: also require that the surface not end in `#`, besides holding no `###`. Without it, the record holds a `###` one position early, and the round trip fails (`TokenRoundTrip.SurfaceCutEarly`, and see Findings). Both also require that no POS entry hold `###`.
- Extraction.MarkerAt, Segmentation.ParagraphMatches, Segmentation.SentenceMatches and SudachiTokenizer.ExtractText carry no `ensures` of their own. Their meaning is stated by the lemmas named after them in the table: `MarkerAtMeaning`, `ParagraphMatchesValid`, `SentenceMatchesValid` and `ExtractTextFailure`.

## Findings

| source | as written | input that shows it | evidently intended | confidence | as-written member | corrected member |
|---|---|---|---|---|---|---|
| calc_tfidf.py:55 | `token.split('###')` splits at every `###`. The tokenizer (sudachi_tokenizer.py:39) joins the surface and the POS with `###` without escaping, so for a surface ending in `#` the first `###` is found one position early; the record still splits into two parts, but the second part starts with `#` and fails the POS test | the noun `C#`, POS `名詞,固有名詞`, written as `C####名詞,固有名詞`: the split gives `["C", "#名詞,固有名詞"]`, so the POS does not match and the token is lost | split at the last separator (`rsplit('###', 1)`); the POS never holds `#`, so every record reads back as the surface it was written from | not executed | TokenRoundTrip.SharpSurfaceLost | TokenRoundTrip.FilterPosLastRoundTrip |

=== FILE: calc_tfidf.dfy ===
/** The part-of-speech filter of calc_tfidf.py (`filter_pos`), which reads
    `surface###pos` records back and keeps the surfaces whose POS passes the
    allow-list pattern `^(a|b|…)?,`. */
module CalcTfidf {
  import opened Strings

  /** The separator between surface and POS in a token record. */
  const Separator: string := "###"

  /** The alternatives `a|b|…` of the group, tried in order from `k`: some
      alternative followed by a comma starts the POS. */
  function TryAlternatives(pos: string, allowed: seq<string>, k: nat): (r: bool)
    requires k <= |allowed|
    ensures r <==> exists m :: k <= m < |allowed| && StartsWith(pos, allowed[m] + ",")
    decreases |allowed| - k
  {
    if k == |allowed| then false
    else StartsWith(pos, allowed[k] + ",") || TryAlternatives(pos, allowed, k + 1)
  }

  /** `regex.search(r'^(' + '|'.join(allowed) + r')?,', pos)`: anchored at
      the start, the optional group is tried with each alternative and then
      skipped, and a comma must follow. */
  predicate PosMatches(pos: string, allowed: seq<string>) {
    TryAlternatives(pos, allowed, 0) || StartsWith(pos, ",")
  }

  /** The independent reading of the pattern: the POS starts with an allowed
      entry and a comma, or with a comma alone. */
  lemma PosMatchesMeaning(pos: string, allowed: seq<string>)
    ensures PosMatches(pos, allowed) <==>
      StartsWith(pos, ",") || exists a :: a in allowed && StartsWith(pos, a + ",")
  {
    if !StartsWith(pos, ",") && exists a :: a in allowed && StartsWith(pos, a + ",") {
      var a :| a in allowed && StartsWith(pos, a + ",");
      var m :| 0 <= m < |allowed| && allowed[m] == a;
      assert StartsWith(pos, allowed[m] + ",");
    }
  }

  /** A token is kept when it splits on `###` into exactly two parts and the
      second passes the pattern; a token that does not unpack is skipped. */
  predicate Kept(token: string, allowed: seq<string>) {
    var parts := Split(token, Separator);
    |parts| == 2 && PosMatches(parts[1], allowed)
  }

  /** `filter_pos(tokens, allowed)`: the surfaces of the kept tokens, in
      order. */
  function FilterPos(tokens: seq<string>, allowed: seq<string>): (r: seq<string>)
    ensures |r| <= |tokens|
    ensures forall k :: 0 <= k < |r| ==> !Contains(r[k], Separator)
    decreases |tokens|
  {
    if |tokens| == 0 then []
    else
      var parts := Split(tokens[0], Separator);
      var rest := FilterPos(tokens[1..], allowed);
      if Kept(tokens[0], allowed) then [parts[0]] + rest else rest
  }

  /** One token is kept, as its surface, exactly when it unpacks and its POS
      passes; otherwise it disappears. */
  lemma FilterPosSingle(token: string, allowed: seq<string>)
    ensures Kept(token, allowed) ==> FilterPos([token], allowed) == [Split(token, Separator)[0]]
    ensures !Kept(token, allowed) ==> FilterPos([token], allowed) == []
  {
    assert [token][1..] == [];
  }

  /** The filter works token by token. */
  lemma {:induction false} FilterPosAppend(a: seq<string>, b: seq<string>, allowed: seq<string>)
    ensures FilterPos(a + b, allowed) == FilterPos(a, allowed) + FilterPos(b, allowed)
    decreases |a|
  {
    if |a| == 0 {
      assert a + b == b;
    } else {
      assert (a + b)[1..] == a[1..] + b;
      FilterPosAppend(a[1..], b, allowed);
    }
  }

  /** `x` is the surface of some kept token of `tokens`. */
  ghost predicate SurfaceOfKept(x: string, tokens: seq<string>, allowed: seq<string>) {
    exists t :: t in tokens && Kept(t, allowed) && x == Split(t, Separator)[0]
  }

  /** Every output element is the surface of a kept input token. */
  lemma {:induction false} FilterPosSurfaces(tokens: seq<string>, allowed: seq<string>, x: string)
    requires x in FilterPos(tokens, allowed)
    ensures SurfaceOfKept(x, tokens, allowed)
    decreases |tokens|
  {
    var rest := FilterPos(tokens[1..], allowed);
    if Kept(tokens[0], allowed) && x == Split(tokens[0], Separator)[0] {
      assert tokens[0] in tokens;
    } else {
      assert x in rest;
      FilterPosSurfaces(tokens[1..], allowed, x);
      var t :| t in tokens[1..] && Kept(t, allowed) && x == Split(t, Separator)[0];
      assert t in tokens;
    }
  }

  /** A record without the separator does not unpack and is dropped. */
  lemma NoSeparatorDropped(token: string, allowed: seq<string>)
    requires !Contains(token, Separator)
    ensures FilterPos([token], allowed) == []
  {
    assert Split(token, Separator) == [token];
    FilterPosSingle(token, allowed);
  }

  /** A POS that contains no comma never passes. */
  lemma NoCommaNeverPasses(pos: string, allowed: seq<string>)
    requires forall i :: 0 <= i < |pos| ==> pos[i] != ','
    ensures !PosMatches(pos, allowed)
  {
    forall a
      ensures !StartsWith(pos, a + ",")
    {
      CommaAfterPrefix(pos, a);
    }
    CommaAfterPrefix(pos, "");
    assert "" + "," == ",";
    PosMatchesMeaning(pos, allowed);
  }

  lemma CommaAfterPrefix(pos: string, a: string)
    ensures StartsWith(pos, a + ",") ==> |a| < |pos| && pos[|a|] == ','
  {
    if StartsWith(pos, a + ",") {
      assert pos[..|a| + 1][|a|] == (a + ",")[|a|];
    }
  }

  /** With an empty allow-list only a POS that starts with a comma passes. */
  lemma EmptyAllowList(pos: string)
    ensures PosMatches(pos, []) <==> StartsWith(pos, ",")
  {
  }

  /** One noun kept; a verb and a malformed record dropped. */
  lemma NounExample()
    ensures FilterPos(["猫###名詞,一般,*", "走る###動詞,自立,*", "malformed"], ["名詞"]) == ["猫"]
  {
    NounKept();
    VerbDropped("走る###動詞,自立,*");
    MalformedDropped();
    FilterPosAppend(["猫###名詞,一般,*"], ["走る###動詞,自立,*", "malformed"], ["名詞"]);
    FilterPosAppend(["走る###動詞,自立,*"], ["malformed"], ["名詞"]);
    assert ["猫###名詞,一般,*", "走る###動詞,自立,*", "malformed"]
      == ["猫###名詞,一般,*"] + (["走る###動詞,自立,*"] + ["malformed"]);
  }

  lemma NounKept()
    ensures FilterPos(["猫###名詞,一般,*"], ["名詞"]) == ["猫"]
  {
    var t := "猫###名詞,一般,*";
    SplitAt(t, 1);
    assert t[..1] == "猫" && t[4..] == "名詞,一般,*";
    assert StartsWith("名詞,一般,*", "名詞" + ",");
    FilterPosSingle(t, ["名詞"]);
  }

  lemma VerbDropped(t: string)
    requires t == "走る###動詞,自立,*"
    ensures FilterPos([t], ["名詞"]) == []
  {
    assert Split(t, Separator) == [t[..2], t[5..]] by {
      assert t[2] == '#' && t[3] == '#' && t[4] == '#';
      assert t[2..5] == Separator;
      SplitAt(t, 2);
    }
    var pos := t[5..];
    assert pos[0] == '動' && "名詞"[0] == '名';
    FirstCharFails(pos, ["名詞"]);
    FilterPosSingle(t, ["名詞"]);
  }

  /** A POS whose first character is neither a comma nor the first character
      of any allowed entry never passes. */
  lemma FirstCharFails(pos: string, allowed: seq<string>)
    requires |pos| > 0 && pos[0] != ','
    requires forall k :: 0 <= k < |allowed| ==> |allowed[k]| > 0 && allowed[k][0] != pos[0]
    ensures !PosMatches(pos, allowed)
  {
    forall m | 0 <= m < |allowed|
      ensures !StartsWith(pos, allowed[m] + ",")
    {
      PrefixFirstChar(pos, allowed[m] + ",");
    }
    PrefixFirstChar(pos, ",");
  }

  lemma PrefixFirstChar(s: string, p: string)
    ensures StartsWith(s, p) && |p| > 0 ==> s[0] == p[0]
  {
    if StartsWith(s, p) && |p| > 0 {
      assert s[..|p|][0] == s[0];
    }
  }

  lemma MalformedDropped()
    ensures FilterPos(["malformed"], ["名詞"]) == []
  {
    var t := "malformed";
    NoHashNoSeparator(t, 0, |t|);
    NoSeparatorDropped(t, ["名詞"]);
  }

  /** No separator starts in a stretch without `#`. */
  lemma NoHashNoSeparator(t: string, a: nat, b: nat)
    requires a <= b <= |t|
    requires forall q :: a <= q < b ==> t[q] != '#'
    ensures forall q :: a <= q < b ==> !OccursAt(t, Separator, q)
  {
    forall q | a <= q < b
      ensures !OccursAt(t, Separator, q)
    {
      if q + 3 <= |t| {
        assert t[q..q + 3][0] == t[q];
        assert Separator[0] == '#';
      }
    }
  }

  /** A record with its only separator at `i` splits there. */
  lemma SplitAt(t: string, i: nat)
    requires i + 3 <= |t| && OccursAt(t, Separator, i)
    requires forall q :: 0 <= q < i ==> t[q] != '#'
    requires forall q :: i + 3 <= q < |t| ==> t[q] != '#'
    ensures Split(t, Separator) == [t[..i], t[i + 3..]]
  {
    NoHashNoSeparator(t, 0, i);
    var tail := t[i + 3..];
    assert forall q :: 0 <= q < |tail| ==> tail[q] == t[i + 3 + q];
    NoHashNoSeparator(tail, 0, |tail|);
    assert !Contains(tail, Separator);
    assert Split(tail, Separator) == [tail];
  }
}

=== FILE: cleaning.dfy ===
/** `cleaning` of utils.py: strip markup tags, then bracketed labels, then
    newlines, and hand the rest to the normalizer. */
module Cleaning {
  import opened Wrappers
  import opened Strings
  import opened Normalization

  /** The class `[\/A-Za-z\d=\s]` inside a tag (utils.py:19). */
  predicate InTagClass(c: char) {
    c == '/' || IsAsciiLetter(c) || IsDigit(c) || c == '=' || IsWhitespace(c)
  }

  /** The first index at or after `k` whose character is outside the tag class. */
  function TagClassEnd(s: string, k: nat): (j: nat)
    requires k <= |s|
    ensures k <= j <= |s|
    ensures forall m :: k <= m < j ==> InTagClass(s[m])
    ensures j < |s| ==> !InTagClass(s[j])
    decreases |s| - k
  {
    if k < |s| && InTagClass(s[k]) then TagClassEnd(s, k + 1) else k
  }

  /** `s[..n]` is a match of `<[\/A-Za-z\d=\s]+?>`. */
  predicate IsTag(s: string, n: int) {
    3 <= n <= |s| && s[0] == '<' && s[n - 1] == '>' && forall m :: 1 <= m < n - 1 ==> InTagClass(s[m])
  }

  /** The length of the tag that starts `s`, if one does. The class excludes
      `>`, so the lazy match ends at the end of the class run. */
  function TagAt(s: string): (r: Option<nat>)
    ensures r.Some? ==> IsTag(s, r.value)
    ensures forall n :: IsTag(s, n) ==> r == Some(n)
  {
    if |s| > 0 && s[0] == '<' then
      var j := TagClassEnd(s, 1);
      if 1 < j < |s| && s[j] == '>' then Some(j + 1) else None
    else None
  }

  /** `regex.sub(r'<[\/A-Za-z\d=\s]+?>', '', s)`. */
  function RemoveTags(s: string): (r: string)
    ensures |r| <= |s|
    decreases |s|
  {
    if |s| == 0 then []
    else match TagAt(s)
      case Some(n) => RemoveTags(s[n..])
      case None => [s[0]] + RemoveTags(s[1..])
  }

  /** A tag is really deleted: text before it without `<` stays, the tag
      goes, and the rest is processed on its own. */
  lemma {:induction false} RemoveTagsDropsTag(a: string, t: string, b: string)
    requires forall i :: 0 <= i < |a| ==> a[i] != '<'
    requires IsTag(t, |t|)
    ensures RemoveTags(a + t + b) == a + RemoveTags(b)
    decreases |a|
  {
    var s := a + t + b;
    if |a| == 0 {
      assert s == t + b;
      assert IsTag(s, |t|);
      assert s[|t|..] == b;
    } else {
      assert s[0] == a[0];
      assert s[1..] == a[1..] + t + b;
      RemoveTagsDropsTag(a[1..], t, b);
      assert a == [a[0]] + a[1..];
    }
  }

  /** Text at none of whose positions a tag starts survives tag removal
      unchanged, whatever follows it; a stray `<` included. */
  lemma {:induction false} RemoveTagsKeepsUntagged(a: string, b: string)
    requires forall i :: 0 <= i < |a| ==> TagAt((a + b)[i..]).None?
    ensures RemoveTags(a + b) == a + RemoveTags(b)
    decreases |a|
  {
    var s := a + b;
    if |a| == 0 {
      assert s == b;
    } else {
      assert s[0..] == s;
      assert s[1..] == a[1..] + b;
      forall i | 0 <= i < |a[1..]|
        ensures TagAt((a[1..] + b)[i..]).None?
      {
        assert (a[1..] + b)[i..] == s[i + 1..];
      }
      RemoveTagsKeepsUntagged(a[1..], b);
      assert a == [a[0]] + a[1..];
    }
  }

  /** A `<` that opens no tag stays, and so does the text after it up to
      the next tag. */
  lemma StrayAngleKept()
    ensures RemoveTags("x<y <b>") == "x<y "
  {
    var a, b := "x<y ", "<b>";
    assert a + b == "x<y <b>";
    assert TagAt((a + b)[0..]).None?;
    assert TagAt((a + b)[1..]).None? by { assert (a + b)[1..] == "<y <b>"; assert TagClassEnd("<y <b>", 1) == 3; }
    assert TagAt((a + b)[2..]).None?;
    assert TagAt((a + b)[3..]).None?;
    RemoveTagsKeepsUntagged(a, b);
    RemoveTagsDropsTag("", b, "");
    assert "" + b + "" == b;
  }

  /** Every character a tag can consist of. */
  predicate IsTagChar(c: char) {
    c == '<' || c == '>' || InTagClass(c)
  }

  ghost const TagChars: set<char> := set c: char | IsTagChar(c)

  /** Tag removal deletes tag characters only: the rest survives in order. */
  lemma {:induction false} RemoveTagsKeepsText(s: string)
    ensures Without(RemoveTags(s), TagChars) == Without(s, TagChars)
    decreases |s|
  {
    if |s| > 0 {
      match TagAt(s)
      case Some(n) =>
        RemoveTagsKeepsText(s[n..]);
        TagOfTagChars(s, n);
        WithoutDroppedPrefix(s, n, TagChars);
      case None =>
        RemoveTagsKeepsText(s[1..]);
        WithoutConcat([s[0]], RemoveTags(s[1..]), TagChars);
        WithoutConcat([s[0]], s[1..], TagChars);
        assert s == [s[0]] + s[1..];
    }
  }

  lemma TagOfTagChars(s: string, n: nat)
    requires IsTag(s, n)
    ensures forall i :: 0 <= i < n ==> s[i] in TagChars
  {
    forall i | 0 <= i < n
      ensures s[i] in TagChars
    {
      assert IsTagChar(s[i]);
    }
  }

  /** Text without `<` has no tags to remove. */
  lemma {:induction false} RemoveTagsWithoutAngle(s: string)
    requires forall i :: 0 <= i < |s| ==> s[i] != '<'
    ensures RemoveTags(s) == s
    decreases |s|
  {
    if |s| > 0 {
      RemoveTagsWithoutAngle(s[1..]);
    }
  }

  /** A single pass can leave a tag behind, so the step is not idempotent. */
  lemma RemoveTagsNotIdempotent()
    ensures RemoveTags("<<a>b>") == "<b>"
    ensures RemoveTags("<b>") == ""
  {
    var s := "<<a>b>";
    assert TagAt(s) == None;
    assert TagAt(s[1..]) == Some(3);
    assert s[1..][3..] == "b>";
    assert TagAt("b>") == None;
    assert TagAt(">") == None;
    assert RemoveTags("b>") == "b>";
    assert TagAt("<b>") == Some(3);
  }

  /** The first `】` at or after `j` before any newline (the lazy `.+?】`). */
  function LabelCloseFrom(s: string, j: nat): (r: Option<nat>)
    ensures r.Some? ==> j <= r.value < |s| && s[r.value] == '】'
    ensures r.Some? ==> forall m :: j <= m < r.value ==> s[m] != '\n' && s[m] != '】'
    ensures forall k :: j <= k < |s| && s[k] == '】' && (forall m :: j <= m < k ==> s[m] != '\n')
                        ==> r.Some? && r.value <= k
    decreases |s| - j
  {
    if j >= |s| || s[j] == '\n' then None
    else if s[j] == '】' then Some(j)
    else LabelCloseFrom(s, j + 1)
  }

  /** `s[..n]` is a match of `【.+?】` (ignoring laziness). */
  predicate LabelSpan(s: string, n: int) {
    3 <= n <= |s| && s[0] == '【' && s[n - 1] == '】' && forall m :: 1 <= m < n - 1 ==> s[m] != '\n'
  }

  /** The length of the lazy match of `【.+?】` that starts `s`, if any: the
      shortest span from `【` to a `】` with at least one character between
      and no newline. */
  function LabelAt(s: string): (r: Option<nat>)
    ensures r.Some? ==> LabelSpan(s, r.value)
    ensures forall n :: LabelSpan(s, n) ==> r.Some? && r.value <= n
  {
    if |s| >= 2 && s[0] == '【' && s[1] != '\n' then
      match LabelCloseFrom(s, 2)
      case Some(k) => Some(k + 1)
      case None => None
    else None
  }

  /** `regex.sub(r'【.+?】', '', s)`. */
  function RemoveLabels(s: string): (r: string)
    ensures |r| <= |s|
    decreases |s|
  {
    if |s| == 0 then []
    else match LabelAt(s)
      case Some(n) => RemoveLabels(s[n..])
      case None => [s[0]] + RemoveLabels(s[1..])
  }

  /** A label preceded by text without `【` is deleted, that text is kept,
      and what follows the label is processed on its own. */
  lemma {:induction false} RemoveLabelsDropsLabel(a: string, b: string)
    requires forall i :: 0 <= i < |a| ==> a[i] != '【'
    requires LabelAt(b).Some?
    ensures RemoveLabels(a + b) == a + RemoveLabels(b[LabelAt(b).value..])
    decreases |a|
  {
    var s := a + b;
    if |a| == 0 {
      assert s == b;
    } else {
      assert s[0] == a[0];
      assert s[1..] == a[1..] + b;
      RemoveLabelsDropsLabel(a[1..], b);
      assert a == [a[0]] + a[1..];
    }
  }

  /** Text at none of whose positions a label starts survives label
      removal unchanged, whatever follows it; a `【` that is never closed on
      its line included. */
  lemma {:induction false} RemoveLabelsKeepsUnlabelled(a: string, b: string)
    requires forall i :: 0 <= i < |a| ==> LabelAt((a + b)[i..]).None?
    ensures RemoveLabels(a + b) == a + RemoveLabels(b)
    decreases |a|
  {
    var s := a + b;
    if |a| == 0 {
      assert s == b;
    } else {
      assert s[0..] == s;
      assert s[1..] == a[1..] + b;
      forall i | 0 <= i < |a[1..]|
        ensures LabelAt((a[1..] + b)[i..]).None?
      {
        assert (a[1..] + b)[i..] == s[i + 1..];
      }
      RemoveLabelsKeepsUnlabelled(a[1..], b);
      assert a == [a[0]] + a[1..];
    }
  }

  /** A `【` not closed on its line stays, and so does the text after it up
      to the next label. */
  lemma UnclosedLabelKept()
    ensures RemoveLabels("【x\n【a】") == "【x\n"
  {
    var a, b := "【x\n", "【a】";
    assert a + b == "【x\n【a】";
    assert LabelAt((a + b)[0..]).None? by { assert LabelCloseFrom(a + b, 2) == None; }
    assert LabelAt((a + b)[1..]).None?;
    assert LabelAt((a + b)[2..]).None?;
    RemoveLabelsKeepsUnlabelled(a, b);
    assert LabelAt(b) == Some(3);
    assert RemoveLabels(b) == RemoveLabels(b[3..]);
  }

  /** A label never spans a line, so removing labels keeps every newline. */
  lemma {:induction false} RemoveLabelsKeepsNewlines(s: string)
    ensures multiset(RemoveLabels(s))['\n'] == multiset(s)['\n']
    decreases |s|
  {
    if |s| > 0 {
      match LabelAt(s)
      case Some(n) =>
        RemoveLabelsKeepsNewlines(s[n..]);
        LabelHasNoNewline(s, n);
        assert s == s[..n] + s[n..];
        assert multiset(s) == multiset(s[..n]) + multiset(s[n..]);
      case None =>
        RemoveLabelsKeepsNewlines(s[1..]);
        assert s == [s[0]] + s[1..];
        assert RemoveLabels(s) == [s[0]] + RemoveLabels(s[1..]);
    }
  }

  lemma LabelHasNoNewline(s: string, n: nat)
    requires LabelSpan(s, n)
    ensures multiset(s[..n])['\n'] == 0
  {
    var t := s[..n];
    forall m | 0 <= m < |t|
      ensures t[m] != '\n'
    {
      assert t[m] == s[m];
    }
    assert '\n' !in t;
  }

  /** No `】` occurs before the first newline. */
  predicate LineLacksClose(t: string) {
    |t| == 0 || t[0] == '\n' || (t[0] != '】' && LineLacksClose(t[1..]))
  }

  lemma {:induction false} CloseFromNone(s: string, j: nat)
    ensures LabelCloseFrom(s, j).None? <==> (j >= |s| || LineLacksClose(s[j..]))
    decreases |s| - j
  {
    if j < |s| && s[j] != '\n' && s[j] != '】' {
      CloseFromNone(s, j + 1);
      assert s[j..][1..] == s[j + 1..];
    }
  }

  /** A string whose first line lacks `】` after its second character starts no label. */
  lemma NoLabelAtWhenLineLacks(r: string)
    requires |r| >= 2 && r[0] == '【' && r[1] != '\n' ==> LineLacksClose(r[2..])
    ensures LabelAt(r).None?
  {
    if |r| >= 2 && r[0] == '【' && r[1] != '\n' {
      CloseFromNone(r, 2);
    }
  }

  /** Label removal never puts a `】` on a first line that had none. */
  lemma {:induction false} RemoveLabelsKeepsLineLacks(t: string)
    requires LineLacksClose(t)
    ensures LineLacksClose(RemoveLabels(t))
    decreases |t|
  {
    if |t| > 0 && t[0] != '\n' {
      assert LineLacksClose(t[1..]);
      if |t| >= 2 && t[1] != '\n' {
        assert LineLacksClose(t[1..][1..]);
        assert t[1..][1..] == t[2..];
      }
      NoLabelAtWhenLineLacks(t);
      RemoveLabelsKeepsLineLacks(t[1..]);
      assert RemoveLabels(t) == [t[0]] + RemoveLabels(t[1..]);
      assert ([t[0]] + RemoveLabels(t[1..]))[1..] == RemoveLabels(t[1..]);
    }
  }

  /** No label starts anywhere in `s`. */
  predicate NoLabel(s: string) {
    forall i :: 0 <= i < |s| ==> LabelAt(s[i..]).None?
  }

  /** The label removal output contains no label: one pass reaches the fixed point. */
  lemma {:induction false} RemoveLabelsLeavesNoLabel(s: string)
    ensures NoLabel(RemoveLabels(s))
    decreases |s|
  {
    if |s| > 0 {
      match LabelAt(s)
      case Some(n) =>
        RemoveLabelsLeavesNoLabel(s[n..]);
      case None =>
        var rest := RemoveLabels(s[1..]);
        var r := [s[0]] + rest;
        RemoveLabelsLeavesNoLabel(s[1..]);
        forall i | 1 <= i < |r|
          ensures LabelAt(r[i..]).None?
        {
          assert r[i..] == rest[i - 1..];
        }
        FirstLabelStaysAbsent(s, rest);
        assert r[0..] == r;
    }
  }

  lemma FirstLabelStaysAbsent(s: string, rest: string)
    requires |s| > 0 && LabelAt(s).None?
    requires rest == RemoveLabels(s[1..])
    ensures LabelAt([s[0]] + rest).None?
  {
    var r := [s[0]] + rest;
    if |s| >= 2 && s[0] == '【' {
      if s[1] == '\n' {
        assert LabelAt(s[1..]).None?;
        assert rest == [s[1]] + RemoveLabels(s[1..][1..]);
        assert r[1] == '\n';
      } else {
        CloseFromNone(s, 2);
        var t := s[2..];
        assert LineLacksClose(t);
        assert s[1..][1..] == t;
        if s[1] == '】' {
          assert LabelAt(s[1..]).None?;
          assert rest == [s[1]] + RemoveLabels(t);
          RemoveLabelsKeepsLineLacks(t);
          assert r[2..] == RemoveLabels(t);
        } else {
          assert LineLacksClose(s[1..]);
          RemoveLabelsKeepsLineLacks(s[1..]);
          if |rest| > 0 && rest[0] != '\n' {
            assert r[2..] == rest[1..];
          }
        }
      }
    }
    NoLabelAtWhenLineLacks(r);
  }

  /** Text without labels is its own label removal. */
  lemma {:induction false} RemoveLabelsFixes(s: string)
    requires NoLabel(s)
    ensures RemoveLabels(s) == s
    decreases |s|
  {
    if |s| > 0 {
      assert s[0..] == s;
      assert NoLabel(s[1..]) by {
        forall i | 0 <= i < |s[1..]|
          ensures LabelAt(s[1..][i..]).None?
        {
          assert s[1..][i..] == s[i + 1..];
        }
      }
      RemoveLabelsFixes(s[1..]);
    }
  }

  lemma RemoveLabelsIdempotent(s: string)
    ensures RemoveLabels(RemoveLabels(s)) == RemoveLabels(s)
  {
    RemoveLabelsLeavesNoLabel(s);
    RemoveLabelsFixes(RemoveLabels(s));
  }

  /** Lines 19-21 of utils.py: tags, then labels, then newlines. */
  function StripMarkup(raw: string): (r: string)
    ensures forall i :: 0 <= i < |r| ==> r[i] != '\n'
    ensures |r| <= |raw|
  {
    var r := Without(RemoveLabels(RemoveTags(raw)), {'\n'});
    WithoutMembers(RemoveLabels(RemoveTags(raw)), {'\n'});
    assert forall i :: 0 <= i < |r| ==> r[i] in r;
    r
  }

  /** Text without `【` has no labels to remove. */
  lemma {:induction false} RemoveLabelsWithoutOpen(s: string)
    requires forall i :: 0 <= i < |s| ==> s[i] != '【'
    ensures RemoveLabels(s) == s
    decreases |s|
  {
    if |s| > 0 {
      RemoveLabelsWithoutOpen(s[1..]);
    }
  }

  /** A newline met before any `】` ends the search for a label's close. */
  lemma {:induction false} CloseFromMeetsNewline(s: string, j: nat, k: nat)
    requires j <= k < |s| && s[k] == '\n'
    requires forall m :: j <= m < k ==> s[m] != '】'
    ensures LabelCloseFrom(s, j).None?
    decreases k - j
  {
    if j < k && s[j] != '\n' {
      CloseFromMeetsNewline(s, j + 1, k);
    }
  }

  /** Labels are removed before newlines, so a label broken by a newline
      survives, and removing the newline joins it into one. */
  lemma BrokenLabelIsJoined(x: string, y: string)
    requires |x| > 0
    requires forall i :: 0 <= i < |x| ==> x[i] !in {'\n', '【', '】', '<'}
    requires forall i :: 0 <= i < |y| ==> y[i] !in {'\n', '【', '<'}
    ensures StripMarkup("【" + x + "\n" + y + "】") == "【" + x + y + "】"
  {
    var s := "【" + x + "\n" + y + "】";
    BrokenLabelChars(x, y, s);
    RemoveTagsWithoutAngle(s);
    BrokenLabelKept(s, |x| + 1);
    BrokenLabelNewline(x, y, s);
  }

  lemma BrokenLabelChars(x: string, y: string, s: string)
    requires s == "【" + x + "\n" + y + "】"
    requires forall i :: 0 <= i < |x| ==> x[i] !in {'\n', '【', '】', '<'}
    requires forall i :: 0 <= i < |y| ==> y[i] !in {'\n', '【', '<'}
    ensures forall i :: 0 <= i < |s| ==> s[i] != '<'
    ensures forall i :: 1 <= i < |s| ==> s[i] != '【'
    ensures s[0] == '【' && s[|x| + 1] == '\n'
    ensures forall i :: 1 <= i <= |x| ==> s[i] != '】' && s[i] != '\n'
  {
    assert forall i :: 1 <= i <= |x| ==> s[i] == x[i - 1];
    assert forall i :: |x| + 2 <= i < |s| - 1 ==> s[i] == y[i - |x| - 2];
  }

  lemma BrokenLabelKept(s: string, k: nat)
    requires 2 <= k < |s| && s[0] == '【' && s[k] == '\n'
    requires forall i :: 1 <= i < |s| ==> s[i] != '【'
    requires forall i :: 1 <= i < k ==> s[i] != '】' && s[i] != '\n'
    ensures RemoveLabels(s) == s
  {
    CloseFromMeetsNewline(s, 2, k);
    assert LabelAt(s).None?;
    RemoveLabelsWithoutOpen(s[1..]);
    assert RemoveLabels(s) == [s[0]] + RemoveLabels(s[1..]);
    assert s == [s[0]] + s[1..];
  }

  lemma BrokenLabelNewline(x: string, y: string, s: string)
    requires s == "【" + x + "\n" + y + "】"
    requires forall i :: 0 <= i < |x| ==> x[i] != '\n'
    requires forall i :: 0 <= i < |y| ==> y[i] != '\n'
    ensures Without(s, {'\n'}) == "【" + x + y + "】"
  {
    var a := "【" + x;
    var b := y + "】";
    assert forall i :: 1 <= i < |a| ==> a[i] == x[i - 1];
    assert forall i :: 0 <= i < |y| ==> b[i] == y[i];
    assert s == a + ['\n'] + b;
    WithoutOneDropped(a, '\n', b, {'\n'});
  }

  /** Dropping the only dropped character between two clean strings. */
  lemma WithoutOneDropped(a: string, c: char, b: string, d: set<char>)
    requires c in d
    requires forall i :: 0 <= i < |a| ==> a[i] !in d
    requires forall i :: 0 <= i < |b| ==> b[i] !in d
    ensures Without(a + [c] + b, d) == a + b
  {
    WithoutConcat(a + [c], b, d);
    WithoutDroppedLast(a, c, d);
    WithoutNothingToDrop(a, d);
    WithoutNothingToDrop(b, d);
  }

  lemma WithoutDroppedLast(a: string, c: char, d: set<char>)
    requires c in d
    ensures Without(a + [c], d) == Without(a, d)
  {
    WithoutConcat(a, [c], d);
    assert Without([c], d) == [];
  }

  /** `cleaning` (utils.py:5-25). */
  function Clean(raw: string, maps: TextMaps): string {
    Normalize(StripMarkup(raw), maps)
  }
}

=== FILE: extraction.dfy ===
/** Field extraction from an NTCIR patent document and claim splitting
    (`extract_content_from_NTCIR` and `split_claims` of utils.py). */
module Extraction {
  import opened Wrappers
  import opened Strings

  /** The exception raised for a field name outside {ab, cl, de, es}. */
  datatype FieldError = InvalidField(name: string)

  const CloseTag: string := "</SDO>"
  /** The label that introduces the drawing-reference description. */
  const DrawingLabel: string := "【符号の説明】"

  /** The tag that opens a field: `<SDO ` + the upper-cased field + `J>`. */
  function OpenTag(field: string): string {
    "<SDO " + AsciiUpper(field) + "J>"
  }

  predicate IsTaggedField(field: string) {
    field == "ab" || field == "cl" || field == "de"
  }

  /** `<SDO XXJ>([\S\s]+?)</SDO>` matches from `i` with the close tag at `j`. */
  predicate SdoMatch(doc: string, open: string, i: int, j: int) {
    OccursAt(doc, open, i) && i + |open| < j && OccursAt(doc, CloseTag, j)
  }

  /** `regex.search` of the tagged-field pattern: the leftmost start, and
      for it the nearest close tag (the lazy group). */
  function SearchSdo(doc: string, open: string): (r: Option<(nat, nat)>)
    ensures r.Some? ==> SdoMatch(doc, open, r.value.0, r.value.1)
    ensures r.Some? ==> forall i, j :: 0 <= i < r.value.0 ==> !SdoMatch(doc, open, i, j)
    ensures r.Some? ==> forall j :: j < r.value.1 ==> !SdoMatch(doc, open, r.value.0, j)
    ensures r.None? ==> forall i, j :: !SdoMatch(doc, open, i, j)
  {
    match FindFrom(doc, open, 0)
    case None => None
    case Some(i) =>
      match FindFrom(doc, CloseTag, i + |open| + 1)
      case None =>
        // a close tag after a later start would also follow this one
        None
      case Some(j) => Some((i, j))
  }

  /** The characters the drawing-reference group stops at: the class
      `[^(?:【.+?】)]` reads as a negated set of these eight characters. */
  const EsStop: set<char> := {'(', '?', ':', '【', '.', '+', '】', ')'}

  /** The end of the run of non-stop characters starting at `k`. */
  function RunEnd(s: string, k: nat): (e: nat)
    requires k <= |s|
    ensures k <= e <= |s|
    ensures forall m :: k <= m < e ==> s[m] !in EsStop
    ensures e < |s| ==> s[e] in EsStop
    decreases |s| - k
  {
    if k < |s| && s[k] !in EsStop then RunEnd(s, k + 1) else k
  }

  /** `【符号の説明】([^…]+)` can match at `i`: the label, then at least one
      non-stop character. */
  predicate EsMatch(doc: string, i: int) {
    OccursAt(doc, DrawingLabel, i) && i + |DrawingLabel| < |doc| && doc[i + |DrawingLabel|] !in EsStop
  }

  /** The leftmost start at or after `from` where the drawing-reference
      pattern matches; a label followed by a stop character is skipped. */
  function SearchEs(doc: string, from: nat): (r: Option<nat>)
    ensures r.Some? ==> from <= r.value && EsMatch(doc, r.value)
    ensures r.Some? ==> forall i :: from <= i < r.value ==> !EsMatch(doc, i)
    ensures r.None? ==> forall i :: from <= i ==> !EsMatch(doc, i)
    decreases |doc| - from
  {
    match FindFrom(doc, DrawingLabel, from)
    case None => None
    case Some(i) =>
      if EsMatch(doc, i) then Some(i) else SearchEs(doc, i + 1)
  }

  /** `extract_content_from_NTCIR(doc, field)`. */
  function ExtractContent(doc: string, field: string): (r: Result<string, FieldError>)
    ensures r.Failure? <==> !IsTaggedField(field) && field != "es"
    ensures r.Failure? ==> r.error == InvalidField(field)
  {
    if IsTaggedField(field) then
      match SearchSdo(doc, OpenTag(field))
      case None => Success("")
      case Some((i, j)) => Success(doc[i + |OpenTag(field)|..j])
    else if field == "es" then
      match SearchEs(doc, 0)
      case None => Success("")
      case Some(i) =>
        var k := i + |DrawingLabel|;
        Success(doc[k..RunEnd(doc, k)])
    else Failure(InvalidField(field))
  }

  /** The match `regex.search` reports: leftmost start, then nearest close. */
  ghost predicate FirstSdoMatch(doc: string, open: string, i: int, j: int) {
    SdoMatch(doc, open, i, j)
    && (forall i', j' :: 0 <= i' < i ==> !SdoMatch(doc, open, i', j'))
    && (forall j' :: j' < j ==> !SdoMatch(doc, open, i, j'))
  }

  /** A tagged field's content is the text between the leftmost opening tag
      that has a close tag after it and the nearest such close tag, and is
      empty exactly when there is no such pair. */
  lemma ExtractTaggedField(doc: string, field: string)
    requires IsTaggedField(field)
    ensures var r := ExtractContent(doc, field);
      var open := OpenTag(field);
      r.Success?
      && (r.value == "" <==> forall i, j :: !SdoMatch(doc, open, i, j))
      && (r.value != "" ==>
            exists i, j :: FirstSdoMatch(doc, open, i, j) && r.value == doc[i + |open|..j])
  {
    var open := OpenTag(field);
    match SearchSdo(doc, open)
    case None =>
    case Some((i, j)) =>
      assert FirstSdoMatch(doc, open, i, j);
  }

  /** The drawing-reference group: the longest run of non-stop characters
      after the label that starts at `i`. */
  ghost predicate EsGroup(doc: string, i: int, g: string) {
    var k := i + |DrawingLabel|;
    0 <= k && exists e :: (k < e <= |doc| && g == doc[k..e]
                           && (forall m :: k <= m < e ==> doc[m] !in EsStop)
                           && (e < |doc| ==> doc[e] in EsStop))
  }

  /** The drawing-reference content is the longest run of non-stop
      characters after the leftmost label that has one; it is empty exactly
      when no label is followed by a non-stop character. */
  lemma ExtractDrawingReference(doc: string)
    ensures var r := ExtractContent(doc, "es");
      r.Success?
      && (r.value == "" <==> forall i :: !EsMatch(doc, i))
      && (r.value != "" ==>
            exists i :: (EsMatch(doc, i) && (forall i' :: 0 <= i' < i ==> !EsMatch(doc, i'))
                         && EsGroup(doc, i, r.value)))
  {
    match SearchEs(doc, 0)
    case None =>
    case Some(i) =>
      var k := i + |DrawingLabel|;
      var e := RunEnd(doc, k);
      assert EsMatch(doc, i);
      assert k < e;
      assert EsGroup(doc, i, doc[k..e]);
  }

  /** Claim markers `【請求項\d+】`. */

  const ClaimPrefix: string := "【請求項"

  /** The end of the run of digits starting at `k`. */
  function DigitsEnd(s: string, k: nat): (e: nat)
    requires k <= |s|
    ensures k <= e <= |s|
    ensures forall m :: k <= m < e ==> IsDigit(s[m])
    ensures e < |s| ==> !IsDigit(s[e])
    decreases |s| - k
  {
    if k < |s| && IsDigit(s[k]) then DigitsEnd(s, k + 1) else k
  }

  /** `s[i..i+n]` is a claim marker. */
  predicate IsMarker(s: string, i: int, n: int) {
    OccursAt(s, ClaimPrefix, i) && i + |ClaimPrefix| < i + n - 1 && i + n <= |s|
    && (forall m :: i + |ClaimPrefix| <= m < i + n - 1 ==> IsDigit(s[m]))
    && s[i + n - 1] == '】'
  }

  /** The length of the claim marker at `i`, if there is one; since `】` is
      not a digit, a marker has only one possible length. */
  function MarkerAt(s: string, i: nat): Option<nat>
  {
    if OccursAt(s, ClaimPrefix, i) then
      var e := DigitsEnd(s, i + |ClaimPrefix|);
      if e > i + |ClaimPrefix| && e < |s| && s[e] == '】' then Some(e + 1 - i) else None
    else None
  }

  /** `MarkerAt` finds exactly the markers. */
  lemma MarkerAtMeaning(s: string, i: nat)
    ensures MarkerAt(s, i).Some? ==> IsMarker(s, i, MarkerAt(s, i).value)
    ensures forall n :: IsMarker(s, i, n) ==> MarkerAt(s, i) == Some(n)
  {
  }

  /** The lookahead `(?=【請求項\d+】|$)` holds at `j`; `$` also matches
      before a final newline. */
  predicate ClaimBoundary(s: string, j: nat) {
    MarkerAt(s, j).Some? || j == |s| || (j + 1 == |s| && s[j] == '\n')
  }

  /** The nearest boundary at or after `j` (the lazy `[\S\s]+?`). */
  function ClaimEnd(s: string, j: nat): (e: nat)
    requires j <= |s|
    ensures j <= e <= |s|
    decreases |s| - j
  {
    if ClaimBoundary(s, j) then j else ClaimEnd(s, j + 1)
  }

  /** The end found is a boundary and no boundary comes before it. */
  lemma {:induction false} ClaimEndNearest(s: string, j: nat)
    requires j <= |s|
    ensures ClaimBoundary(s, ClaimEnd(s, j))
    ensures forall m :: j <= m < ClaimEnd(s, j) ==> !ClaimBoundary(s, m)
    decreases |s| - j
  {
    if !ClaimBoundary(s, j) {
      ClaimEndNearest(s, j + 1);
    }
  }

  /** The nearest boundary is the only one with no boundary before it. */
  lemma {:induction false} ClaimEndAt(s: string, j: nat, e: nat)
    requires j <= e <= |s| && ClaimBoundary(s, e)
    requires forall m :: j <= m < e ==> !ClaimBoundary(s, m)
    ensures ClaimEnd(s, j) == e
    decreases e - j
  {
    if j < e {
      ClaimEndAt(s, j + 1, e);
    }
  }

  /** The place of one claim in the text: the marker starts at `marker`,
      the claim text is `s[start..end]`. */
  datatype ClaimSpan = ClaimSpan(marker: nat, start: nat, end: nat)

  /** One match of the claim pattern. */
  predicate IsClaimSpan(s: string, c: ClaimSpan) {
    IsMarker(s, c.marker, c.start - c.marker) && c.start < c.end <= |s|
    && ClaimBoundary(s, c.end) && forall m :: c.start < m < c.end ==> !ClaimBoundary(s, m)
  }

  /** Matches found from `p`: each a claim span starting at or after `p`,
      in order and not overlapping. */
  predicate SpansFrom(s: string, r: seq<ClaimSpan>, p: nat) {
    (forall k :: 0 <= k < |r| ==> IsClaimSpan(s, r[k]) && p <= r[k].marker)
    && (forall k :: 0 <= k < |r| - 1 ==> r[k].end <= r[k + 1].marker)
  }

  /** The attempt of the claim pattern at `p`: a marker, at least one
      character, and the nearest boundary after that character. */
  function MatchAt(s: string, p: nat): (r: Option<ClaimSpan>)
    ensures r.Some? ==> r.value.marker == p && p < r.value.end <= |s|
  {
    match MarkerAt(s, p)
    case Some(n) =>
      if p + n < |s| then Some(ClaimSpan(p, p + n, ClaimEnd(s, p + n + 1))) else None
    case None => None
  }

  /** `regex.findall` of the claim pattern from position `p`: a failed
      attempt advances by one, a match resumes at its end. */
  function ClaimSpansFrom(s: string, p: nat): seq<ClaimSpan>
    decreases |s| - p
  {
    if p >= |s| then []
    else match MatchAt(s, p)
      case Some(c) => [c] + ClaimSpansFrom(s, c.end)
      case None => ClaimSpansFrom(s, p + 1)
  }

  /** Every match found from `p` is a claim span at or after `p`, and the
      matches are in order without overlap. */
  lemma {:induction false} ClaimSpansFromValid(s: string, p: nat)
    ensures SpansFrom(s, ClaimSpansFrom(s, p), p)
    decreases |s| - p
  {
    if p < |s| {
      match MatchAt(s, p)
      case Some(c) =>
        ClaimSpansFromValid(s, c.end);
        MatchAtIsClaimSpan(s, p);
        ConsSpans(s, c, ClaimSpansFrom(s, c.end), p);
      case None =>
        ClaimSpansFromValid(s, p + 1);
        assert SpansFrom(s, ClaimSpansFrom(s, p + 1), p);
    }
  }

  /** A successful attempt is a claim span. */
  lemma MatchAtIsClaimSpan(s: string, p: nat)
    requires MatchAt(s, p).Some?
    ensures IsClaimSpan(s, MatchAt(s, p).value)
  {
    var n := MarkerAt(s, p).value;
    var c := MatchAt(s, p).value;
    assert c == ClaimSpan(p, p + n, ClaimEnd(s, p + n + 1));
    MarkerAtMeaning(s, p);
    assert IsMarker(s, c.marker, c.start - c.marker);
    ClaimEndNearest(s, p + n + 1);
  }

  /** A match followed by the matches found from its end. */
  lemma ConsSpans(s: string, c: ClaimSpan, rest: seq<ClaimSpan>, p: nat)
    requires IsClaimSpan(s, c) && p <= c.marker
    requires SpansFrom(s, rest, c.end)
    ensures SpansFrom(s, [c] + rest, p)
  {
    ConsSpansValid(s, c, rest, p);
    ConsSpansOrdered(c, rest);
  }

  lemma ConsSpansValid(s: string, c: ClaimSpan, rest: seq<ClaimSpan>, p: nat)
    requires IsClaimSpan(s, c) && p <= c.marker < c.end
    requires forall k :: 0 <= k < |rest| ==> IsClaimSpan(s, rest[k]) && c.end <= rest[k].marker
    ensures forall k :: 0 <= k < |[c] + rest| ==> IsClaimSpan(s, ([c] + rest)[k]) && p <= ([c] + rest)[k].marker
  {
    var r := [c] + rest;
    forall k | 0 <= k < |r|
      ensures IsClaimSpan(s, r[k]) && p <= r[k].marker
    {
      if k > 0 {
        assert r[k] == rest[k - 1];
      }
    }
  }

  lemma ConsSpansOrdered(c: ClaimSpan, rest: seq<ClaimSpan>)
    requires forall k :: 0 <= k < |rest| ==> c.end <= rest[k].marker
    requires forall k :: 0 <= k < |rest| - 1 ==> rest[k].end <= rest[k + 1].marker
    ensures forall k :: 0 <= k < |[c] + rest| - 1 ==> ([c] + rest)[k].end <= ([c] + rest)[k + 1].marker
  {
    var r := [c] + rest;
    forall k | 0 <= k < |r| - 1
      ensures r[k].end <= r[k + 1].marker
    {
      assert r[k + 1] == rest[k];
      if k > 0 {
        assert r[k] == rest[k - 1];
      }
    }
  }

  /** `split_claims(raw_claim)`. */
  function SplitClaims(s: string): (claims: seq<string>)
  {
    var spans := ClaimSpansFrom(s, 0);
    ClaimSpansFromValid(s, 0);
    seq(|spans|, k requires 0 <= k < |spans| => s[spans[k].start..spans[k].end])
  }

  /** Every claim is the non-empty text that follows a marker and runs up to
      the next marker or the end of the text, with no marker inside it. */
  lemma ClaimsFollowMarkers(s: string)
    ensures var claims := SplitClaims(s);
      var spans := ClaimSpansFrom(s, 0);
      |claims| == |spans|
      && forall k :: 0 <= k < |claims| ==>
           IsClaimSpan(s, spans[k]) && claims[k] == s[spans[k].start..spans[k].end]
           && |claims[k]| > 0
           && forall q :: 1 <= q < |claims[k]| ==> MarkerAt(claims[k], q).None?
  {
    var spans := ClaimSpansFrom(s, 0);
    var claims := SplitClaims(s);
    ClaimSpansFromValid(s, 0);
    forall k | 0 <= k < |claims|
      ensures forall q :: 1 <= q < |claims[k]| ==> MarkerAt(claims[k], q).None?
    {
      SpanHasNoMarker(s, spans[k]);
    }
  }

  /** The text of one match holds no marker after its first character. */
  lemma SpanHasNoMarker(s: string, c: ClaimSpan)
    requires IsClaimSpan(s, c)
    ensures forall q :: 1 <= q < c.end - c.start ==> MarkerAt(s[c.start..c.end], q).None?
  {
    SpanInterior(s, c);
    SliceHasNoMarker(s, c.start, c.end);
  }

  lemma SpanInterior(s: string, c: ClaimSpan)
    requires IsClaimSpan(s, c)
    ensures forall m :: c.start < m < c.end ==> MarkerAt(s, m).None?
  {
    forall m | c.start < m < c.end
      ensures MarkerAt(s, m).None?
    {
      assert !ClaimBoundary(s, m);
    }
  }

  lemma SliceHasNoMarker(s: string, a: nat, b: nat)
    requires a <= b <= |s|
    requires forall m :: a < m < b ==> MarkerAt(s, m).None?
    ensures forall q :: 1 <= q < b - a ==> MarkerAt(s[a..b], q).None?
  {
    forall q | 1 <= q < b - a
      ensures MarkerAt(s[a..b], q).None?
    {
      MarkerSliceLift(s, a, b, q);
    }
  }

  /** A marker found in a slice is found in the whole text. */
  lemma MarkerSliceLift(s: string, a: nat, b: nat, q: nat)
    requires a <= b <= |s|
    ensures MarkerAt(s[a..b], q).Some? ==> MarkerAt(s, a + q).Some?
  {
    if MarkerAt(s[a..b], q).Some? {
      MarkerAtMeaning(s[a..b], q);
      MarkerInSlice(s, a, b, q, MarkerAt(s[a..b], q).value);
      MarkerAtMeaning(s, a + q);
    }
  }

  /** A marker inside a slice is a marker in the whole text. */
  lemma MarkerInSlice(s: string, a: nat, b: nat, q: nat, n: nat)
    requires a <= b <= |s|
    requires IsMarker(s[a..b], q, n)
    ensures IsMarker(s, a + q, n)
  {
    OccursInSlice(s, ClaimPrefix, a, b, q);
    assert forall m :: q <= m < q + n ==> s[a..b][m] == s[a + m];
  }

  /** Text without a claim marker has no claims. */
  lemma {:induction false} NoMarkerNoClaims(s: string, p: nat)
    requires forall i :: p <= i < |s| ==> MarkerAt(s, i).None?
    ensures ClaimSpansFrom(s, p) == []
    decreases |s| - p
  {
    if p < |s| {
      NoMarkerNoClaims(s, p + 1);
    }
  }

  /** No match is found from `p` only when no attempt from `p` succeeds. */
  lemma {:induction false} ClaimSpansFromNone(s: string, p: nat)
    ensures ClaimSpansFrom(s, p) == [] ==> forall i :: p <= i < |s| ==> MatchAt(s, i).None?
    decreases |s| - p
  {
    if p < |s| && MatchAt(s, p).None? {
      ClaimSpansFromNone(s, p + 1);
      assert ClaimSpansFrom(s, p) == ClaimSpansFrom(s, p + 1);
    }
  }

  /** The first match found from `p` is the first successful attempt at or
      after `p`, and the matches after it are those found from its end. */
  lemma {:induction false} ClaimSpansFromFirst(s: string, p: nat)
    requires ClaimSpansFrom(s, p) != []
    ensures MatchAt(s, ClaimSpansFrom(s, p)[0].marker) == Some(ClaimSpansFrom(s, p)[0])
    ensures forall i :: p <= i < ClaimSpansFrom(s, p)[0].marker ==> MatchAt(s, i).None?
    ensures ClaimSpansFrom(s, p)[1..] == ClaimSpansFrom(s, ClaimSpansFrom(s, p)[0].end)
    decreases |s| - p
  {
    assert p < |s|;
    if MatchAt(s, p).None? {
      assert ClaimSpansFrom(s, p) == ClaimSpansFrom(s, p + 1);
      ClaimSpansFromFirst(s, p + 1);
    }
  }

  /** A marker with text after it starts a match. */
  lemma MarkerWithTextMatches(s: string, p: nat, n: nat)
    requires IsMarker(s, p, n) && p + n < |s|
    ensures MatchAt(s, p).Some?
  {
    MarkerAtMeaning(s, p);
  }

  /** A marker followed by at least one character yields a claim. */
  lemma MarkerWithTextGivesClaim(s: string, p: nat, n: nat)
    requires IsMarker(s, p, n) && p + n < |s|
    ensures |SplitClaims(s)| > 0
  {
    MarkerWithTextMatches(s, p, n);
    ClaimSpansFromNone(s, 0);
  }

  /** The number of marker positions at or after `p`. */
  function MarkerCount(s: string, p: nat): nat
    decreases |s| - p
  {
    if p >= |s| then 0
    else (if MarkerAt(s, p).Some? then 1 else 0) + MarkerCount(s, p + 1)
  }

  /** There are never more claims than markers. */
  lemma {:induction false} ClaimsAtMostMarkers(s: string, p: nat)
    ensures |ClaimSpansFrom(s, p)| <= MarkerCount(s, p)
    decreases |s| - p
  {
    if p < |s| {
      match MatchAt(s, p)
      case Some(c) =>
        assert MarkerAt(s, p).Some?;
        ClaimsAtMostMarkers(s, c.end);
        MarkerCountMonotone(s, p + 1, c.end);
      case None =>
        ClaimsAtMostMarkers(s, p + 1);
    }
  }

  lemma {:induction false} MarkerCountMonotone(s: string, p: nat, q: nat)
    requires p <= q
    ensures MarkerCount(s, q) <= MarkerCount(s, p)
    decreases q - p
  {
    if p < q {
      MarkerCountMonotone(s, p + 1, q);
    }
  }
}

module ExtractionExamples {
  import opened Wrappers
  import opened Strings
  import opened Extraction

  lemma ClaimsOfSpans(s: string, spans: seq<ClaimSpan>)
    requires ClaimSpansFrom(s, 0) == spans
    ensures |SplitClaims(s)| == |spans|
    ensures forall k :: 0 <= k < |spans| ==>
      spans[k].start <= spans[k].end <= |s| && SplitClaims(s)[k] == s[spans[k].start..spans[k].end]
  {
    ClaimSpansFromValid(s, 0);
  }

  /** Two marked claims come out in order without their markers. */
  lemma TwoClaims()
    ensures SplitClaims("【請求項1】A【請求項2】B") == ["A", "B"]
  {
    var s := "【請求項1】A【請求項2】B";
    TwoClaimsSpans();
    ClaimsOfSpans(s, [ClaimSpan(0, 6, 7), ClaimSpan(7, 13, 14)]);
    var claims := SplitClaims(s);
    assert claims[0] == s[6..7] == [s[6]] == "A";
    assert claims[1] == s[13..14] == [s[13]] == "B";
  }

  lemma TwoClaimsSpans()
    ensures ClaimSpansFrom("【請求項1】A【請求項2】B", 0) == [ClaimSpan(0, 6, 7), ClaimSpan(7, 13, 14)]
  {
    TwoClaimsFirst();
    TwoClaimsSecond();
  }

  lemma TwoClaimsFirst()
    ensures MatchAt("【請求項1】A【請求項2】B", 0) == Some(ClaimSpan(0, 6, 7))
  {
    FirstClaimMarker("【請求項1】A【請求項2】B");
    TwoClaimsSecondMarker();
    ClaimEndAt("【請求項1】A【請求項2】B", 7, 7);
  }

  /** A text that opens with the first claim's marker has a marker of
      length six at its start. */
  lemma FirstClaimMarker(s: string)
    requires |s| >= 6 && s[..6] == "【請求項1】"
    ensures MarkerAt(s, 0) == Some(6)
  {
    assert s[..4] == s[..6][..4];
    assert OccursAt(s, ClaimPrefix, 0);
    assert s[4] == s[..6][4] && s[5] == s[..6][5];
    assert DigitsEnd(s, 4) == 5;
  }

  lemma TwoClaimsSecondMarker()
    ensures MarkerAt("【請求項1】A【請求項2】B", 7) == Some(6)
  {
    assert "【請求項1】A【請求項2】B"[7..11] == ClaimPrefix;
    assert DigitsEnd("【請求項1】A【請求項2】B", 11) == 12;
  }

  lemma TwoClaimsSecond()
    ensures ClaimSpansFrom("【請求項1】A【請求項2】B", 7) == [ClaimSpan(7, 13, 14)]
  {
    TwoClaimsSecondMatch();
    assert ClaimSpansFrom("【請求項1】A【請求項2】B", 14) == [];
  }

  lemma TwoClaimsSecondMatch()
    ensures MatchAt("【請求項1】A【請求項2】B", 7) == Some(ClaimSpan(7, 13, 14))
  {
    TwoClaimsSecondMarker();
    ClaimEndAt("【請求項1】A【請求項2】B", 14, 14);
  }

  /** The lookahead `$` matches before a final newline, so that newline is
      not part of a last claim that has other text. */
  lemma FinalNewlineDropped(s: string)
    requires s == "【請求項1】A\n"
    ensures SplitClaims(s) == ["A"]
  {
    FirstClaimMarker(s);
    ClaimEndAt(s, 7, 7);
    assert MatchAt(s, 0) == Some(ClaimSpan(0, 6, 7));
    assert MarkerAt(s, 7).None?;
    assert ClaimSpansFrom(s, 7) == [];
    ClaimsOfSpans(s, [ClaimSpan(0, 6, 7)]);
    assert s[6..7] == [s[6]] == "A";
  }

  /** The lazy body must take one character, so a marker followed only by
      a newline has that newline as its claim. */
  lemma LoneNewlineClaim(s: string)
    requires s == "【請求項1】\n"
    ensures SplitClaims(s) == ["\n"]
  {
    FirstClaimMarker(s);
    ClaimEndAt(s, 7, 7);
    assert MatchAt(s, 0) == Some(ClaimSpan(0, 6, 7));
    assert ClaimSpansFrom(s, 7) == [];
    ClaimsOfSpans(s, [ClaimSpan(0, 6, 7)]);
    assert s[6..7] == [s[6]] == "\n";
  }

  /** A claim must have at least one character, so a marker that directly
      follows another one becomes the text of the first claim. */
  lemma AdjacentMarkers()
    ensures SplitClaims("【請求項1】【請求項2】B") == ["【請求項2】B"]
  {
    var s := "【請求項1】【請求項2】B";
    AdjacentMarkersSpans();
    ClaimsOfSpans(s, [ClaimSpan(0, 6, 13)]);
    var claims := SplitClaims(s);
    assert claims[0] == s[6..13] == "【請求項2】B";
  }

  lemma AdjacentMarkersSpans()
    ensures ClaimSpansFrom("【請求項1】【請求項2】B", 0) == [ClaimSpan(0, 6, 13)]
  {
    AdjacentMarkersMatch();
    assert ClaimSpansFrom("【請求項1】【請求項2】B", 13) == [];
  }

  lemma AdjacentMarkersMatch()
    ensures MatchAt("【請求項1】【請求項2】B", 0) == Some(ClaimSpan(0, 6, 13))
  {
    FirstClaimMarker("【請求項1】【請求項2】B");
    AdjacentMarkersEnd();
  }

  lemma AdjacentMarkersEnd()
    ensures ClaimEnd("【請求項1】【請求項2】B", 7) == 13
  {
    var s := "【請求項1】【請求項2】B";
    forall j | 7 <= j < 13
      ensures !ClaimBoundary(s, j)
    {
      assert s[j] != '【';
      assert j + 4 <= |s| ==> s[j..j + 4][0] == s[j];
    }
    ClaimEndAt(s, 7, 13);
  }

  /** The abstract is the text between its tags. */
  lemma AbstractExample()
    ensures ExtractContent("<SDO ABJ>x</SDO>", "ab") == Success("x")
  {
    var d := "<SDO ABJ>x</SDO>";
    var u := AsciiUpper("ab");
    assert u[0] == 'A' && u[1] == 'B';
    assert u == "AB";
    assert OpenTag("ab") == "<SDO ABJ>";
    assert FindFrom(d, "<SDO ABJ>", 0) == Some(0);
    assert FindFrom(d, CloseTag, 10) == Some(10);
    assert SearchSdo(d, "<SDO ABJ>") == Some((0, 10));
    assert d[9..10] == "x";
  }

  /** The drawing-reference group stops at any character of its class, not
      only at the next bracketed label: a period ends it. */
  lemma DrawingReferenceStopsAtPeriod()
    ensures ExtractContent("【符号の説明】a.b", "es") == Success("a")
  {
    var d := "【符号の説明】a.b";
    assert FindFrom(d, DrawingLabel, 0) == Some(0);
    assert EsMatch(d, 0);
    assert SearchEs(d, 0) == Some(0);
    assert RunEnd(d, 7) == 8;
    assert d[7..8] == "a";
  }
}

=== FILE: normalization.dfy ===
/** The normalizer of utils.py (`_normalize` and `_remove_extra_spaces`):
    the hyphen, choonpu and tilde collapses, the space clean-up that runs each
    pattern to a fixed point, and the curly-quote rewrites. The width and
    case tables of the last three steps are external and passed in. */
module Normalization {
  import opened Wrappers
  import opened Strings

  /** The character classes of utils.py:45-47. */
  const Hyphens: set<char> := {'\U{02D7}', '\U{058A}', '\U{2010}', '\U{2011}', '\U{2012}',
                               '\U{2013}', '\U{2043}', '\U{207B}', '\U{208B}', '\U{2212}'}
  const Choonpus: set<char> := {'\U{FE63}', '\U{FF0D}', '\U{FF70}', '\U{2014}', '\U{2015}',
                                '\U{2500}', '\U{2501}', '\U{30FC}'}
  const Tildes: set<char> := {'~', '\U{223C}', '\U{223E}', '\U{301C}', '\U{3030}', '\U{FF5E}'}

  /** Katakana prolonged sound mark. */
  const Choonpu: char := '\U{30FC}'
  const WaveDash: char := '\U{301C}'
  const IdeographicSpace: char := '\U{3000}'
  /** The class `[ 　]` of utils.py:60. */
  const Spaces: set<char> := {' ', '\U{3000}'}

  /** Every character the three variant collapses can touch or produce. */
  const VariantChars: set<char> := Hyphens + {'-'} + Choonpus + Tildes

  /** Drops the leading run of characters of `cls`. */
  function DropRun(s: string, cls: set<char>): (r: string)
    ensures |r| <= |s| && r == s[|s| - |r|..]
    ensures forall i :: 0 <= i < |s| - |r| ==> s[i] in cls
    ensures |r| > 0 ==> r[0] !in cls
    decreases |s|
  {
    if |s| > 0 && s[0] in cls then DropRun(s[1..], cls) else s
  }

  /** Without ignores a prefix made of dropped characters. */
  lemma {:induction false} WithoutDroppedPrefix(s: string, n: nat, drop: set<char>)
    requires n <= |s|
    requires forall i :: 0 <= i < n ==> s[i] in drop
    ensures Without(s, drop) == Without(s[n..], drop)
    decreases n
  {
    if n > 0 {
      WithoutDroppedPrefix(s[1..], n - 1, drop);
      assert s[1..][n - 1..] == s[n..];
    }
  }

  /** Dropping a smaller set first changes nothing once the larger set is dropped. */
  lemma {:induction false} WithoutTwice(s: string, a: set<char>, d: set<char>)
    requires a <= d
    ensures Without(Without(s, a), d) == Without(s, d)
    decreases |s|
  {
    if |s| > 0 {
      var head := if s[0] in a then [] else [s[0]];
      WithoutConcat(head, Without(s[1..], a), d);
      WithoutTwice(s[1..], a, d);
      if s[0] !in a {
        assert Without(head, d) == (if s[0] in d then [] else [s[0]]) by {
          assert head[1..] == [];
        }
      }
    }
  }

  /** Dropping `a` or `d` agrees when no character of `d` outside `a` occurs. */
  lemma {:induction false} WithoutIgnoresAbsent(s: string, a: set<char>, d: set<char>)
    requires a <= d
    requires forall i :: 0 <= i < |s| ==> s[i] in d ==> s[i] in a
    ensures Without(s, a) == Without(s, d)
    decreases |s|
  {
    if |s| > 0 {
      WithoutIgnoresAbsent(s[1..], a, d);
    }
  }

  /** `regex.sub('[cls]+', rep, s)`: each maximal run of characters of `cls`
      becomes a single `rep`. */
  function CollapseRuns(s: string, cls: set<char>, rep: char): (r: string)
    ensures |r| <= |s|
    ensures forall i :: 0 <= i < |r| ==> r[i] in cls ==> r[i] == rep
    ensures rep in cls ==> forall i :: 0 <= i < |r| - 1 ==> !(r[i] == rep && r[i + 1] == rep)
    ensures forall c :: c in r ==> c == rep || (c in s && c !in cls)
    ensures |s| > 0 && s[0] !in cls ==> |r| > 0 && r[0] == s[0]
    decreases |s|
  {
    if |s| == 0 then []
    else if s[0] in cls then [rep] + CollapseRuns(DropRun(s, cls), cls, rep)
    else [s[0]] + CollapseRuns(s[1..], cls, rep)
  }

  /** A run of class characters is dropped up to the first other character. */
  lemma {:induction false} DropRunPrefix(u: string, t: string, cls: set<char>)
    requires forall i :: 0 <= i < |u| ==> u[i] in cls
    requires |t| == 0 || t[0] !in cls
    ensures DropRun(u + t, cls) == t
    decreases |u|
  {
    if |u| > 0 {
      assert (u + t)[1..] == u[1..] + t;
      DropRunPrefix(u[1..], t, cls);
    } else {
      assert u + t == t;
    }
  }

  /** Each maximal run of class characters becomes exactly one `rep`, and
      the text after the run is collapsed on its own. */
  lemma CollapseRunsRun(u: string, t: string, cls: set<char>, rep: char)
    requires |u| > 0 && forall i :: 0 <= i < |u| ==> u[i] in cls
    requires |t| == 0 || t[0] !in cls
    ensures CollapseRuns(u + t, cls, rep) == [rep] + CollapseRuns(t, cls, rep)
  {
    assert (u + t)[0] == u[0];
    DropRunPrefix(u, t, cls);
  }

  /** Dropping the leading run of a concatenation: the run of `a`, and when
      that covers all of `a`, the run of `b` as well. */
  lemma {:induction false} DropRunConcat(a: string, b: string, cls: set<char>)
    ensures DropRun(a + b, cls) == if DropRun(a, cls) == [] then DropRun(b, cls) else DropRun(a, cls) + b
    decreases |a|
  {
    if |a| == 0 {
      assert a + b == b;
    } else if a[0] in cls {
      assert (a + b)[1..] == a[1..] + b;
      DropRunConcat(a[1..], b, cls);
    }
  }

  /** Collapsing works piece by piece when no run crosses the seam. */
  lemma {:induction false} CollapseRunsAppend(a: string, b: string, cls: set<char>, rep: char)
    requires |a| == 0 || |b| == 0 || a[|a| - 1] !in cls || b[0] !in cls
    ensures CollapseRuns(a + b, cls, rep) == CollapseRuns(a, cls, rep) + CollapseRuns(b, cls, rep)
    decreases |a|, 1
  {
    if |a| == 0 {
      assert a + b == b;
    } else if a[0] !in cls {
      AppendOther(a, b, cls, rep);
    } else {
      AppendRun(a, b, cls, rep);
    }
  }

  lemma {:induction false} AppendOther(a: string, b: string, cls: set<char>, rep: char)
    requires |a| > 0 && a[0] !in cls
    requires |b| == 0 || a[|a| - 1] !in cls || b[0] !in cls
    ensures CollapseRuns(a + b, cls, rep) == CollapseRuns(a, cls, rep) + CollapseRuns(b, cls, rep)
    decreases |a|, 0
  {
    assert |a| > 1 ==> a[1..][|a| - 2] == a[|a| - 1];
    CollapseRunsAppend(a[1..], b, cls, rep);
    SplitHead(a, b);
    AppendOtherStep(a[0], a[1..], b, cls, rep);
  }

  lemma SplitHead(a: string, b: string)
    requires |a| > 0
    ensures a == [a[0]] + a[1..] && a + b == [a[0]] + (a[1..] + b)
  {
  }

  lemma AppendOtherStep(c: char, t: string, b: string, cls: set<char>, rep: char)
    requires c !in cls
    requires CollapseRuns(t + b, cls, rep) == CollapseRuns(t, cls, rep) + CollapseRuns(b, cls, rep)
    ensures CollapseRuns([c] + (t + b), cls, rep) == CollapseRuns([c] + t, cls, rep) + CollapseRuns(b, cls, rep)
  {
    calc {
      CollapseRuns([c] + (t + b), cls, rep);
    == { CollapseRunsCons(c, t + b, cls, rep); }
      [c] + CollapseRuns(t + b, cls, rep);
      [c] + (CollapseRuns(t, cls, rep) + CollapseRuns(b, cls, rep));
    == { ConsAssoc(c, CollapseRuns(t, cls, rep), CollapseRuns(b, cls, rep)); }
      ([c] + CollapseRuns(t, cls, rep)) + CollapseRuns(b, cls, rep);
    == { CollapseRunsCons(c, t, cls, rep); }
      CollapseRuns([c] + t, cls, rep) + CollapseRuns(b, cls, rep);
    }
  }

  lemma CollapseRunsCons(c: char, t: string, cls: set<char>, rep: char)
    requires c !in cls
    ensures CollapseRuns([c] + t, cls, rep) == [c] + CollapseRuns(t, cls, rep)
  {
    assert ([c] + t)[1..] == t;
  }

  lemma {:induction false} AppendRun(a: string, b: string, cls: set<char>, rep: char)
    requires |a| > 0 && a[0] in cls
    requires |b| == 0 || a[|a| - 1] !in cls || b[0] !in cls
    ensures CollapseRuns(a + b, cls, rep) == CollapseRuns(a, cls, rep) + CollapseRuns(b, cls, rep)
    decreases |a|, 0
  {
    var d := DropRun(a, cls);
    if d == [] {
      AppendWholeRun(a, b, cls, rep);
    } else {
      DropRunLast(a, cls);
      DropRunShorter(a, cls);
      CollapseRunsAppend(d, b, cls, rep);
      AppendPartRun(a, b, cls, rep);
    }
  }

  /** The text before the seam is a single run. */
  lemma AppendWholeRun(a: string, b: string, cls: set<char>, rep: char)
    requires |a| > 0 && a[0] in cls && DropRun(a, cls) == []
    requires |b| == 0 || a[|a| - 1] !in cls || b[0] !in cls
    ensures CollapseRuns(a + b, cls, rep) == CollapseRuns(a, cls, rep) + CollapseRuns(b, cls, rep)
  {
    DropRunConcat(a, b, cls);
    WholeRunRest(a, b, cls);
    CollapseRunsAfterRun(a, b, cls, rep);
    CollapseRunsWholeRun(a, cls, rep);
  }

  /** The text before the seam starts with a run and goes on after it; the
      rest of the run splits at the seam. */
  lemma AppendPartRun(a: string, b: string, cls: set<char>, rep: char)
    requires |a| > 0 && a[0] in cls && DropRun(a, cls) != []
    requires CollapseRuns(DropRun(a, cls) + b, cls, rep) == CollapseRuns(DropRun(a, cls), cls, rep) + CollapseRuns(b, cls, rep)
    ensures CollapseRuns(a + b, cls, rep) == CollapseRuns(a, cls, rep) + CollapseRuns(b, cls, rep)
  {
    var d := DropRun(a, cls);
    calc {
      CollapseRuns(a + b, cls, rep);
    == { CollapseRunsAfterRun(a, b, cls, rep); }
      [rep] + CollapseRuns(DropRun(a + b, cls), cls, rep);
    == { DropRunConcat(a, b, cls); }
      [rep] + (CollapseRuns(d, cls, rep) + CollapseRuns(b, cls, rep));
    == { ConsAssoc(rep, CollapseRuns(d, cls, rep), CollapseRuns(b, cls, rep)); }
      ([rep] + CollapseRuns(d, cls, rep)) + CollapseRuns(b, cls, rep);
    == { CollapseRunsLeadingRun(a, cls, rep); }
      CollapseRuns(a, cls, rep) + CollapseRuns(b, cls, rep);
    }
  }

  lemma ConsAssoc(c: char, x: string, y: string)
    ensures [c] + (x + y) == ([c] + x) + y
  {
  }

  /** A text that starts with a class character collapses its leading run. */
  lemma CollapseRunsLeadingRun(s: string, cls: set<char>, rep: char)
    requires |s| > 0 && s[0] in cls
    ensures CollapseRuns(s, cls, rep) == [rep] + CollapseRuns(DropRun(s, cls), cls, rep)
  {
  }

  /** A leading run that is there is dropped. */
  lemma DropRunShorter(a: string, cls: set<char>)
    requires |a| > 0 && a[0] in cls
    ensures |DropRun(a, cls)| < |a|
  {
  }

  /** The rest of a run keeps the last character of the text. */
  lemma DropRunLast(a: string, cls: set<char>)
    requires DropRun(a, cls) != []
    ensures |a| > 0 && DropRun(a, cls)[|DropRun(a, cls)| - 1] == a[|a| - 1]
  {
  }

  /** After a text made of one run, a text that does not continue it is
      left alone by the run dropping. */
  lemma WholeRunRest(a: string, b: string, cls: set<char>)
    requires |a| > 0 && DropRun(a, cls) == []
    requires |b| == 0 || a[|a| - 1] !in cls || b[0] !in cls
    ensures DropRun(b, cls) == b
  {
    assert a[|a| - 1] in cls;
  }

  /** A text that starts with a run collapses it to `rep`. */
  lemma CollapseRunsAfterRun(a: string, b: string, cls: set<char>, rep: char)
    requires |a| > 0 && a[0] in cls
    ensures CollapseRuns(a + b, cls, rep) == [rep] + CollapseRuns(DropRun(a + b, cls), cls, rep)
  {
    assert (a + b)[0] == a[0];
  }

  lemma CollapseRunsWholeRun(a: string, cls: set<char>, rep: char)
    requires |a| > 0 && a[0] in cls && DropRun(a, cls) == []
    ensures CollapseRuns(a, cls, rep) == [rep]
  {
  }

  /** A maximal run anywhere in the text, between other characters, becomes
      exactly one `rep`; the text on either side is collapsed on its own. */
  lemma CollapseRunsMiddle(x: string, u: string, y: string, cls: set<char>, rep: char)
    requires |x| == 0 || x[|x| - 1] !in cls
    requires |u| > 0 && forall i :: 0 <= i < |u| ==> u[i] in cls
    requires |y| == 0 || y[0] !in cls
    ensures CollapseRuns(x + u + y, cls, rep) == CollapseRuns(x, cls, rep) + [rep] + CollapseRuns(y, cls, rep)
  {
    var cx, cy := CollapseRuns(x, cls, rep), CollapseRuns(y, cls, rep);
    MiddleSplit(x, u, y, cls, rep);
    CollapseRunsRun(u, y, cls, rep);
    MidAssoc(cx, rep, cy);
  }

  lemma MiddleSplit(x: string, u: string, y: string, cls: set<char>, rep: char)
    requires |x| == 0 || x[|x| - 1] !in cls
    ensures CollapseRuns(x + u + y, cls, rep) == CollapseRuns(x, cls, rep) + CollapseRuns(u + y, cls, rep)
  {
    assert x + u + y == x + (u + y);
    CollapseRunsAppend(x, u + y, cls, rep);
  }

  lemma MidAssoc(x: string, c: char, y: string)
    ensures x + ([c] + y) == x + [c] + y
  {
  }

  /** Characters outside `cls` and other than `rep` survive, in order. */
  lemma {:induction false} CollapseRunsKeepsOthers(s: string, cls: set<char>, rep: char)
    ensures Without(CollapseRuns(s, cls, rep), cls + {rep}) == Without(s, cls + {rep})
    decreases |s|
  {
    var d := cls + {rep};
    if |s| > 0 {
      if s[0] in cls {
        var t := DropRun(s, cls);
        CollapseRunsKeepsOthers(t, cls, rep);
        WithoutConcat([rep], CollapseRuns(t, cls, rep), d);
        WithoutDroppedPrefix(s, |s| - |t|, d);
      } else {
        CollapseRunsKeepsOthers(s[1..], cls, rep);
        WithoutConcat([s[0]], CollapseRuns(s[1..], cls, rep), d);
        WithoutConcat([s[0]], s[1..], d);
        assert s == [s[0]] + s[1..];
      }
    }
  }

  /** A string whose `cls` characters are isolated copies of `rep` is left alone. */
  lemma {:induction false} CollapseRunsFixes(s: string, cls: set<char>, rep: char)
    requires forall i :: 0 <= i < |s| ==> s[i] in cls ==> s[i] == rep
    requires forall i :: 0 <= i < |s| - 1 ==> !(s[i] in cls && s[i + 1] in cls)
    ensures CollapseRuns(s, cls, rep) == s
    decreases |s|
  {
    if |s| > 0 {
      CollapseRunsFixes(s[1..], cls, rep);
      if s[0] in cls {
        assert DropRun(s, cls) == DropRun(s[1..], cls) == s[1..];
      }
    }
  }

  /** Collapsing twice is collapsing once. */
  lemma CollapseRunsIdempotent(s: string, cls: set<char>, rep: char)
    ensures CollapseRuns(CollapseRuns(s, cls, rep), cls, rep) == CollapseRuns(s, cls, rep)
  {
    var r := CollapseRuns(s, cls, rep);
    CollapseRunsFixes(r, cls, rep);
  }

  /** `regex.sub('[cls]', rep, s)`: every character of `cls` becomes `rep`. */
  function ReplaceEach(s: string, cls: set<char>, rep: char): (r: string)
    ensures |r| == |s|
    ensures forall i :: 0 <= i < |s| ==> r[i] == (if s[i] in cls then rep else s[i])
    decreases |s|
  {
    if |s| == 0 then [] else [if s[0] in cls then rep else s[0]] + ReplaceEach(s[1..], cls, rep)
  }

  lemma ReplaceEachIdempotent(s: string, cls: set<char>, rep: char)
    ensures ReplaceEach(ReplaceEach(s, cls, rep), cls, rep) == ReplaceEach(s, cls, rep)
  {
  }

  /** Replacing within a dropped set is invisible once that set is dropped. */
  lemma {:induction false} ReplaceEachKeepsOthers(s: string, cls: set<char>, rep: char, d: set<char>)
    requires cls + {rep} <= d
    ensures Without(ReplaceEach(s, cls, rep), d) == Without(s, d)
    decreases |s|
  {
    if |s| > 0 {
      ReplaceEachKeepsOthers(s[1..], cls, rep, d);
      assert ReplaceEach(s, cls, rep)[1..] == ReplaceEach(s[1..], cls, rep);
    }
  }

  lemma VariantCharFacts()
    ensures '-' !in Hyphens && Choonpu !in Hyphens && WaveDash !in Hyphens
    ensures Choonpu in Choonpus && WaveDash !in Choonpus && WaveDash != Choonpu
    ensures Hyphens + {'-'} <= VariantChars && Choonpus + {Choonpu} <= VariantChars
    ensures Tildes + {WaveDash} <= VariantChars
  {
  }

  /** Lines 45-47 of utils.py in order: hyphen runs become `-`, choonpu runs
      become `ー`, each tilde becomes `〜`. */
  function VariantSteps(s: string): (r: string)
    ensures forall i :: 0 <= i < |r| ==> r[i] !in Hyphens
    ensures forall i :: 0 <= i < |r| ==> r[i] in Choonpus ==> r[i] == Choonpu
    ensures forall i :: 0 <= i < |r| - 1 ==> !(r[i] == Choonpu && r[i + 1] == Choonpu)
    ensures forall i :: 0 <= i < |r| ==> r[i] in Tildes ==> r[i] == WaveDash
    ensures Without(r, VariantChars) == Without(s, VariantChars)
    ensures |r| <= |s|
  {
    var h := CollapseRuns(s, Hyphens, '-');
    var c := CollapseRuns(h, Choonpus, Choonpu);
    var t := ReplaceEach(c, Tildes, WaveDash);
    VariantStepsKeepOthers(s, h, c, t);
    VariantStepsCanonical(s, h, c, t);
    t
  }

  /** Text without variant characters passes the three steps unchanged. */
  lemma VariantStepsUnchanged(s: string)
    requires forall i :: 0 <= i < |s| ==> s[i] !in VariantChars
    ensures VariantSteps(s) == s
  {
    VariantCharFacts();
    CollapseRunsFixes(s, Hyphens, '-');
    CollapseRunsFixes(s, Choonpus, Choonpu);
    assert ReplaceEach(s, Tildes, WaveDash) == s;
  }

  /** A run of hyphen variants between text without variants becomes one
      `-`, wherever it stands. */
  lemma VariantStepsHyphenRun(x: string, u: string, y: string)
    requires forall i :: 0 <= i < |x| ==> x[i] !in VariantChars
    requires forall i :: 0 <= i < |y| ==> y[i] !in VariantChars
    requires |u| > 0 && forall i :: 0 <= i < |u| ==> u[i] in Hyphens
    ensures VariantSteps(x + u + y) == x + "-" + y
  {
    var h := x + "-" + y;
    calc {
      VariantSteps(x + u + y);
      ReplaceEach(CollapseRuns(CollapseRuns(x + u + y, Hyphens, '-'), Choonpus, Choonpu), Tildes, WaveDash);
    == { HyphenRunStep(x, u, y); }
      ReplaceEach(CollapseRuns(h, Choonpus, Choonpu), Tildes, WaveDash);
    == { VariantCharFacts(); assert '-' !in Choonpus && '-' !in Tildes;
         CatAvoids(x, "-", y, Choonpus); CatAvoids(x, "-", y, Tildes); LaterStepsUnchanged(h); }
      h;
    }
  }

  /** A run of long-vowel variants between text without variants becomes
      one `ー`, wherever it stands. */
  lemma VariantStepsChoonpuRun(x: string, u: string, y: string)
    requires forall i :: 0 <= i < |x| ==> x[i] !in VariantChars
    requires forall i :: 0 <= i < |y| ==> y[i] !in VariantChars
    requires |u| > 0 && forall i :: 0 <= i < |u| ==> u[i] in Choonpus
    ensures VariantSteps(x + u + y) == x + [Choonpu] + y
  {
    var c := x + [Choonpu] + y;
    calc {
      VariantSteps(x + u + y);
      ReplaceEach(CollapseRuns(CollapseRuns(x + u + y, Hyphens, '-'), Choonpus, Choonpu), Tildes, WaveDash);
    == { NoHyphenInChoonpuRun(x, u, y); }
      ReplaceEach(CollapseRuns(x + u + y, Choonpus, Choonpu), Tildes, WaveDash);
    == { ChoonpuRunStep(x, u, y); }
      ReplaceEach(c, Tildes, WaveDash);
    == { VariantCharFacts(); assert Choonpu !in Tildes; CatAvoids(x, [Choonpu], y, Tildes); }
      c;
    }
  }

  lemma HyphenRunStep(x: string, u: string, y: string)
    requires forall i :: 0 <= i < |x| ==> x[i] !in VariantChars
    requires forall i :: 0 <= i < |y| ==> y[i] !in VariantChars
    requires |u| > 0 && forall i :: 0 <= i < |u| ==> u[i] in Hyphens
    ensures CollapseRuns(x + u + y, Hyphens, '-') == x + "-" + y
  {
    VariantCharFacts();
    calc {
      CollapseRuns(x + u + y, Hyphens, '-');
    == { CollapseRunsMiddle(x, u, y, Hyphens, '-'); }
      CollapseRuns(x, Hyphens, '-') + ['-'] + CollapseRuns(y, Hyphens, '-');
    == { CollapseRunsFixes(x, Hyphens, '-'); CollapseRunsFixes(y, Hyphens, '-'); }
      x + "-" + y;
    }
  }

  lemma ChoonpuRunStep(x: string, u: string, y: string)
    requires forall i :: 0 <= i < |x| ==> x[i] !in VariantChars
    requires forall i :: 0 <= i < |y| ==> y[i] !in VariantChars
    requires |u| > 0 && forall i :: 0 <= i < |u| ==> u[i] in Choonpus
    ensures CollapseRuns(x + u + y, Choonpus, Choonpu) == x + [Choonpu] + y
  {
    VariantCharFacts();
    calc {
      CollapseRuns(x + u + y, Choonpus, Choonpu);
    == { CollapseRunsMiddle(x, u, y, Choonpus, Choonpu); }
      CollapseRuns(x, Choonpus, Choonpu) + [Choonpu] + CollapseRuns(y, Choonpus, Choonpu);
    == { CollapseRunsFixes(x, Choonpus, Choonpu); CollapseRunsFixes(y, Choonpus, Choonpu); }
      x + [Choonpu] + y;
    }
  }

  lemma NoHyphenInChoonpuRun(x: string, u: string, y: string)
    requires forall i :: 0 <= i < |x| ==> x[i] !in VariantChars
    requires forall i :: 0 <= i < |y| ==> y[i] !in VariantChars
    requires forall i :: 0 <= i < |u| ==> u[i] in Choonpus
    ensures CollapseRuns(x + u + y, Hyphens, '-') == x + u + y
  {
    VariantCharFacts();
    assert Choonpus * Hyphens == {};
    assert forall i :: 0 <= i < |u| ==> u[i] !in Hyphens;
    CatAvoids(x, u, y, Hyphens);
    CollapseRunsFixes(x + u + y, Hyphens, '-');
  }

  /** A text without long-vowel and tilde variants passes the last two
      steps unchanged. */
  lemma LaterStepsUnchanged(h: string)
    requires forall i :: 0 <= i < |h| ==> h[i] !in Choonpus
    requires forall i :: 0 <= i < |h| ==> h[i] !in Tildes
    ensures ReplaceEach(CollapseRuns(h, Choonpus, Choonpu), Tildes, WaveDash) == h
  {
    CollapseRunsFixes(h, Choonpus, Choonpu);
    assert ReplaceEach(h, Tildes, WaveDash) == h;
  }

  /** A concatenation avoids a class when each of its parts does. */
  lemma CatAvoids(x: string, m: string, y: string, cls: set<char>)
    requires forall i :: 0 <= i < |x| ==> x[i] !in cls
    requires forall i :: 0 <= i < |m| ==> m[i] !in cls
    requires forall i :: 0 <= i < |y| ==> y[i] !in cls
    ensures forall i :: 0 <= i < |x + m + y| ==> (x + m + y)[i] !in cls
  {
  }

  lemma VariantStepsCanonical(s: string, h: string, c: string, t: string)
    requires h == CollapseRuns(s, Hyphens, '-')
    requires c == CollapseRuns(h, Choonpus, Choonpu)
    requires t == ReplaceEach(c, Tildes, WaveDash)
    ensures forall i :: 0 <= i < |t| ==> t[i] !in Hyphens
    ensures forall i :: 0 <= i < |t| ==> t[i] in Choonpus ==> t[i] == Choonpu
    ensures forall i :: 0 <= i < |t| - 1 ==> !(t[i] == Choonpu && t[i + 1] == Choonpu)
    ensures forall i :: 0 <= i < |t| ==> t[i] in Tildes ==> t[i] == WaveDash
  {
    VariantCharFacts();
    forall i | 0 <= i < |c|
      ensures c[i] !in Hyphens
    {
      assert c[i] in c;
      if c[i] != Choonpu {
        assert c[i] in h;
        var j :| 0 <= j < |h| && h[j] == c[i];
      }
    }
    forall i | 0 <= i < |t|
      ensures t[i] !in Hyphens
      ensures t[i] in Choonpus ==> t[i] == Choonpu
      ensures t[i] in Tildes ==> t[i] == WaveDash
    {
      if c[i] in Tildes {
        assert t[i] == WaveDash;
      } else {
        assert t[i] == c[i];
      }
    }
    forall i | 0 <= i < |t| - 1
      ensures !(t[i] == Choonpu && t[i + 1] == Choonpu)
    {
      assert t[i] == Choonpu ==> c[i] == Choonpu;
      assert t[i + 1] == Choonpu ==> c[i + 1] == Choonpu;
    }
  }

  lemma VariantStepsKeepOthers(s: string, h: string, c: string, t: string)
    requires h == CollapseRuns(s, Hyphens, '-')
    requires c == CollapseRuns(h, Choonpus, Choonpu)
    requires t == ReplaceEach(c, Tildes, WaveDash)
    ensures Without(t, VariantChars) == Without(s, VariantChars)
  {
    VariantCharFacts();
    CollapseRunsKeepsOthers(s, Hyphens, '-');
    WithoutTwice(h, Hyphens + {'-'}, VariantChars);
    WithoutTwice(s, Hyphens + {'-'}, VariantChars);
    CollapseRunsKeepsOthers(h, Choonpus, Choonpu);
    WithoutTwice(c, Choonpus + {Choonpu}, VariantChars);
    WithoutTwice(h, Choonpus + {Choonpu}, VariantChars);
    ReplaceEachKeepsOthers(c, Tildes, WaveDash, VariantChars);
  }

  /** The character classes of `_remove_extra_spaces` (utils.py:61-67). */
  datatype CharClass = Blocks | BasicLatin

  predicate InClass(k: CharClass, c: char) {
    match k
    case Blocks =>
      (0x4E00 <= c as int <= 0x9FFF) || (0x3040 <= c as int <= 0x309F) || (0x30A0 <= c as int <= 0x30FF)
      || (0x3000 <= c as int <= 0x303F) || (0xFF00 <= c as int <= 0xFFEF)
    case BasicLatin => c as int <= 0x7F
  }

  /** The pattern `([a]) ([b])` matches at index `i`. */
  predicate SpaceBetween(a: CharClass, b: CharClass, s: string, i: int) {
    0 <= i && i + 2 < |s| && InClass(a, s[i]) && s[i + 1] == ' ' && InClass(b, s[i + 2])
  }

  /** `p.search(s)` succeeds. */
  predicate HasSpaceBetween(a: CharClass, b: CharClass, s: string) {
    exists i :: 0 <= i < |s| - 2 && SpaceBetween(a, b, s, i)
  }

  predicate NoDoubleSpace(s: string) {
    forall i :: 0 <= i < |s| - 1 ==> !(s[i] == ' ' && s[i + 1] == ' ')
  }

  /** `p.sub(r'\1\2', s)`: one left-to-right pass deleting the space of each
      non-overlapping match; scanning resumes after the match. */
  function SubSpaceBetween(a: CharClass, b: CharClass, s: string): (r: string)
    ensures |r| <= |s|
    ensures HasSpaceBetween(a, b, s) ==> |r| < |s|
    ensures forall i :: 0 <= i < |r| ==> r[i] in s
    ensures |s| > 0 ==> |r| > 0 && r[0] == s[0]
    ensures |s| > 1 && s[0] == ' ' && s[1] != ' ' ==> |r| > 1 && r[1] == s[1]
    decreases |s|
  {
    if SpaceBetween(a, b, s, 0) then [s[0], s[2]] + SubSpaceBetween(a, b, s[3..])
    else if |s| == 0 then []
    else
      var rest := SubSpaceBetween(a, b, s[1..]);
      assert HasSpaceBetween(a, b, s) ==> HasSpaceBetween(a, b, s[1..]) by {
        if HasSpaceBetween(a, b, s) {
          var i :| 0 <= i < |s| - 2 && SpaceBetween(a, b, s, i);
          assert SpaceBetween(a, b, s[1..], i - 1);
        }
      }
      [s[0]] + rest
  }

  /** Dropping spaces, `[x, ' ', y] + t` and `[x, y] + t` agree. */
  lemma WithoutMiddleSpace(x: char, y: char, t: string)
    ensures Without([x, ' ', y] + t, {' '}) == Without([x, y] + t, {' '})
  {
    var u := [x, ' ', y] + t;
    var v := [x, y] + t;
    assert u[1..] == [' ', y] + t;
    assert u[1..][1..] == [y] + t;
    assert v[1..] == [y] + t;
  }

  lemma WithoutCons(x: char, t: string, drop: set<char>)
    ensures Without([x] + t, drop) == (if x in drop then [] else [x]) + Without(t, drop)
  {
    assert ([x] + t)[1..] == t;
  }

  /** A pass deletes spaces and nothing else. */
  lemma {:induction false} SubSpaceBetweenDeletesSpaces(a: CharClass, b: CharClass, s: string)
    ensures Without(SubSpaceBetween(a, b, s), {' '}) == Without(s, {' '})
    decreases |s|
  {
    if SpaceBetween(a, b, s, 0) {
      var t := s[3..];
      SubSpaceBetweenDeletesSpaces(a, b, t);
      assert s == [s[0], ' ', s[2]] + t;
      WithoutMiddleSpace(s[0], s[2], t);
      WithoutConcat([s[0], s[2]], SubSpaceBetween(a, b, t), {' '});
      WithoutConcat([s[0], s[2]], t, {' '});
    } else if |s| > 0 {
      var t := s[1..];
      SubSpaceBetweenDeletesSpaces(a, b, t);
      assert s == [s[0]] + t;
      WithoutCons(s[0], SubSpaceBetween(a, b, t), {' '});
      WithoutCons(s[0], t, {' '});
    }
  }

  /** A pass never creates two adjacent spaces. */
  lemma {:induction false} SubKeepsNoDoubleSpace(a: CharClass, b: CharClass, s: string)
    requires NoDoubleSpace(s)
    ensures NoDoubleSpace(SubSpaceBetween(a, b, s))
    decreases |s|
  {
    var r := SubSpaceBetween(a, b, s);
    if SpaceBetween(a, b, s, 0) {
      var rest := SubSpaceBetween(a, b, s[3..]);
      SubKeepsNoDoubleSpace(a, b, s[3..]);
      assert s[2] != ' ';
      forall i | 0 <= i < |r| - 1
        ensures !(r[i] == ' ' && r[i + 1] == ' ')
      {
        if i >= 2 {
          assert r[i] == rest[i - 2] && r[i + 1] == rest[i - 1];
        }
      }
    } else if |s| > 0 {
      var rest := SubSpaceBetween(a, b, s[1..]);
      SubKeepsNoDoubleSpace(a, b, s[1..]);
      forall i | 0 <= i < |r| - 1
        ensures !(r[i] == ' ' && r[i + 1] == ' ')
      {
        if i >= 1 {
          assert r[i] == rest[i - 1] && r[i + 1] == rest[i];
        }
      }
    }
  }

  /** A match is determined by the three characters it spans. */
  lemma SpaceBetweenTransfer(c: CharClass, d: CharClass, r: string, i: int, s: string, j: int)
    requires 0 <= i && i + 2 < |r| && 0 <= j && j + 2 < |s|
    requires r[i] == s[j] && r[i + 1] == s[j + 1] && r[i + 2] == s[j + 2]
    ensures SpaceBetween(c, d, r, i) == SpaceBetween(c, d, s, j)
  {
  }

  /** Dropping a prefix keeps the absence of matches. */
  lemma NoSpaceBetweenSuffix(c: CharClass, d: CharClass, s: string, n: nat)
    requires n <= |s|
    requires !HasSpaceBetween(c, d, s)
    ensures !HasSpaceBetween(c, d, s[n..])
  {
    var t := s[n..];
    forall i | 0 <= i < |t| - 2
      ensures !SpaceBetween(c, d, t, i)
    {
      SpaceBetweenTransfer(c, d, t, i, s, i + n);
    }
  }

  /** A pass for one pair of classes never creates a match for another pair. */
  lemma {:induction false} SubKeepsNoSpaceBetween(a: CharClass, b: CharClass, c: CharClass, d: CharClass, s: string)
    requires NoDoubleSpace(s)
    requires !HasSpaceBetween(c, d, s)
    ensures !HasSpaceBetween(c, d, SubSpaceBetween(a, b, s))
    decreases |s|
  {
    if SpaceBetween(a, b, s, 0) {
      SubKeepsNoSpaceBetweenAfterMatch(a, b, c, d, s);
    } else if |s| > 0 {
      SubKeepsNoSpaceBetweenNoMatch(a, b, c, d, s);
    }
  }

  lemma {:induction false} SubKeepsNoSpaceBetweenAfterMatch(a: CharClass, b: CharClass, c: CharClass, d: CharClass, s: string)
    requires NoDoubleSpace(s)
    requires !HasSpaceBetween(c, d, s)
    requires SpaceBetween(a, b, s, 0)
    ensures !HasSpaceBetween(c, d, SubSpaceBetween(a, b, s))
    decreases |s|, 0
  {
    var r := SubSpaceBetween(a, b, s);
    var t := s[3..];
    var rest := SubSpaceBetween(a, b, t);
    assert r == [s[0], s[2]] + rest;
    assert NoDoubleSpace(t);
    NoSpaceBetweenSuffix(c, d, s, 3);
    SubKeepsNoSpaceBetween(a, b, c, d, t);
    assert s[2] != ' ' by {
      assert !(s[1] == ' ' && s[2] == ' ');
    }
    assert !SpaceBetween(c, d, r, 1) by {
      if |rest| > 1 && rest[0] == ' ' {
        assert t[0] == ' ' && t[1] != ' ';
        SpaceBetweenTransfer(c, d, r, 1, s, 2);
      }
    }
    ConsNoSpaceBetween(c, d, s[2], rest);
    ConsNoSpaceBetween(c, d, s[0], [s[2]] + rest);
    assert r == [s[0]] + ([s[2]] + rest);
  }

  /** A character put in front creates no match except possibly at the front. */
  lemma ConsNoSpaceBetween(c: CharClass, d: CharClass, x: char, rest: string)
    requires !HasSpaceBetween(c, d, rest)
    requires !SpaceBetween(c, d, [x] + rest, 0)
    ensures !HasSpaceBetween(c, d, [x] + rest)
  {
    var r := [x] + rest;
    forall i | 1 <= i < |r| - 2
      ensures !SpaceBetween(c, d, r, i)
    {
      SpaceBetweenTransfer(c, d, r, i, rest, i - 1);
    }
  }

  lemma {:induction false} SubKeepsNoSpaceBetweenNoMatch(a: CharClass, b: CharClass, c: CharClass, d: CharClass, s: string)
    requires NoDoubleSpace(s)
    requires !HasSpaceBetween(c, d, s)
    requires !SpaceBetween(a, b, s, 0) && |s| > 0
    ensures !HasSpaceBetween(c, d, SubSpaceBetween(a, b, s))
    decreases |s|, 0
  {
    var r := SubSpaceBetween(a, b, s);
    var t := s[1..];
    var rest := SubSpaceBetween(a, b, t);
    assert r == [s[0]] + rest;
    assert NoDoubleSpace(t);
    NoSpaceBetweenSuffix(c, d, s, 1);
    SubKeepsNoSpaceBetween(a, b, c, d, t);
    assert !SpaceBetween(c, d, r, 0) by {
      if |rest| > 1 && rest[0] == ' ' {
        assert t[0] == ' ' && t[1] != ' ';
        SpaceBetweenTransfer(c, d, r, 0, s, 0);
      }
    }
    ConsNoSpaceBetween(c, d, s[0], rest);
  }

  /** `remove_space_between(a, b, s)`: repeat the pass while the pattern
      still matches somewhere. */
  function RemoveSpaceBetween(a: CharClass, b: CharClass, s: string): (r: string)
    ensures !HasSpaceBetween(a, b, r)
    ensures |r| <= |s|
    decreases |s|
  {
    if HasSpaceBetween(a, b, s) then RemoveSpaceBetween(a, b, SubSpaceBetween(a, b, s)) else s
  }

  /** What the repeated pass keeps: the other characters, no double spaces,
      no new matches for any pair, and no character that was not there. */
  lemma {:induction false} RemoveSpaceBetweenKeeps(a: CharClass, b: CharClass, s: string)
    requires NoDoubleSpace(s)
    ensures NoDoubleSpace(RemoveSpaceBetween(a, b, s))
    ensures Without(RemoveSpaceBetween(a, b, s), {' '}) == Without(s, {' '})
    ensures forall c, d :: !HasSpaceBetween(c, d, s) ==> !HasSpaceBetween(c, d, RemoveSpaceBetween(a, b, s))
    ensures forall i :: 0 <= i < |RemoveSpaceBetween(a, b, s)| ==> RemoveSpaceBetween(a, b, s)[i] in s
    decreases |s|
  {
    if HasSpaceBetween(a, b, s) {
      var t := SubSpaceBetween(a, b, s);
      SubKeepsNoDoubleSpace(a, b, s);
      SubSpaceBetweenDeletesSpaces(a, b, s);
      forall c, d | !HasSpaceBetween(c, d, s)
        ensures !HasSpaceBetween(c, d, t)
      {
        SubKeepsNoSpaceBetween(a, b, c, d, s);
      }
      RemoveSpaceBetweenKeeps(a, b, t);
    }
  }

  /** The class pairs of the three passes of `_remove_extra_spaces`. */
  const RemovablePairs: set<(CharClass, CharClass)> :=
    {(Blocks, Blocks), (Blocks, BasicLatin), (BasicLatin, Blocks)}

  /** `x` and `y` fall in the two classes of a pair of `ps`. */
  predicate Fits(ps: set<(CharClass, CharClass)>, x: char, y: char) {
    ((Blocks, Blocks) in ps && InClass(Blocks, x) && InClass(Blocks, y))
    || ((Blocks, BasicLatin) in ps && InClass(Blocks, x) && InClass(BasicLatin, y))
    || ((BasicLatin, Blocks) in ps && InClass(BasicLatin, x) && InClass(Blocks, y))
    || ((BasicLatin, BasicLatin) in ps && InClass(BasicLatin, x) && InClass(BasicLatin, y))
  }

  /** `t` starts with a space whose neighbours, `prev` before it and `t[1]`
      after it, fit a pair of `ps`. */
  predicate FlankedFirst(ps: set<(CharClass, CharClass)>, prev: Option<char>, t: string) {
    |t| > 1 && t[0] == ' ' && prev.Some? && Fits(ps, prev.value, t[1])
  }

  /** Reference definition: delete exactly the spaces of `t` whose two
      neighbours in `t` fit a pair of `ps`, and keep every other character;
      `prev` is the character before `t`, if there is one. */
  function DropFlanked(ps: set<(CharClass, CharClass)>, prev: Option<char>, t: string): string
    decreases |t|
  {
    if |t| == 0 then []
    else (if FlankedFirst(ps, prev, t) then [] else [t[0]]) + DropFlanked(ps, Some(t[0]), t[1..])
  }

  /** A text that starts with a non-space does not depend on what precedes it. */
  lemma DropFlankedNonSpace(ps: set<(CharClass, CharClass)>, prev: Option<char>, t: string)
    requires |t| > 0 && t[0] != ' '
    ensures DropFlanked(ps, prev, t) == [t[0]] + DropFlanked(ps, Some(t[0]), t[1..])
  {
  }

  /** Of two neighbouring characters, at most one is a space. */
  lemma NoDoubleSpaceAt(s: string, i: nat)
    requires NoDoubleSpace(s) && i + 1 < |s|
    ensures s[i] != ' ' || s[i + 1] != ' '
  {
  }

  /** One pass deletes only spaces the reference deletes: applying the
      reference after the pass gives the reference of the input. */
  lemma {:induction false} SubSpaceBetweenDropsFlanked(a: CharClass, b: CharClass, ps: set<(CharClass, CharClass)>,
                                                       prev: Option<char>, s: string)
    requires (a, b) in ps
    requires NoDoubleSpace(s)
    ensures DropFlanked(ps, prev, SubSpaceBetween(a, b, s)) == DropFlanked(ps, prev, s)
    decreases |s|, 1
  {
    if SpaceBetween(a, b, s, 0) {
      SubMatchDropsFlanked(a, b, ps, prev, s);
    } else if |s| > 0 {
      SubNoMatchDropsFlanked(a, b, ps, prev, s);
    }
  }

  lemma {:induction false} SubMatchDropsFlanked(a: CharClass, b: CharClass, ps: set<(CharClass, CharClass)>,
                                                prev: Option<char>, s: string)
    requires (a, b) in ps
    requires NoDoubleSpace(s)
    requires SpaceBetween(a, b, s, 0)
    ensures DropFlanked(ps, prev, SubSpaceBetween(a, b, s)) == DropFlanked(ps, prev, s)
    decreases |s|, 0
  {
    var x, y, t := s[0], s[2], s[3..];
    var rest := SubSpaceBetween(a, b, t);
    NoDoubleSpaceAt(s, 0);
    NoDoubleSpaceAt(s, 1);
    assert NoDoubleSpace(t);
    SubSpaceBetweenDropsFlanked(a, b, ps, Some(y), t);
    assert SubSpaceBetween(a, b, s) == [x] + ([y] + rest);
    DropFlankedTwo(ps, prev, x, y, rest);
    FitsPair(a, b, ps, x, y);
    assert s == [x] + ([' '] + ([y] + t));
    DropFlankedSpace(ps, prev, x, y, t);
  }

  /** Two non-spaces are kept. */
  lemma DropFlankedTwo(ps: set<(CharClass, CharClass)>, prev: Option<char>, x: char, y: char, t: string)
    requires x != ' ' && y != ' '
    ensures DropFlanked(ps, prev, [x] + ([y] + t)) == [x, y] + DropFlanked(ps, Some(y), t)
  {
    DropFlankedNonSpace(ps, prev, [x] + ([y] + t));
    assert ([x] + ([y] + t))[1..] == [y] + t;
    DropFlankedNonSpace(ps, Some(x), [y] + t);
    assert ([y] + t)[1..] == t;
  }

  /** A space between two non-spaces that fit `ps` is deleted. */
  lemma DropFlankedSpace(ps: set<(CharClass, CharClass)>, prev: Option<char>, x: char, y: char, t: string)
    requires x != ' ' && y != ' ' && Fits(ps, x, y)
    ensures DropFlanked(ps, prev, [x] + ([' '] + ([y] + t))) == [x, y] + DropFlanked(ps, Some(y), t)
  {
    var u := [' '] + ([y] + t);
    DropFlankedNonSpace(ps, prev, [x] + u);
    assert ([x] + u)[1..] == u;
    assert FlankedFirst(ps, Some(x), u);
    assert u[1..] == [y] + t;
    DropFlankedNonSpace(ps, Some(' '), [y] + t);
    assert ([y] + t)[1..] == t;
  }

  lemma FitsPair(a: CharClass, b: CharClass, ps: set<(CharClass, CharClass)>, x: char, y: char)
    requires (a, b) in ps && InClass(a, x) && InClass(b, y)
    ensures Fits(ps, x, y)
  {
  }

  lemma {:induction false} SubNoMatchDropsFlanked(a: CharClass, b: CharClass, ps: set<(CharClass, CharClass)>,
                                                  prev: Option<char>, s: string)
    requires (a, b) in ps
    requires NoDoubleSpace(s)
    requires !SpaceBetween(a, b, s, 0) && |s| > 0
    ensures DropFlanked(ps, prev, SubSpaceBetween(a, b, s)) == DropFlanked(ps, prev, s)
    decreases |s|, 0
  {
    var r := SubSpaceBetween(a, b, s);
    var rest := SubSpaceBetween(a, b, s[1..]);
    assert NoDoubleSpace(s[1..]);
    SubSpaceBetweenDropsFlanked(a, b, ps, Some(s[0]), s[1..]);
    assert r == [s[0]] + rest;
    assert r[1..] == rest;
    if |s| > 1 {
      NoDoubleSpaceAt(s, 0);
    }
  }

  /** Without a match, and with no match across the front, the reference
      for one pair deletes nothing. */
  lemma {:induction false} DropFlankedNoMatch(a: CharClass, b: CharClass, prev: Option<char>, s: string)
    requires !HasSpaceBetween(a, b, s)
    requires !FlankedFirst({(a, b)}, prev, s)
    ensures DropFlanked({(a, b)}, prev, s) == s
    decreases |s|
  {
    if |s| > 0 {
      NoSpaceBetweenSuffix(a, b, s, 1);
      assert !SpaceBetween(a, b, s, 0);
      assert !FlankedFirst({(a, b)}, Some(s[0]), s[1..]);
      DropFlankedNoMatch(a, b, Some(s[0]), s[1..]);
      assert s == [s[0]] + s[1..];
    }
  }

  /** The `while p.search` loop deletes exactly the spaces between a
      character of the first class and one of the second. */
  lemma {:induction false} RemoveSpaceBetweenReference(a: CharClass, b: CharClass, s: string)
    requires NoDoubleSpace(s)
    ensures RemoveSpaceBetween(a, b, s) == DropFlanked({(a, b)}, None, s)
    decreases |s|
  {
    if HasSpaceBetween(a, b, s) {
      var t := SubSpaceBetween(a, b, s);
      SubKeepsNoDoubleSpace(a, b, s);
      RemoveSpaceBetweenReference(a, b, t);
      SubSpaceBetweenDropsFlanked(a, b, {(a, b)}, None, s);
    } else {
      DropFlankedNoMatch(a, b, None, s);
    }
  }

  /** In a text without double spaces, deleting the spaces flanked by `ps`
      and then those flanked by `qs` deletes those flanked by either: a
      space's neighbours are never deleted. */
  lemma {:induction false} DropFlankedCompose(ps: set<(CharClass, CharClass)>, qs: set<(CharClass, CharClass)>,
                                              prev: Option<char>, t: string)
    requires NoDoubleSpace(t)
    ensures DropFlanked(qs, prev, DropFlanked(ps, prev, t)) == DropFlanked(ps + qs, prev, t)
    decreases |t|
  {
    if |t| > 0 {
      var u := t[1..];
      assert NoDoubleSpace(u);
      var inner := DropFlanked(ps, prev, t);
      if FlankedFirst(ps, prev, t) {
        assert u[0] != ' ';
        assert inner == DropFlanked(ps, Some(' '), u);
        DropFlankedNonSpace(ps, Some(' '), u);
        DropFlankedNonSpace(qs, prev, inner);
        DropFlankedNonSpace(qs, Some(' '), inner);
        DropFlankedCompose(ps, qs, Some(' '), u);
        assert FlankedFirst(ps + qs, prev, t);
      } else {
        var tail := DropFlanked(ps, Some(t[0]), u);
        assert inner == [t[0]] + tail;
        DropFlankedCompose(ps, qs, Some(t[0]), u);
        if t[0] == ' ' && |u| > 0 {
          assert u[0] != ' ';
          DropFlankedNonSpace(ps, Some(t[0]), u);
          assert inner[1] == t[1];
        }
        assert FlankedFirst(qs, prev, inner) == FlankedFirst(ps + qs, prev, t);
        assert inner[1..] == tail;
      }
    }
  }

  /** `_remove_extra_spaces` collapses the runs of spaces and then deletes
      exactly the spaces that stand between two characters of a removable
      pair of classes; every other space survives. */
  lemma RemoveExtraSpacesReference(s: string)
    ensures RemoveExtraSpaces(s) == DropFlanked(RemovablePairs, None, CollapseRuns(s, Spaces, ' '))
  {
    var t0 := CollapseRuns(s, Spaces, ' ');
    var t1 := RemoveSpaceBetween(Blocks, Blocks, t0);
    var t2 := RemoveSpaceBetween(Blocks, BasicLatin, t1);
    assert NoDoubleSpace(t0);
    RemoveSpaceBetweenKeeps(Blocks, Blocks, t0);
    RemoveSpaceBetweenKeeps(Blocks, BasicLatin, t1);
    RemoveSpaceBetweenReference(Blocks, Blocks, t0);
    RemoveSpaceBetweenReference(Blocks, BasicLatin, t1);
    RemoveSpaceBetweenReference(BasicLatin, Blocks, t2);
    DropFlankedCompose({(Blocks, Blocks)}, {(Blocks, BasicLatin)}, None, t0);
    DropFlankedCompose({(Blocks, Blocks)} + {(Blocks, BasicLatin)}, {(BasicLatin, Blocks)}, None, t0);
    assert {(Blocks, Blocks)} + {(Blocks, BasicLatin)} + {(BasicLatin, Blocks)} == RemovablePairs;
  }

  /** Only the space next to the wide character goes: `"x y あ"` becomes
      `"x yあ"`, since basic Latin on both sides is not a removable pair. */
  lemma LatinSpaceKept(x: string)
    requires x == "x y \U{3042}"
    ensures RemoveExtraSpaces(x) == "x y\U{3042}"
  {
    RemoveExtraSpacesReference(x);
    LatinCollapseFixes(x);
    LatinDropFlanked(x);
  }

  lemma LatinCollapseFixes(x: string)
    requires x == "x y \U{3042}"
    ensures CollapseRuns(x, Spaces, ' ') == x
  {
    assert x[0] !in Spaces && x[2] !in Spaces && x[4] !in Spaces;
    CollapseRunsFixes(x, Spaces, ' ');
  }

  lemma LatinDropFlanked(x: string)
    requires x == "x y \U{3042}"
    ensures DropFlanked(RemovablePairs, None, x) == "x y\U{3042}"
  {
    var ps := RemovablePairs;
    var w := "\U{3042}";
    assert !Fits(ps, 'x', 'y');
    assert Fits(ps, 'y', w[0]);
    assert x == ['x'] + ([' '] + (['y'] + ([' '] + w)));
    DropFlankedKeepSpace(ps, None, 'x', 'y', [' '] + w);
    assert DropFlanked(ps, Some('y'), [' '] + w) == w by {
      assert FlankedFirst(ps, Some('y'), [' '] + w);
      assert ([' '] + w)[1..] == w;
      DropFlankedNonSpace(ps, Some(' '), w);
    }
  }

  /** A space between two non-spaces that do not fit `ps` is kept. */
  lemma DropFlankedKeepSpace(ps: set<(CharClass, CharClass)>, prev: Option<char>, x: char, y: char, t: string)
    requires x != ' ' && y != ' ' && !Fits(ps, x, y)
    ensures DropFlanked(ps, prev, [x] + ([' '] + ([y] + t))) == [x, ' ', y] + DropFlanked(ps, Some(y), t)
  {
    var u := [' '] + ([y] + t);
    DropFlankedNonSpace(ps, prev, [x] + u);
    assert ([x] + u)[1..] == u;
    assert !FlankedFirst(ps, Some(x), u);
    assert u[1..] == [y] + t;
    DropFlankedNonSpace(ps, Some(' '), [y] + t);
    assert ([y] + t)[1..] == t;
  }

  /** `_remove_extra_spaces` (utils.py:59-78). */
  function RemoveExtraSpaces(s: string): (r: string)
    ensures forall i :: 0 <= i < |r| ==> r[i] != IdeographicSpace
    ensures NoDoubleSpace(r)
    ensures !HasSpaceBetween(Blocks, Blocks, r)
    ensures !HasSpaceBetween(Blocks, BasicLatin, r)
    ensures !HasSpaceBetween(BasicLatin, Blocks, r)
    ensures Without(r, {' '}) == Without(s, Spaces)
    ensures forall i :: 0 <= i < |r| ==> r[i] in s || r[i] == ' '
  {
    var t0 := CollapseRuns(s, Spaces, ' ');
    var t1 := RemoveSpaceBetween(Blocks, Blocks, t0);
    var t2 := RemoveSpaceBetween(Blocks, BasicLatin, t1);
    var t3 := RemoveSpaceBetween(BasicLatin, Blocks, t2);
    RemoveExtraSpacesSteps(s, t0, t1, t2, t3);
    t3
  }

  lemma RemoveExtraSpacesSteps(s: string, t0: string, t1: string, t2: string, t3: string)
    requires t0 == CollapseRuns(s, Spaces, ' ')
    requires t1 == RemoveSpaceBetween(Blocks, Blocks, t0)
    requires t2 == RemoveSpaceBetween(Blocks, BasicLatin, t1)
    requires t3 == RemoveSpaceBetween(BasicLatin, Blocks, t2)
    ensures forall i :: 0 <= i < |t3| ==> t3[i] != IdeographicSpace
    ensures NoDoubleSpace(t3)
    ensures !HasSpaceBetween(Blocks, Blocks, t3)
    ensures !HasSpaceBetween(Blocks, BasicLatin, t3)
    ensures !HasSpaceBetween(BasicLatin, Blocks, t3)
    ensures Without(t3, {' '}) == Without(s, Spaces)
    ensures forall i :: 0 <= i < |t3| ==> t3[i] in s || t3[i] == ' '
  {
    assert Spaces + {' '} == Spaces;
    CollapseRunsKeepsOthers(s, Spaces, ' ');
    WithoutIgnoresAbsent(t0, {' '}, Spaces);
    RemoveSpaceBetweenKeeps(Blocks, Blocks, t0);
    RemoveSpaceBetweenKeeps(Blocks, BasicLatin, t1);
    RemoveSpaceBetweenKeeps(BasicLatin, Blocks, t2);
    forall i | 0 <= i < |t3|
      ensures t3[i] != IdeographicSpace && (t3[i] in s || t3[i] == ' ')
    {
      assert t3[i] in t2;
      var j :| 0 <= j < |t2| && t2[j] == t3[i];
      assert t2[j] in t1;
      var k :| 0 <= k < |t1| && t1[k] == t2[j];
      assert t1[k] in t0;
    }
  }

  /** Text already free of removable spaces is its own clean-up. */
  lemma RemoveExtraSpacesFixes(s: string)
    requires forall i :: 0 <= i < |s| ==> s[i] != IdeographicSpace
    requires NoDoubleSpace(s)
    requires !HasSpaceBetween(Blocks, Blocks, s)
    requires !HasSpaceBetween(Blocks, BasicLatin, s)
    requires !HasSpaceBetween(BasicLatin, Blocks, s)
    ensures RemoveExtraSpaces(s) == s
  {
    CollapseRunsFixes(s, Spaces, ' ');
  }

  lemma RemoveExtraSpacesIdempotent(s: string)
    ensures RemoveExtraSpaces(RemoveExtraSpaces(s)) == RemoveExtraSpaces(s)
  {
    RemoveExtraSpacesFixes(RemoveExtraSpaces(s));
  }

  /** Lines 43-51 of utils.py: strip, the variant collapses, the space
      clean-up, then `’` to `'` and `”` to `"`. */
  function NormalizeRegex(s: string): (r: string)
    ensures forall i :: 0 <= i < |r| ==> r[i] !in Hyphens
    ensures forall i :: 0 <= i < |r| ==> r[i] in Choonpus ==> r[i] == Choonpu
    ensures forall i :: 0 <= i < |r| ==> r[i] in Tildes ==> r[i] == WaveDash
    ensures forall i :: 0 <= i < |r| ==> r[i] != IdeographicSpace && r[i] != '\U{2019}' && r[i] != '\U{201D}'
    ensures NoDoubleSpace(r)
  {
    var v := VariantSteps(Strip(s));
    var e := RemoveExtraSpaces(v);
    var p := ReplaceEach(e, {'\U{2019}'}, '\'');
    var q := ReplaceEach(p, {'\U{201D}'}, '"');
    NormalizeRegexCanonical(v, e, p, q);
    q
  }

  lemma NormalizeRegexCanonical(v: string, e: string, p: string, q: string)
    requires forall i :: 0 <= i < |v| ==> v[i] !in Hyphens
    requires forall i :: 0 <= i < |v| ==> v[i] in Choonpus ==> v[i] == Choonpu
    requires forall i :: 0 <= i < |v| ==> v[i] in Tildes ==> v[i] == WaveDash
    requires forall i :: 0 <= i < |e| ==> e[i] != IdeographicSpace && (e[i] in v || e[i] == ' ')
    requires NoDoubleSpace(e)
    requires p == ReplaceEach(e, {'\U{2019}'}, '\'')
    requires q == ReplaceEach(p, {'\U{201D}'}, '"')
    ensures forall i :: 0 <= i < |q| ==> q[i] !in Hyphens
    ensures forall i :: 0 <= i < |q| ==> q[i] in Choonpus ==> q[i] == Choonpu
    ensures forall i :: 0 <= i < |q| ==> q[i] in Tildes ==> q[i] == WaveDash
    ensures forall i :: 0 <= i < |q| ==> q[i] != IdeographicSpace && q[i] != '\U{2019}' && q[i] != '\U{201D}'
    ensures NoDoubleSpace(q)
  {
    forall i | 0 <= i < |q|
      ensures q[i] !in Hyphens
      ensures q[i] in Choonpus ==> q[i] == Choonpu
      ensures q[i] in Tildes ==> q[i] == WaveDash
      ensures q[i] != IdeographicSpace && q[i] != '\U{2019}' && q[i] != '\U{201D}'
    {
      QuoteStepChar(v, e[i], p[i], q[i]);
    }
    forall i | 0 <= i < |q| - 1
      ensures !(q[i] == ' ' && q[i + 1] == ' ')
    {
      assert q[i] == ' ' ==> e[i] == ' ';
      assert q[i + 1] == ' ' ==> e[i + 1] == ' ';
    }
  }

  lemma QuoteStepChar(v: string, x: char, y: char, z: char)
    requires forall i :: 0 <= i < |v| ==> v[i] !in Hyphens
    requires forall i :: 0 <= i < |v| ==> v[i] in Choonpus ==> v[i] == Choonpu
    requires forall i :: 0 <= i < |v| ==> v[i] in Tildes ==> v[i] == WaveDash
    requires x != IdeographicSpace && (x in v || x == ' ')
    requires y == (if x == '\U{2019}' then '\'' else x)
    requires z == (if y == '\U{201D}' then '"' else y)
    ensures z !in Hyphens && (z in Choonpus ==> z == Choonpu) && (z in Tildes ==> z == WaveDash)
    ensures z != IdeographicSpace && z != '\U{2019}' && z != '\U{201D}'
  {
    if x == '\U{2019}' || x == '\U{201D}' || x == ' ' {
    } else {
      assert z == x;
      var j :| 0 <= j < |v| && v[j] == x;
    }
  }

  /** The quote rewrite runs after the space clean-up, so it can turn a kept
      space into a removable one: the regex steps are not idempotent. */
  lemma NormalizeRegexNotIdempotent()
    ensures NormalizeRegex("\U{3042} \U{2019}") == "\U{3042} '"
    ensures NormalizeRegex("\U{3042} '") == "\U{3042}'"
  {
    var x := "\U{3042} \U{2019}";
    var y := "\U{3042} '";
    var z := "\U{3042}'";
    ExampleStripAndVariants(x);
    ExampleStripAndVariants(y);
    ExampleSpacesKept(x);
    ExampleSpaceRemoved(y, z);
    ExampleQuotes(x, y, z);
    NormalizeRegexUnfold(x);
    NormalizeRegexUnfold(y);
  }

  lemma NormalizeRegexUnfold(s: string)
    ensures NormalizeRegex(s)
            == ReplaceEach(ReplaceEach(RemoveExtraSpaces(VariantSteps(Strip(s))), {'\U{2019}'}, '\''), {'\U{201D}'}, '"')
  {
  }

  lemma ExampleQuotes(x: string, y: string, z: string)
    requires x == "\U{3042} \U{2019}" && y == "\U{3042} '" && z == "\U{3042}'"
    ensures ReplaceEach(ReplaceEach(x, {'\U{2019}'}, '\''), {'\U{201D}'}, '"') == y
    ensures ReplaceEach(ReplaceEach(z, {'\U{2019}'}, '\''), {'\U{201D}'}, '"') == z
  {
    assert ReplaceEach(x, {'\U{2019}'}, '\'') == y;
    assert ReplaceEach(y, {'\U{201D}'}, '"') == y;
    assert ReplaceEach(z, {'\U{2019}'}, '\'') == z;
    assert ReplaceEach(z, {'\U{201D}'}, '"') == z;
  }

  lemma ExampleStripAndVariants(x: string)
    requires x == "\U{3042} \U{2019}" || x == "\U{3042} '"
    ensures Strip(x) == x && VariantSteps(x) == x
  {
    ExampleChars();
    assert x[0] == '\U{3042}' && x[1] == ' ' && (x[2] == '\U{2019}' || x[2] == '\'');
    StripUnchanged(x);
    VariantStepsUnchanged(x);
  }

  lemma ExampleChars()
    ensures !IsWhitespace('\U{3042}') && !IsWhitespace('\U{2019}') && !IsWhitespace('\'')
    ensures '\U{3042}' !in VariantChars && ' ' !in VariantChars
    ensures '\U{2019}' !in VariantChars && '\'' !in VariantChars
  {
    NotVariant('\U{3042}');
    NotVariant(' ');
    NotVariant('\U{2019}');
    NotVariant('\'');
  }

  /** Characters outside the ranges the variant classes occupy. */
  lemma NotVariant(c: char)
    requires (c < '\U{02D7}' && c != '~' && c != '-') || ('\U{2015}' < c < '\U{2043}')
      || ('\U{3031}' <= c < '\U{30FC}')
    ensures c !in VariantChars
  {
  }

  lemma ExampleSpacesKept(x: string)
    requires x == "\U{3042} \U{2019}"
    ensures RemoveExtraSpaces(x) == x
  {
    assert !SpaceBetween(Blocks, Blocks, x, 0);
    assert !SpaceBetween(Blocks, BasicLatin, x, 0);
    assert !SpaceBetween(BasicLatin, Blocks, x, 0);
    RemoveExtraSpacesFixes(x);
  }

  lemma RemoveSpaceBetweenStep(a: CharClass, b: CharClass, s: string)
    ensures HasSpaceBetween(a, b, s) ==> RemoveSpaceBetween(a, b, s) == RemoveSpaceBetween(a, b, SubSpaceBetween(a, b, s))
    ensures !HasSpaceBetween(a, b, s) ==> RemoveSpaceBetween(a, b, s) == s
  {
  }

  lemma RemoveExtraSpacesUnfold(s: string)
    ensures RemoveExtraSpaces(s)
            == RemoveSpaceBetween(BasicLatin, Blocks,
                 RemoveSpaceBetween(Blocks, BasicLatin,
                   RemoveSpaceBetween(Blocks, Blocks, CollapseRuns(s, Spaces, ' '))))
  {
  }

  lemma ExampleSpaceRemoved(y: string, z: string)
    requires y == "\U{3042} '" && z == "\U{3042}'"
    ensures RemoveExtraSpaces(y) == z
  {
    RemoveExtraSpacesUnfold(y);
    ExampleCollapseFixes(y);
    ExampleNoBlocksPair(y);
    ExampleBlocksLatinPass(y, z);
    RemoveSpaceBetweenStep(BasicLatin, Blocks, z);
  }

  lemma ExampleCollapseFixes(y: string)
    requires y == "\U{3042} '"
    ensures CollapseRuns(y, Spaces, ' ') == y
  {
    assert y[0] !in Spaces && y[1] == ' ' && y[2] !in Spaces;
    CollapseRunsFixes(y, Spaces, ' ');
  }

  lemma ExampleNoBlocksPair(y: string)
    requires y == "\U{3042} '"
    ensures RemoveSpaceBetween(Blocks, Blocks, y) == y
  {
    assert !InClass(Blocks, y[2]);
    assert !SpaceBetween(Blocks, Blocks, y, 0);
    RemoveSpaceBetweenStep(Blocks, Blocks, y);
  }

  lemma ExampleBlocksLatinPass(y: string, z: string)
    requires y == "\U{3042} '" && z == "\U{3042}'"
    ensures RemoveSpaceBetween(Blocks, BasicLatin, y) == z
  {
    assert SpaceBetween(Blocks, BasicLatin, y, 0);
    assert SubSpaceBetween(Blocks, BasicLatin, y) == [y[0], y[2]] + SubSpaceBetween(Blocks, BasicLatin, y[3..]);
    assert SubSpaceBetween(Blocks, BasicLatin, y) == z;
    RemoveSpaceBetweenStep(Blocks, BasicLatin, y);
    RemoveSpaceBetweenStep(Blocks, BasicLatin, z);
  }

  /** The external width and case tables of utils.py:53-55:
      `mojimoji.han_to_zen(s, digit=False, ascii=False)`,
      `mojimoji.zen_to_han(s, kana=False)` and `str.lower`. */
  datatype TextMaps = TextMaps(widen: string -> string, narrow: string -> string, lower: string -> string)

  /** `_normalize` (utils.py:27-57). */
  function Normalize(s: string, maps: TextMaps): string {
    maps.lower(maps.narrow(maps.widen(NormalizeRegex(s))))
  }
}

=== FILE: roundtrip.dfy ===
/** The record format written by `Tokenizer._get_token` (sudachi_tokenizer.py)
    and read back by `filter_pos` (calc_tfidf.py): `surface###pos`. Reading
    splits at every `###`, so a surface that ends with `#` is cut one
    character early and its token is lost; cutting at the last `###`
    instead recovers every surface. */
module TokenRoundTrip {
  import opened Wrappers
  import opened Strings
  import opened CalcTfidf
  import opened SudachiTokenizer

  /** No `#` anywhere in the text. */
  predicate NoHash(s: string) {
    forall i :: 0 <= i < |s| ==> s[i] != '#'
  }

  /** Joining `#`-free parts with commas gives a `#`-free text. */
  lemma {:induction false} JoinNoHash(parts: seq<string>)
    requires forall k :: 0 <= k < |parts| ==> NoHash(parts[k])
    ensures NoHash(Join(parts, ","))
    decreases |parts|
  {
    if |parts| > 1 {
      JoinNoHash(parts[1..]);
      var j := Join(parts[1..], ",");
      assert Join(parts, ",") == parts[0] + "," + j;
      forall i | 0 <= i < |parts[0] + "," + j|
        ensures (parts[0] + "," + j)[i] != '#'
      {
        if i < |parts[0]| {
        } else if i == |parts[0]| {
        } else {
          assert (parts[0] + "," + j)[i] == j[i - |parts[0]| - 1];
        }
      }
    }
  }

  /** The record of a morpheme whose POS entries carry no `#`: the
      surface, the separator at `|surface|`, and a `#`-free POS after it. */
  lemma RecordShape(m: Morpheme)
    requires forall k :: 0 <= k < |m.partOfSpeech| ==> NoHash(m.partOfSpeech[k])
    ensures var t := GetToken(true, m); var n := |m.dictionaryForm|;
      OccursAt(t, Separator, n) && t[..n] == m.dictionaryForm && t[n + 3..] == Join(m.partOfSpeech, ",")
      && NoHash(t[n + 3..])
  {
    JoinNoHash(m.partOfSpeech);
  }

  /** No separator starts after the one at `|surface|`. */
  lemma NoLaterSeparator(m: Morpheme)
    requires forall k :: 0 <= k < |m.partOfSpeech| ==> NoHash(m.partOfSpeech[k])
    ensures forall q :: |m.dictionaryForm| < q ==> !OccursAt(GetToken(true, m), Separator, q)
  {
    RecordShape(m);
    var t := GetToken(true, m);
    var n := |m.dictionaryForm|;
    var p := t[n + 3..];
    forall q | n < q
      ensures !OccursAt(t, Separator, q)
    {
      if q + 3 <= |t| {
        assert t[q..q + 3][2] == t[q + 2] == p[q + 2 - n - 3];
      }
    }
  }

  /** No separator starts inside the surface, provided the surface holds
      none and does not end with `#`. */
  lemma NoEarlierSeparator(m: Morpheme)
    requires !Contains(m.dictionaryForm, Separator)
    requires |m.dictionaryForm| > 0 ==> m.dictionaryForm[|m.dictionaryForm| - 1] != '#'
    ensures forall q :: q < |m.dictionaryForm| ==> !OccursAt(GetToken(true, m), Separator, q)
  {
    var t := GetToken(true, m);
    var s := m.dictionaryForm;
    var n := |s|;
    forall q | 0 <= q < n
      ensures !OccursAt(t, Separator, q)
    {
      if q + 3 <= n {
        assert t[q..q + 3] == s[q..q + 3];
        assert !OccursAt(s, Separator, q);
      } else {
        assert t[q..q + 3][n - 1 - q] == t[n - 1] == s[n - 1];
      }
    }
  }

  /** Joining `###`-free parts with commas gives a `###`-free text: an
      occurrence would have to cover one of the commas. */
  lemma {:induction false} JoinNoSeparator(parts: seq<string>)
    requires forall k :: 0 <= k < |parts| ==> !Contains(parts[k], Separator)
    ensures !Contains(Join(parts, ","), Separator)
    decreases |parts|
  {
    if |parts| > 1 {
      JoinNoSeparator(parts[1..]);
      var h := parts[0];
      var j := Join(parts[1..], ",");
      var s := h + "," + j;
      assert Join(parts, ",") == s;
      forall q | 0 <= q <= |s| - 3
        ensures !OccursAt(s, Separator, q)
      {
        if q + 3 <= |h| {
          assert s[q..q + 3] == h[q..q + 3];
          assert !OccursAt(h, Separator, q);
        } else if q <= |h| {
          assert s[q..q + 3][|h| - q] == ',' != Separator[|h| - q];
        } else {
          assert s[q..q + 3] == j[q - |h| - 1..q - |h| + 2];
          assert !OccursAt(j, Separator, q - |h| - 1);
        }
      }
    }
  }

  /** A `#`-free text holds no `###`. */
  lemma NoHashNoSeparatorIn(x: string)
    ensures NoHash(x) ==> !Contains(x, Separator)
  {
    if NoHash(x) {
      forall q | 0 <= q <= |x| - 3
        ensures !OccursAt(x, Separator, q)
      {
        assert x[q..q + 3][0] == x[q];
      }
    }
  }

  /** As written: a record is read back as its surface and its POS when
      the surface holds no `###` and does not end with `#`, and the POS
      entries hold no `###`. The token survives exactly when its POS passes. */
  lemma FilterPosRoundTrip(m: Morpheme, allowed: seq<string>)
    requires !Contains(m.dictionaryForm, Separator)
    requires |m.dictionaryForm| > 0 ==> m.dictionaryForm[|m.dictionaryForm| - 1] != '#'
    requires forall k :: 0 <= k < |m.partOfSpeech| ==> !Contains(m.partOfSpeech[k], Separator)
    ensures Split(GetToken(true, m), Separator) == [m.dictionaryForm, Join(m.partOfSpeech, ",")]
    ensures FilterPos([GetToken(true, m)], allowed)
      == if PosMatches(Join(m.partOfSpeech, ","), allowed) then [m.dictionaryForm] else []
  {
    var t := GetToken(true, m);
    var n := |m.dictionaryForm|;
    assert OccursAt(t, Separator, n);
    NoEarlierSeparator(m);
    assert FindFrom(t, Separator, 0) == Some(n);
    var p := t[n + 3..];
    JoinNoSeparator(m.partOfSpeech);
    SplitWithout(p, Separator);
    assert Split(p, Separator) == [p];
    assert Split(t, Separator) == [t[..n]] + Split(p, Separator);
    FilterPosSingle(t, allowed);
  }

  /** As written, the converse: a surface that holds `###` or ends with `#`
      is cut before its end, so its record never reads back as the surface. */
  lemma SurfaceCutEarly(m: Morpheme, allowed: seq<string>)
    requires Contains(m.dictionaryForm, Separator)
      || (|m.dictionaryForm| > 0 && m.dictionaryForm[|m.dictionaryForm| - 1] == '#')
    ensures var head := Split(GetToken(true, m), Separator)[0];
      |head| < |m.dictionaryForm| && head == m.dictionaryForm[..|head|]
    ensures FilterPos([GetToken(true, m)], allowed) != [m.dictionaryForm]
  {
    var t := GetToken(true, m);
    var q := EarlySeparator(m);
    assert FindFrom(t, Separator, 0).Some?;
    var i := FindFrom(t, Separator, 0).value;
    CutHead(t, m.dictionaryForm, i);
    FilterPosSingle(t, allowed);
  }

  /** Such a surface puts a separator before the writer's one. */
  lemma EarlySeparator(m: Morpheme) returns (q: nat)
    requires Contains(m.dictionaryForm, Separator)
      || (|m.dictionaryForm| > 0 && m.dictionaryForm[|m.dictionaryForm| - 1] == '#')
    ensures q < |m.dictionaryForm| && OccursAt(GetToken(true, m), Separator, q)
  {
    var t := GetToken(true, m);
    var s := m.dictionaryForm;
    if Contains(s, Separator) {
      q :| 0 <= q <= |s| - 3 && OccursAt(s, Separator, q);
      SeparatorInSurface(t, s, q);
    } else {
      q := |s| - 1;
      SharpBeforeSeparator(t, s);
    }
  }

  /** A separator inside the surface is one in the record. */
  lemma SeparatorInSurface(t: string, s: string, q: nat)
    requires |s| <= |t| && t[..|s|] == s
    requires q + 3 <= |s| && OccursAt(s, Separator, q)
    ensures OccursAt(t, Separator, q)
  {
    assert t[q..q + 3] == t[..|s|][q..q + 3];
  }

  /** A surface ending in `#` followed by `###` holds a separator one
      position before the writer's. */
  lemma SharpBeforeSeparator(t: string, s: string)
    requires |s| > 0 && s[|s| - 1] == '#'
    requires |s| + 3 <= |t| && t[..|s|] == s && t[|s|..|s| + 3] == Separator
    ensures OccursAt(t, Separator, |s| - 1)
  {
    var n := |s|;
    assert t[n - 1] == t[..n][n - 1] == '#';
    assert t[n] == t[n..n + 3][0] && t[n + 1] == t[n..n + 3][1];
    assert t[n - 1..n + 2] == [t[n - 1], t[n], t[n + 1]];
  }

  /** The first split part ends at the first separator. */
  lemma CutHead(t: string, s: string, i: nat)
    requires FindFrom(t, Separator, 0) == Some(i)
    requires i < |s| <= |t| && t[..|s|] == s
    ensures |Split(t, Separator)[0]| < |s| && Split(t, Separator)[0] == s[..|Split(t, Separator)[0]|]
  {
    assert Split(t, Separator)[0] == t[..i];
    assert t[..i] == s[..i];
  }

  /** A morpheme whose POS starts with an allowed entry is kept as its
      dictionary form. */
  lemma AllowedMorphemeKept(m: Morpheme, allowed: seq<string>)
    requires !Contains(m.dictionaryForm, Separator)
    requires |m.dictionaryForm| > 0 ==> m.dictionaryForm[|m.dictionaryForm| - 1] != '#'
    requires forall k :: 0 <= k < |m.partOfSpeech| ==> !Contains(m.partOfSpeech[k], Separator)
    requires |m.partOfSpeech| >= 2 && m.partOfSpeech[0] in allowed
    ensures FilterPos([GetToken(true, m)], allowed) == [m.dictionaryForm]
  {
    var pos := m.partOfSpeech;
    var j := Join(pos, ",");
    assert j == pos[0] + "," + Join(pos[1..], ",");
    assert j[..|pos[0]| + 1] == pos[0] + ",";
    PosMatchesMeaning(j, allowed);
    FilterPosRoundTrip(m, allowed);
  }

  /** Records written without the POS never pass the filter. */
  lemma WithoutPosDropped(m: Morpheme, allowed: seq<string>)
    requires !Contains(m.dictionaryForm, Separator)
    ensures FilterPos([GetToken(false, m)], allowed) == []
  {
    NoSeparatorDropped(m.dictionaryForm, allowed);
  }

  /** The proper noun `C#`: its record `C####名詞,固有名詞` splits as
      `C` and `#名詞,固有名詞`, the POS no longer passes, and the noun is lost
      although its POS is allowed. */
  lemma SharpSurfaceLost()
    ensures var m := Morpheme("C#", ["名詞", "固有名詞"]);
      PosMatches(Join(m.partOfSpeech, ","), ["名詞"])
      && GetToken(true, m) == "C####名詞,固有名詞"
      && FilterPos([GetToken(true, m)], ["名詞"]) == []
  {
    var m := Morpheme("C#", ["名詞", "固有名詞"]);
    assert PosMatches(Join(m.partOfSpeech, ","), ["名詞"]) by {
      assert Join(m.partOfSpeech, ",") == "名詞,固有名詞";
      assert StartsWith("名詞,固有名詞", "名詞" + ",");
    }
    var t := "C####名詞,固有名詞";
    assert GetToken(true, m) == t;
    SharpRecordDropped(t);
  }

  lemma SharpRecordDropped(t: string)
    requires t == "C####名詞,固有名詞"
    ensures FilterPos([t], ["名詞"]) == []
  {
    var p := t[4..];
    assert Split(t, Separator) == ["C", p] by {
      SharpRecordSplit(t);
    }
    assert p[0] == '#' && "名詞"[0] == '名';
    FirstCharFails(p, ["名詞"]);
    FilterPosSingle(t, ["名詞"]);
  }

  lemma SharpRecordSplit(t: string)
    requires t == "C####名詞,固有名詞"
    ensures Split(t, Separator) == ["C", t[4..]]
  {
    assert t[0..3][0] == 'C';
    assert t[1..4] == Separator;
    assert FindFrom(t, Separator, 0) == Some(1);
    var p := t[4..];
    assert p == "#名詞,固有名詞";
    NoHashNoSeparator(p, 1, |p|);
    assert p[0..3][1] == '名';
    assert !OccursAt(p, Separator, 0);
    assert FindFrom(p, Separator, 0) == None;
    assert Split(t, Separator) == [t[..1]] + Split(p, Separator);
    assert t[..1] == "C";
  }

  /** Corrected reading: cut at the last `###` (`token.rsplit('###', 1)`).
      POS strings carry no `#`, so the last separator is the one the writer
      put there. */
  predicate KeptLast(token: string, allowed: seq<string>) {
    var parts := SplitLast(token, Separator);
    |parts| == 2 && PosMatches(parts[1], allowed)
  }

  /** `filter_pos` with the corrected reading. */
  function FilterPosLast(tokens: seq<string>, allowed: seq<string>): (r: seq<string>)
    ensures |r| <= |tokens|
    decreases |tokens|
  {
    if |tokens| == 0 then []
    else
      var rest := FilterPosLast(tokens[1..], allowed);
      if KeptLast(tokens[0], allowed) then [SplitLast(tokens[0], Separator)[0]] + rest else rest
  }

  /** Corrected round trip: every surface whatsoever comes back, provided
      the POS entries hold no `#`. */
  lemma FilterPosLastRoundTrip(m: Morpheme, allowed: seq<string>)
    requires forall k :: 0 <= k < |m.partOfSpeech| ==> NoHash(m.partOfSpeech[k])
    ensures SplitLast(GetToken(true, m), Separator) == [m.dictionaryForm, Join(m.partOfSpeech, ",")]
    ensures FilterPosLast([GetToken(true, m)], allowed)
      == if PosMatches(Join(m.partOfSpeech, ","), allowed) then [m.dictionaryForm] else []
  {
    var t := GetToken(true, m);
    var n := |m.dictionaryForm|;
    RecordShape(m);
    NoLaterSeparator(m);
    assert FindLast(t, Separator) == Some(n);
    assert [t][1..] == [];
  }

  /** The corrected filter keeps `C#`. */
  lemma SharpSurfaceKept()
    ensures FilterPosLast([GetToken(true, Morpheme("C#", ["名詞", "固有名詞"]))], ["名詞"]) == ["C#"]
  {
    var m := Morpheme("C#", ["名詞", "固有名詞"]);
    assert Join(m.partOfSpeech, ",") == "名詞,固有名詞";
    assert StartsWith("名詞,固有名詞", "名詞" + ",");
    assert NoHash("名詞") && NoHash("固有名詞");
    FilterPosLastRoundTrip(m, ["名詞"]);
  }

  /** The corrected filter works token by token. */
  lemma {:induction false} FilterPosLastAppend(a: seq<string>, b: seq<string>, allowed: seq<string>)
    ensures FilterPosLast(a + b, allowed) == FilterPosLast(a, allowed) + FilterPosLast(b, allowed)
    decreases |a|
  {
    if |a| == 0 {
      assert a + b == b;
    } else {
      assert (a + b)[1..] == a[1..] + b;
      FilterPosLastAppend(a[1..], b, allowed);
    }
  }

  /** The two readings agree on every record written from `#`-free POS
      entries whose surface holds no `###` and does not end with `#`. */
  lemma ReadingsAgree(m: Morpheme, allowed: seq<string>)
    requires !Contains(m.dictionaryForm, Separator)
    requires |m.dictionaryForm| > 0 ==> m.dictionaryForm[|m.dictionaryForm| - 1] != '#'
    requires forall k :: 0 <= k < |m.partOfSpeech| ==> NoHash(m.partOfSpeech[k])
    ensures FilterPos([GetToken(true, m)], allowed) == FilterPosLast([GetToken(true, m)], allowed)
  {
    forall k | 0 <= k < |m.partOfSpeech|
      ensures !Contains(m.partOfSpeech[k], Separator)
    {
      NoHashNoSeparatorIn(m.partOfSpeech[k]);
    }
    FilterPosRoundTrip(m, allowed);
    FilterPosLastRoundTrip(m, allowed);
  }

  /** Reference reading of a tokenized line: the dictionary forms of the
      morphemes whose comma-joined POS passes, in order. */
  function KeptForms(ms: seq<Morpheme>, allowed: seq<string>): seq<string>
    decreases |ms|
  {
    if |ms| == 0 then []
    else
      (if PosMatches(Join(ms[0].partOfSpeech, ","), allowed) then [ms[0].dictionaryForm] else [])
      + KeptForms(ms[1..], allowed)
  }

  /** Reading back the records of a line with the corrected filter gives
      the reference reading. */
  lemma {:induction false} FilterPosLastRecords(ms: seq<Morpheme>, allowed: seq<string>)
    requires forall i, k :: 0 <= i < |ms| && 0 <= k < |ms[i].partOfSpeech| ==> NoHash(ms[i].partOfSpeech[k])
    ensures FilterPosLast(seq(|ms|, i requires 0 <= i < |ms| => GetToken(true, ms[i])), allowed)
      == KeptForms(ms, allowed)
    decreases |ms|
  {
    if |ms| > 0 {
      var all := seq(|ms|, i requires 0 <= i < |ms| => GetToken(true, ms[i]));
      var tail := seq(|ms[1..]|, i requires 0 <= i < |ms[1..]| => GetToken(true, ms[1..][i]));
      assert all == [GetToken(true, ms[0])] + tail;
      FilterPosLastAppend([GetToken(true, ms[0])], tail, allowed);
      FilterPosLastRoundTrip(ms[0], allowed);
      FilterPosLastRecords(ms[1..], allowed);
    }
  }

  /** End to end: what the tokenizer writes for a line with POS is read
      back by the corrected filter as the allowed dictionary forms. */
  lemma TokenizeThenFilter(analyze: Analyzer, text: string, allowed: seq<string>)
    requires analyze(text).Some?
    requires var ms := analyze(text).value;
      forall i, k :: 0 <= i < |ms| && 0 <= k < |ms[i].partOfSpeech| ==> NoHash(ms[i].partOfSpeech[k])
    ensures FilterPosLast(Tokenize(analyze, true, text), allowed) == KeptForms(analyze(text).value, allowed)
  {
    var ms := analyze(text).value;
    assert Tokenize(analyze, true, text) == seq(|ms|, i requires 0 <= i < |ms| => GetToken(true, ms[i]));
    FilterPosLastRecords(ms, allowed);
  }
}

=== FILE: segmentation.dfy ===
/** Splitting text into paragraphs and sentences, paragraph-number tags, and
    the effect-of-invention section (`split_paragraph`, `split_sentence`,
    `is_paragraph_tag` and `extract_effect_section_paragraphs` of utils.py). */
module Segmentation {
  import opened Wrappers
  import opened Strings

  /** The Japanese full stop. */
  const FullStop: char := '\U{3002}'
  /** A paragraph ends with a full stop and a newline. */
  const ParagraphEnd: string := [FullStop, '\n']

  /** Paragraphs: `regex.findall(r'([\s\S]*?。\n)', text)`. */

  /** One raw paragraph match: text whose only `。\n` is at its end. */
  predicate IsParagraphMatch(m: string) {
    |m| >= 2 && m[|m| - 2] == FullStop && m[|m| - 1] == '\n'
    && forall q :: 0 <= q < |m| - 2 ==> !OccursAt(m, ParagraphEnd, q)
  }

  /** The raw matches in order. Each lazy match runs to the nearest `。\n`;
      when none is left, no position can match and the scan stops. */
  function ParagraphMatches(s: string): seq<string>
    decreases |s|
  {
    match FindFrom(s, ParagraphEnd, 0)
    case None => []
    case Some(k) => [s[..k + 2]] + ParagraphMatches(s[k + 2..])
  }

  /** The matches are paragraph matches that cover a prefix of the text, and
      what they leave over holds no `。\n`. */
  lemma {:induction false} ParagraphMatchesValid(s: string)
    ensures var r := ParagraphMatches(s);
      (forall k :: 0 <= k < |r| ==> IsParagraphMatch(r[k]))
      && |Concat(r)| <= |s| && Concat(r) == s[..|Concat(r)|]
      && !Contains(s[|Concat(r)|..], ParagraphEnd)
    decreases |s|
  {
    match FindFrom(s, ParagraphEnd, 0)
    case None =>
      assert s[0..] == s;
    case Some(k) =>
      var m := s[..k + 2];
      var rest := ParagraphMatches(s[k + 2..]);
      ParagraphMatchesValid(s[k + 2..]);
      assert IsParagraphMatch(m) by {
        forall q | 0 <= q < |m| - 2 && OccursAt(m, ParagraphEnd, q)
          ensures false
        {
          OccursInSlice(s, ParagraphEnd, 0, k + 2, q);
        }
      }
      CoverStep(s, k + 2, rest);
      assert s[|m + Concat(rest)|..] == s[k + 2..][|Concat(rest)|..];
  }

  /** The concatenation of a match and the rest. */
  lemma ConsMatches(m: string, rest: seq<string>)
    ensures Concat([m] + rest) == m + Concat(rest)
  {
    assert ([m] + rest)[1..] == rest;
  }

  lemma OccursAtParagraphEnd(s: string, q: int)
    ensures OccursAt(s, ParagraphEnd, q) <==> 0 <= q && q + 1 < |s| && s[q] == FullStop && s[q + 1] == '\n'
  {
    if 0 <= q && q + 1 < |s| {
      assert s[q..q + 2] == [s[q], s[q + 1]];
    }
  }

  /** The scan is left to right: a text that starts with a complete
      paragraph match yields that match and then the matches of the rest. */
  lemma ParagraphMatchesCons(a: string, b: string)
    requires IsParagraphMatch(a)
    ensures ParagraphMatches(a + b) == [a] + ParagraphMatches(b)
  {
    var s := a + b;
    var k := |a| - 2;
    OccursAtParagraphEnd(s, k);
    var r := FindFrom(s, ParagraphEnd, 0);
    if r.Some? {
      OccursAtParagraphEnd(s, r.value);
      if r.value < k {
        OccursAtParagraphEnd(a, r.value);
      }
    }
    assert s[..k + 2] == a;
    assert s[k + 2..] == b;
  }

  /** There is one raw match per occurrence of `。\n` in the text. */
  lemma {:induction false} ParagraphMatchCount(s: string)
    ensures |ParagraphMatches(s)| == CountFrom(s, ParagraphEnd, 0)
    decreases |s|
  {
    match FindFrom(s, ParagraphEnd, 0)
    case None =>
      CountSkip(s, ParagraphEnd, 0, |s|);
      CountZeroBeyond(s, ParagraphEnd, |s|);
    case Some(k) =>
      CountSkip(s, ParagraphEnd, 0, k);
      OccursAtParagraphEnd(s, k);
      OccursAtParagraphEnd(s, k + 1);
      ParagraphMatchCount(s[k + 2..]);
      CountShift(s, ParagraphEnd, k + 2, 0);
  }

  /** `split_paragraph(text)`: each raw match, stripped. */
  function SplitParagraph(s: string): (ps: seq<string>)
  {
    var ms := ParagraphMatches(s);
    seq(|ms|, k requires 0 <= k < |ms| => Strip(ms[k]))
  }

  /** Every paragraph is non-empty and ends with the full stop. */
  lemma ParagraphsEndWithFullStop(s: string)
    ensures var ps := SplitParagraph(s);
      forall k :: 0 <= k < |ps| ==> |ps[k]| > 0 && ps[k][|ps[k]| - 1] == FullStop
  {
    var ms := ParagraphMatches(s);
    var ps := SplitParagraph(s);
    ParagraphMatchesAreMatches(s);
    forall k | 0 <= k < |ps|
      ensures |ps[k]| > 0 && ps[k][|ps[k]| - 1] == FullStop
    {
      assert ps[k] == Strip(ms[k]);
      StrippedParagraphEnds(ms[k]);
    }
  }

  /** `split_paragraph` returns one paragraph per `。\n` in the text. */
  lemma ParagraphCount(s: string)
    ensures |SplitParagraph(s)| == CountFrom(s, ParagraphEnd, 0)
  {
    ParagraphMatchCount(s);
  }

  lemma ParagraphMatchesAreMatches(s: string)
    ensures forall k :: 0 <= k < |ParagraphMatches(s)| ==> IsParagraphMatch(ParagraphMatches(s)[k])
  {
    ParagraphMatchesValid(s);
  }

  lemma StrippedParagraphEnds(m: string)
    requires IsParagraphMatch(m)
    ensures |Strip(m)| > 0 && Strip(m)[|Strip(m)| - 1] == FullStop
  {
    assert !IsWhitespace(FullStop) && IsWhitespace('\n');
    StripKeepsLast(m, |m| - 2);
  }

  /** Sentences: `regex.findall(r'([\S\s]+?。)', text)`. */

  /** One raw sentence match: at least two characters, ending with the
      full stop and holding no other full stop after its first character. */
  predicate IsSentenceMatch(m: string) {
    |m| >= 2 && m[|m| - 1] == FullStop && forall q :: 1 <= q < |m| - 1 ==> m[q] != FullStop
  }

  lemma OccursAtChar(s: string, c: char, q: int)
    ensures OccursAt(s, [c], q) <==> 0 <= q < |s| && s[q] == c
  {
    if 0 <= q < |s| {
      assert s[q..q + 1] == [s[q]];
    }
  }

  /** The first full stop at or after `from` is at `k`. */
  lemma FindFullStopAt(s: string, from: nat, k: nat)
    requires from <= k < |s| && s[k] == FullStop
    requires forall q :: from <= q < k ==> s[q] != FullStop
    ensures FindFrom(s, [FullStop], from) == Some(k)
  {
    OccursAtChar(s, FullStop, k);
    var r := FindFrom(s, [FullStop], from);
    if r.Some? {
      OccursAtChar(s, FullStop, r.value);
    }
  }

  /** No full stop at or after `from`. */
  lemma FindFullStopNone(s: string, from: nat)
    requires forall q :: from <= q < |s| ==> s[q] != FullStop
    ensures FindFrom(s, [FullStop], from) == None
  {
    var r := FindFrom(s, [FullStop], from);
    if r.Some? {
      OccursAtChar(s, FullStop, r.value);
    }
  }

  /** The raw matches in order. A match needs one character before its
      full stop, so a full stop at the start of the rest belongs to the
      next sentence. */
  function SentenceMatches(s: string): seq<string>
    decreases |s|
  {
    if |s| == 0 then []
    else match FindFrom(s, [FullStop], 1)
      case None => []
      case Some(k) => [s[..k + 1]] + SentenceMatches(s[k + 1..])
  }

  /** The matches are sentence matches that cover a prefix of the text, and
      what they leave over holds no full stop after its first character. */
  lemma {:induction false} SentenceMatchesValid(s: string)
    ensures var r := SentenceMatches(s);
      (forall k :: 0 <= k < |r| ==> IsSentenceMatch(r[k]))
      && |Concat(r)| <= |s| && Concat(r) == s[..|Concat(r)|]
      && forall q :: |Concat(r)| + 1 <= q < |s| ==> s[q] != FullStop
    decreases |s|
  {
    if |s| == 0 {
    } else {
      match FindFrom(s, [FullStop], 1)
      case None =>
        forall q | 1 <= q < |s|
          ensures s[q] != FullStop
        {
          OccursAtChar(s, FullStop, q);
        }
      case Some(k) =>
        OccursAtChar(s, FullStop, k);
        var m := s[..k + 1];
        var rest := SentenceMatches(s[k + 1..]);
        SentenceMatchesValid(s[k + 1..]);
        assert IsSentenceMatch(m) by {
          forall q | 1 <= q < |m| - 1
            ensures m[q] != FullStop
          {
            OccursAtChar(s, FullStop, q);
          }
        }
        CoverStep(s, k + 1, rest);
        SentenceTailStep(s, k + 1, |Concat(rest)|);
    }
  }

  /** A prefix covered by a match and then the matches of the rest. */
  lemma CoverStep(s: string, j: nat, rest: seq<string>)
    requires j <= |s|
    requires |Concat(rest)| <= |s| - j && Concat(rest) == s[j..][..|Concat(rest)|]
    ensures var r := [s[..j]] + rest;
      |Concat(r)| == j + |Concat(rest)| <= |s| && Concat(r) == s[..|Concat(r)|]
  {
    ConsMatches(s[..j], rest);
    assert s[..j] + s[j..][..|Concat(rest)|] == s[..j + |Concat(rest)|];
  }

  /** No full stop late in the rest means none late in the whole text. */
  lemma SentenceTailStep(s: string, j: nat, c: nat)
    requires j <= |s|
    requires forall q :: c + 1 <= q < |s| - j ==> s[j..][q] != FullStop
    ensures forall q :: j + c + 1 <= q < |s| ==> s[q] != FullStop
  {
    forall q | j + c + 1 <= q < |s|
      ensures s[q] != FullStop
    {
      assert s[q] == s[j..][q - j];
    }
  }

  /** The scan is left to right: a text that starts with a complete
      sentence match yields that match and then the matches of the rest. */
  lemma SentenceMatchesCons(a: string, b: string)
    requires IsSentenceMatch(a)
    ensures SentenceMatches(a + b) == [a] + SentenceMatches(b)
  {
    var s := a + b;
    var k := |a| - 1;
    forall q | 1 <= q < k
      ensures s[q] != FullStop
    {
      assert s[q] == a[q];
    }
    FindFullStopAt(s, 1, k);
    assert s[..k + 1] == a;
    assert s[k + 1..] == b;
  }

  /** `split_sentence(text)`: each raw match, stripped. */
  function SplitSentence(s: string): (ss: seq<string>)
  {
    var ms := SentenceMatches(s);
    seq(|ms|, k requires 0 <= k < |ms| => Strip(ms[k]))
  }

  /** Every sentence is non-empty and ends with the full stop. */
  lemma SentencesEndWithFullStop(s: string)
    ensures var ss := SplitSentence(s);
      forall k :: 0 <= k < |ss| ==> |ss[k]| > 0 && ss[k][|ss[k]| - 1] == FullStop
  {
    var ms := SentenceMatches(s);
    var ss := SplitSentence(s);
    SentenceMatchesAreMatches(s);
    forall k | 0 <= k < |ss|
      ensures |ss[k]| > 0 && ss[k][|ss[k]| - 1] == FullStop
    {
      assert ss[k] == Strip(ms[k]);
      StrippedSentenceEnds(ms[k]);
    }
  }

  lemma SentenceMatchesAreMatches(s: string)
    ensures forall k :: 0 <= k < |SentenceMatches(s)| ==> IsSentenceMatch(SentenceMatches(s)[k])
  {
    SentenceMatchesValid(s);
  }

  lemma StrippedSentenceEnds(m: string)
    requires IsSentenceMatch(m)
    ensures |Strip(m)| > 0 && Strip(m)[|Strip(m)| - 1] == FullStop
  {
    assert !IsWhitespace(FullStop);
    StripKeepsLast(m, |m| - 1);
  }

  /** A leading paragraph match becomes the first paragraph. */
  lemma SplitParagraphCons(a: string, b: string)
    requires IsParagraphMatch(a)
    ensures SplitParagraph(a + b) == [Strip(a)] + SplitParagraph(b)
  {
    ParagraphMatchesCons(a, b);
    var l, r := SplitParagraph(a + b), [Strip(a)] + SplitParagraph(b);
    assert |l| == |r|;
    forall k | 0 <= k < |l|
      ensures l[k] == r[k]
    {
      if k > 0 {
        assert ParagraphMatches(a + b)[k] == ParagraphMatches(b)[k - 1];
      }
    }
  }

  /** A leading sentence match becomes the first sentence. */
  lemma SplitSentenceCons(a: string, b: string)
    requires IsSentenceMatch(a)
    ensures SplitSentence(a + b) == [Strip(a)] + SplitSentence(b)
  {
    SentenceMatchesCons(a, b);
    var l, r := SplitSentence(a + b), [Strip(a)] + SplitSentence(b);
    assert |l| == |r|;
    forall k | 0 <= k < |l|
      ensures l[k] == r[k]
    {
      if k > 0 {
        assert SentenceMatches(a + b)[k] == SentenceMatches(b)[k - 1];
      }
    }
  }

  /** Text with no full stop after its first character holds no sentence. */
  lemma NoSentence(s: string)
    requires forall q :: 1 <= q < |s| ==> s[q] != FullStop
    ensures SplitSentence(s) == []
  {
    if |s| > 0 {
      FindFullStopNone(s, 1);
    }
  }

  /** `is_paragraph_tag(text)`: the text starts with `【`, four digits, `】`. */
  predicate IsParagraphTag(t: string) {
    |t| >= 6 && t[0] == '【' && (forall m :: 1 <= m < 5 ==> IsDigit(t[m])) && t[5] == '】'
  }

  /** The effect-of-invention section. */

  const EffectLabel: string := "【発明の効果】"

  /** Where `【発明の効果】([\s\S]+)` matches: the first label, provided some
      text follows it (a later label could not have text after it either). */
  function EffectStart(text: string): (r: Option<nat>)
    ensures r.Some? ==> OccursAt(text, EffectLabel, r.value) && r.value + |EffectLabel| < |text|
    ensures r.Some? ==> forall i :: 0 <= i < r.value ==> !OccursAt(text, EffectLabel, i)
    ensures r.None? ==> forall i :: OccursAt(text, EffectLabel, i) ==> i + |EffectLabel| == |text|
  {
    match FindFrom(text, EffectLabel, 0)
    case None => None
    case Some(i) => if i + |EffectLabel| < |text| then Some(i) else None
  }

  /** The first index at or after `i` whose paragraph carries no tag. */
  function FirstUntagged(ps: seq<string>, i: nat): (k: nat)
    requires i <= |ps|
    ensures i <= k <= |ps|
    ensures forall m :: i <= m < k ==> IsParagraphTag(ps[m])
    ensures k < |ps| ==> !IsParagraphTag(ps[k])
    decreases |ps| - i
  {
    if i < |ps| && IsParagraphTag(ps[i]) then FirstUntagged(ps, i + 1) else i
  }

  /** `extract_effect_section_paragraphs(text)`. The result keeps the
      first paragraph of the section and then every following tagged
      paragraph, stopping before the first untagged one; without the label
      there are no paragraphs. */
  function EffectParagraphs(text: string): (r: seq<string>)
    ensures EffectStart(text).None? ==> r == []
    ensures EffectStart(text).Some? ==>
      var ps := SplitParagraph(text[EffectStart(text).value + |EffectLabel|..]);
      |r| <= |ps| && r == ps[..|r|]
      && (|ps| > 0 ==> |r| >= 1)
      && (forall m :: 1 <= m < |r| ==> IsParagraphTag(r[m]))
      && (|r| < |ps| ==> !IsParagraphTag(ps[|r|]))
  {
    match EffectStart(text)
    case None => []
    case Some(i) =>
      var ps := SplitParagraph(text[i + |EffectLabel|..]);
      if |ps| == 0 then [] else ps[..FirstUntagged(ps, 1)]
  }
}

module SegmentationExamples {
  import opened Wrappers
  import opened Strings
  import opened Segmentation

  /** A sentence match that is its own strip, followed by text with no
      full stop after its first character, yields that one sentence. */
  lemma SentenceThenFragment(a: string, b: string)
    requires IsSentenceMatch(a) && Strip(a) == a
    requires forall q :: 1 <= q < |b| ==> b[q] != FullStop
    ensures SplitSentence(a + b) == [a]
  {
    SplitSentenceCons(a, b);
    NoSentence(b);
  }

  /** A sentence match with no whitespace at either end. */
  lemma SolidSentence(a: string)
    requires |a| >= 2 && !IsWhitespace(a[0]) && a[|a| - 1] == FullStop
    requires forall q :: 1 <= q < |a| - 1 ==> a[q] != FullStop
    ensures IsSentenceMatch(a) && Strip(a) == a
  {
    assert !IsWhitespace(FullStop);
    StripUnchanged(a);
  }

  /** Two sentences, each kept with its full stop. */
  lemma TwoSentences(s: string)
    requires s == "これはテスト。これも。"
    ensures SplitSentence(s) == ["これはテスト。", "これも。"]
  {
    var a, b := "これはテスト。", "これも。";
    SolidSentence(a);
    SolidSentence(b);
    assert a + (b + []) == s;
    SplitSentenceCons(a, b + []);
    SentenceThenFragment(b, []);
  }

  /** Trailing text without a full stop is dropped. */
  lemma TrailingTextDropped(s: string)
    requires s == "完全な文。不完全な文"
    ensures SplitSentence(s) == ["完全な文。"]
  {
    var a, b := "完全な文。", "不完全な文";
    SolidSentence(a);
    assert a + b == s;
    SentenceThenFragment(a, b);
  }

  /** A full stop with nothing before it is no sentence. */
  lemma LoneFullStop()
    ensures SplitSentence("。") == []
  {
    NoSentence("。");
  }

  /** The effect section keeps its first paragraph and the tagged one after
      it, and drops the untagged paragraph that follows. */
  lemma EffectTruncation(text: string)
    requires text == "【発明の効果】A。\n【0001】B。\n C。\n"
    ensures EffectParagraphs(text) == ["A。", "【0001】B。"]
  {
    var ps := ["A。", "【0001】B。", "C。"];
    assert EffectStart(text) == Some(0) by {
      EffectExampleStart(text);
    }
    assert SplitParagraph(text[7..]) == ps by {
      EffectExampleSection(text);
      EffectExampleParagraphs(text[7..]);
    }
    assert FirstUntagged(ps, 1) == 2 && ps[..2] == ["A。", "【0001】B。"] by {
      EffectExampleCut(ps);
    }
    EffectParagraphsAt(text, 0, ps);
  }

  lemma EffectParagraphsAt(text: string, i: nat, ps: seq<string>)
    requires EffectStart(text) == Some(i)
    requires i + |EffectLabel| <= |text| && SplitParagraph(text[i + |EffectLabel|..]) == ps
    requires |ps| > 0
    ensures EffectParagraphs(text) == ps[..FirstUntagged(ps, 1)]
  {
  }

  lemma EffectExampleSection(text: string)
    requires text == "【発明の効果】A。\n【0001】B。\n C。\n"
    ensures text[7..] == "A。\n【0001】B。\n C。\n"
  {
  }

  lemma EffectExampleCut(ps: seq<string>)
    requires ps == ["A。", "【0001】B。", "C。"]
    ensures FirstUntagged(ps, 1) == 2 && ps[..2] == ["A。", "【0001】B。"]
  {
    assert IsParagraphTag(ps[1]);
    assert !IsParagraphTag(ps[2]);
  }

  lemma EffectExampleStart(text: string)
    requires text == "【発明の効果】A。\n【0001】B。\n C。\n"
    ensures EffectStart(text) == Some(0)
  {
    assert OccursAt(text, EffectLabel, 0);
  }

  /** Three paragraph matches in a row give their three stripped texts. */
  lemma ThreeParagraphs(a: string, b: string, c: string)
    requires IsParagraphMatch(a) && IsParagraphMatch(b) && IsParagraphMatch(c)
    ensures SplitParagraph(a + (b + c)) == [Strip(a), Strip(b), Strip(c)]
  {
    assert c + [] == c;
    SplitParagraphCons(a, b + c);
    SplitParagraphCons(b, c + []);
    SplitParagraphCons(c, []);
  }

  lemma EffectExampleParagraphs(s: string)
    requires s == "A。\n【0001】B。\n C。\n"
    ensures SplitParagraph(s) == ["A。", "【0001】B。", "C。"]
  {
    var a, b, c := "A。\n", "【0001】B。\n", " C。\n";
    ParagraphMatchFacts(a, b, c);
    assert a + (b + c) == s;
    ThreeParagraphs(a, b, c);
    StripLineA();
    StripLineB();
    StripLineC();
  }

  lemma ParagraphMatchFacts(a: string, b: string, c: string)
    requires a == "A。\n" && b == "【0001】B。\n" && c == " C。\n"
    ensures IsParagraphMatch(a) && IsParagraphMatch(b) && IsParagraphMatch(c)
  {
    forall q | 0 <= q < |b| - 2
      ensures !OccursAt(b, ParagraphEnd, q)
    {
      OccursAtParagraphEnd(b, q);
    }
    forall q | 0 <= q < |c| - 2
      ensures !OccursAt(c, ParagraphEnd, q)
    {
      OccursAtParagraphEnd(c, q);
    }
  }

  lemma StripLineA()
    ensures Strip("A。\n") == "A。"
  {
    StripKeepsLast("A。\n", 1);
  }

  lemma StripLineB()
    ensures Strip("【0001】B。\n") == "【0001】B。"
  {
    StripKeepsLast("【0001】B。\n", 7);
  }

  lemma StripLineC()
    ensures Strip(" C。\n") == "C。"
  {
    StripKeepsLast(" C。\n", 2);
    assert LeadingSpaces(" C。\n") == 1;
  }
}

=== FILE: strings.dfy ===
/** Strings as sequences of characters, and the few Python `str` operations
    the pipeline relies on: searching, `split`, `join`, `strip`, and ASCII
    case mapping. */
module Strings {
  import opened Wrappers

  /** The character classes that the patterns and `str.strip` use. */

  /** Stand-in for the regex class `\d`: ASCII and full-width digits. */
  predicate IsDigit(c: char) {
    ('0' <= c <= '9') || ('\U{FF10}' <= c <= '\U{FF19}')
  }

  predicate IsAsciiLetter(c: char) {
    ('A' <= c <= 'Z') || ('a' <= c <= 'z')
  }

  /** The characters for which Python's `str.isspace` holds; `str.strip`
      removes these, and the model uses the same set for the class `\s`. */
  predicate IsWhitespace(c: char) {
    ('\t' <= c <= '\r') || ('\U{001C}' <= c <= ' ') || c == '\U{0085}' || c == '\U{00A0}'
    || c == '\U{1680}' || ('\U{2000}' <= c <= '\U{200A}') || c == '\U{2028}' || c == '\U{2029}'
    || c == '\U{202F}' || c == '\U{205F}' || c == '\U{3000}'
  }

  /** Occurrences of a literal pattern. */

  predicate OccursAt(s: string, pat: string, i: int) {
    0 <= i && i + |pat| <= |s| && s[i..i + |pat|] == pat
  }

  predicate StartsWith(s: string, pat: string) {
    OccursAt(s, pat, 0)
  }

  predicate Contains(s: string, pat: string) {
    exists i :: 0 <= i <= |s| - |pat| && OccursAt(s, pat, i)
  }

  /** An occurrence inside a slice is an occurrence in the whole string. */
  lemma OccursInSlice(s: string, pat: string, a: int, b: int, q: int)
    requires 0 <= a <= b <= |s|
    requires OccursAt(s[a..b], pat, q)
    ensures OccursAt(s, pat, a + q)
  {
    forall k | 0 <= k < |pat|
      ensures s[a + q + k] == pat[k]
    {
      assert s[a..b][q + k] == s[a + q + k];
      assert s[a..b][q..q + |pat|][k] == s[a..b][q + k];
    }
    assert s[a + q..a + q + |pat|] == pat;
  }

  /** The leftmost occurrence of `pat` at or after `from` (Python `str.find`). */
  function FindFrom(s: string, pat: string, from: nat): (r: Option<nat>)
    ensures r.Some? ==> from <= r.value && OccursAt(s, pat, r.value)
    ensures r.Some? ==> forall q :: from <= q < r.value ==> !OccursAt(s, pat, q)
    ensures r.None? ==> forall q :: from <= q ==> !OccursAt(s, pat, q)
    decreases |s| - from
  {
    if from + |pat| > |s| then None
    else if s[from..from + |pat|] == pat then Some(from)
    else FindFrom(s, pat, from + 1)
  }

  /** The rightmost occurrence of `pat` starting at or before `p`. */
  function FindLastUpTo(s: string, pat: string, p: int): (r: Option<nat>)
    ensures r.Some? ==> r.value <= p && OccursAt(s, pat, r.value)
    ensures r.Some? ==> forall q :: r.value < q <= p ==> !OccursAt(s, pat, q)
    ensures r.None? ==> forall q :: q <= p ==> !OccursAt(s, pat, q)
    decreases p + 1
  {
    if p < 0 then None
    else if OccursAt(s, pat, p) then Some(p)
    else FindLastUpTo(s, pat, p - 1)
  }

  /** The rightmost occurrence of `pat` (Python `str.rfind`). */
  function FindLast(s: string, pat: string): (r: Option<nat>)
    ensures r.Some? ==> OccursAt(s, pat, r.value)
    ensures r.Some? ==> forall q :: r.value < q ==> !OccursAt(s, pat, q)
    ensures r.None? ==> forall q :: !OccursAt(s, pat, q)
  {
    FindLastUpTo(s, pat, |s| - |pat|)
  }

  /** The number of indices at or after `from` where `pat` occurs. */
  function CountFrom(s: string, pat: string, from: nat): nat
    decreases |s| - from
  {
    if from >= |s| then 0
    else (if OccursAt(s, pat, from) then 1 else 0) + CountFrom(s, pat, from + 1)
  }

  /** Skipping a stretch without occurrences does not change the count. */
  lemma {:induction false} CountSkip(s: string, pat: string, i: nat, k: nat)
    requires i <= k
    requires forall q :: i <= q < k ==> !OccursAt(s, pat, q)
    ensures CountFrom(s, pat, i) == CountFrom(s, pat, k)
    decreases k - i
  {
    if i < k {
      if i < |s| {
        CountSkip(s, pat, i + 1, k);
      } else {
        CountZeroBeyond(s, pat, k);
      }
    }
  }

  lemma {:induction false} CountZeroBeyond(s: string, pat: string, k: nat)
    requires k >= |s|
    ensures CountFrom(s, pat, k) == 0
  {
  }

  /** Counting in a suffix is counting in the whole string from the
      suffix's start on. */
  lemma {:induction false} CountShift(s: string, pat: string, j: nat, i: nat)
    requires j <= |s|
    ensures CountFrom(s, pat, j + i) == CountFrom(s[j..], pat, i)
    decreases |s| - j - i
  {
    if j + i < |s| {
      if j + i + |pat| <= |s| {
        assert s[j..][i..i + |pat|] == s[j + i..j + i + |pat|];
      }
      CountShift(s, pat, j, i + 1);
    }
  }

  /** Removing every character of `drop` (a `regex.sub` with an empty
      replacement over a character class). */
  function Without(s: string, drop: set<char>): (r: string)
    ensures |r| <= |s|
    decreases |s|
  {
    if |s| == 0 then []
    else (if s[0] in drop then [] else [s[0]]) + Without(s[1..], drop)
  }

  /** `Without` keeps exactly the characters outside `drop`. */
  lemma {:induction false} WithoutMembers(s: string, drop: set<char>)
    ensures forall c :: c in Without(s, drop) <==> c in s && c !in drop
    decreases |s|
  {
    if |s| > 0 {
      WithoutMembers(s[1..], drop);
      assert s == [s[0]] + s[1..];
    }
  }

  lemma {:induction false} WithoutConcat(a: string, b: string, drop: set<char>)
    ensures Without(a + b, drop) == Without(a, drop) + Without(b, drop)
    decreases |a|
  {
    if |a| > 0 {
      assert (a + b)[1..] == a[1..] + b;
      WithoutConcat(a[1..], b, drop);
    } else {
      assert a + b == b;
    }
  }

  /** A string without any character of `drop` is its own `Without`. */
  lemma {:induction false} WithoutNothingToDrop(s: string, drop: set<char>)
    requires forall i :: 0 <= i < |s| ==> s[i] !in drop
    ensures Without(s, drop) == s
    decreases |s|
  {
    if |s| > 0 {
      WithoutNothingToDrop(s[1..], drop);
    }
  }

  /** The concatenation of a list of sequences. */
  function Concat<T>(ss: seq<seq<T>>): seq<T> {
    if |ss| == 0 then [] else ss[0] + Concat(ss[1..])
  }

  lemma {:induction false} ConcatAppend<T>(a: seq<seq<T>>, b: seq<seq<T>>)
    ensures Concat(a + b) == Concat(a) + Concat(b)
    decreases |a|
  {
    if |a| == 0 {
      assert a + b == b;
    } else {
      assert (a + b)[1..] == a[1..] + b;
      ConcatAppend(a[1..], b);
    }
  }

  /** Python `sep.join(parts)`. */
  function Join(parts: seq<string>, sep: string): string {
    if |parts| == 0 then ""
    else if |parts| == 1 then parts[0]
    else parts[0] + sep + Join(parts[1..], sep)
  }

  /** Python `s.split(sep)` for a non-empty separator: cut at each
      occurrence found scanning left to right, resuming after it. */
  function Split(s: string, sep: string): (parts: seq<string>)
    requires |sep| > 0
    ensures |parts| >= 1
    ensures Join(parts, sep) == s
    ensures forall k :: 0 <= k < |parts| ==> !Contains(parts[k], sep)
    decreases |s|
  {
    match FindFrom(s, sep, 0)
    case None => [s]
    case Some(i) =>
      var head := s[..i];
      var rest := Split(s[i + |sep|..], sep);
      assert !Contains(head, sep) by {
        forall q | 0 <= q <= |head| - |sep| && OccursAt(head, sep, q)
          ensures false
        {
          OccursInSlice(s, sep, 0, i, q);
        }
      }
      assert s == head + sep + s[i + |sep|..];
      [head] + rest
  }

  /** A text without the separator splits into itself alone. */
  lemma SplitWithout(s: string, sep: string)
    requires |sep| > 0
    ensures !Contains(s, sep) ==> Split(s, sep) == [s]
  {
    var r := FindFrom(s, sep, 0);
    if r.Some? {
      assert OccursAt(s, sep, r.value);
    }
  }

  /** Python `s.rsplit(sep, 1)`: cut at the rightmost occurrence only. */
  function SplitLast(s: string, sep: string): (parts: seq<string>)
    requires |sep| > 0
    ensures |parts| == 1 <==> !Contains(s, sep)
    ensures |parts| == 1 ==> parts[0] == s
    ensures |parts| == 2 ==> parts[0] + sep + parts[1] == s && !Contains(parts[1], sep)
    ensures 1 <= |parts| <= 2
  {
    match FindLast(s, sep)
    case None => [s]
    case Some(i) =>
      var tail := s[i + |sep|..];
      assert !Contains(tail, sep) by {
        forall q | 0 <= q <= |tail| - |sep| && OccursAt(tail, sep, q)
          ensures false
        {
          assert s[i + |sep|..|s|] == tail;
          OccursInSlice(s, sep, i + |sep|, |s|, q);
        }
      }
      assert s == s[..i] + sep + tail;
      [s[..i], tail]
  }

  /** Python `str.strip()`: drop leading and trailing whitespace. */

  /** The number of leading whitespace characters. */
  function LeadingSpaces(s: string): (n: nat)
    ensures n <= |s|
    ensures forall i :: 0 <= i < n ==> IsWhitespace(s[i])
    ensures n < |s| ==> !IsWhitespace(s[n])
    decreases |s|
  {
    if |s| > 0 && IsWhitespace(s[0]) then 1 + LeadingSpaces(s[1..]) else 0
  }

  function TrimEnd(s: string): (r: string)
    ensures |r| <= |s| && r == s[..|r|]
    ensures forall i :: |r| <= i < |s| ==> IsWhitespace(s[i])
    ensures |r| > 0 ==> !IsWhitespace(r[|r| - 1])
    decreases |s|
  {
    if |s| > 0 && IsWhitespace(s[|s| - 1]) then TrimEnd(s[..|s| - 1]) else s
  }

  /** The stripped text is the slice that starts after the leading
      whitespace; everything after it is whitespace, and it neither starts
      nor ends with whitespace. */
  function Strip(s: string): (r: string)
    ensures LeadingSpaces(s) + |r| <= |s|
    ensures r == s[LeadingSpaces(s)..LeadingSpaces(s) + |r|]
    ensures forall i :: LeadingSpaces(s) + |r| <= i < |s| ==> IsWhitespace(s[i])
    ensures |r| > 0 ==> !IsWhitespace(r[0]) && !IsWhitespace(r[|r| - 1])
  {
    var a := LeadingSpaces(s);
    var t := s[a..];
    var r := TrimEnd(t);
    assert r == t[..|r|];
    assert t[..|r|] == s[a..a + |r|];
    assert forall i :: a + |r| <= i < |s| ==> s[i] == t[i - a];
    r
  }

  /** Text that neither starts nor ends with whitespace is its own strip. */
  lemma StripUnchanged(s: string)
    requires |s| > 0 ==> !IsWhitespace(s[0]) && !IsWhitespace(s[|s| - 1])
    ensures Strip(s) == s
  {
    assert LeadingSpaces(s) == 0;
    assert s[0..] == s;
    assert TrimEnd(s) == s;
  }

  /** Stripping ends the text at its last character that is not whitespace. */
  lemma StripKeepsLast(s: string, i: nat)
    requires i < |s| && !IsWhitespace(s[i])
    requires forall m :: i < m < |s| ==> IsWhitespace(s[m])
    ensures |Strip(s)| > 0 && Strip(s)[|Strip(s)| - 1] == s[i]
  {
    var r := Strip(s);
    var a := LeadingSpaces(s);
    assert a <= i;
    assert a + |r| > i;
    assert r[|r| - 1] == s[a + |r| - 1];
  }

  /** ASCII case mapping (the only letters the model ever maps). */

  function AsciiUpper(s: string): (r: string)
    ensures |r| == |s|
    ensures forall i :: 0 <= i < |s| ==> r[i] == if 'a' <= s[i] <= 'z' then (s[i] as int - 32) as char else s[i]
  {
    seq(|s|, i requires 0 <= i < |s| => if 'a' <= s[i] <= 'z' then (s[i] as int - 32) as char else s[i])
  }

  function AsciiLower(s: string): (r: string)
    ensures |r| == |s|
    ensures forall i :: 0 <= i < |s| ==> r[i] == if 'A' <= s[i] <= 'Z' then (s[i] as int + 32) as char else s[i]
  {
    seq(|s|, i requires 0 <= i < |s| => if 'A' <= s[i] <= 'Z' then (s[i] as int + 32) as char else s[i])
  }
}

=== FILE: sudachi_tokenizer.dfy ===
/** The pure glue of sudachi_tokenizer.py: token records, the per-line
    tokenizer over an abstract morphological analyzer, field extraction for
    a patent, preprocessing into sentences, `flatten`, and the file-type
    parse of `load_input_file`. */
module SudachiTokenizer {
  import opened Wrappers
  import opened Strings
  import opened Normalization
  import opened Cleaning
  import opened Extraction
  import opened Segmentation
  import CalcTfidf

  /** What the analyzer reports for one token. */
  datatype Morpheme = Morpheme(dictionaryForm: string, partOfSpeech: seq<string>)

  /** The morphological analyzer: `None` when it raises. */
  type Analyzer = string -> Option<seq<Morpheme>>

  /** `Tokenizer._get_token`: the dictionary form, followed by `###` and the
      comma-joined POS when `withPos` is set. */
  function GetToken(withPos: bool, m: Morpheme): (t: string)
    ensures !withPos ==> t == m.dictionaryForm
    ensures withPos ==> (|t| >= |m.dictionaryForm| + 3
                         && t[..|m.dictionaryForm|] == m.dictionaryForm
                         && t[|m.dictionaryForm|..|m.dictionaryForm| + 3] == CalcTfidf.Separator
                         && t[|m.dictionaryForm| + 3..] == Join(m.partOfSpeech, ","))
  {
    if withPos then
      var t := m.dictionaryForm + CalcTfidf.Separator + Join(m.partOfSpeech, ",");
      assert t[..|m.dictionaryForm|] == m.dictionaryForm;
      assert t[|m.dictionaryForm|..|m.dictionaryForm| + 3] == CalcTfidf.Separator;
      assert t[|m.dictionaryForm| + 3..] == Join(m.partOfSpeech, ",");
      t
    else m.dictionaryForm
  }

  /** One record per morpheme, in the analyzer's order (the list
      comprehension of `_tokenize`). */
  function TokensOf(withPos: bool, ms: seq<Morpheme>): (ts: seq<string>)
    ensures |ts| == |ms|
    ensures forall k :: 0 <= k < |ms| ==> ts[k] == GetToken(withPos, ms[k])
    decreases |ms|
  {
    if |ms| == 0 then [] else [GetToken(withPos, ms[0])] + TokensOf(withPos, ms[1..])
  }

  /** `Tokenizer._tokenize`: one record per morpheme, or nothing when the
      analyzer raises. */
  function Tokenize(analyze: Analyzer, withPos: bool, text: string): (ts: seq<string>)
    ensures analyze(text).None? ==> ts == []
    ensures analyze(text).Some? ==>
      |ts| == |analyze(text).value|
      && forall k :: 0 <= k < |ts| ==> ts[k] == GetToken(withPos, analyze(text).value[k])
  {
    match analyze(text)
    case None => []
    case Some(ms) => TokensOf(withPos, ms)
  }

  /** `Tokenizer.tokenize_lines`: one token list per line, in order. */
  function TokenizeLines(analyze: Analyzer, withPos: bool, lines: seq<string>): (r: seq<seq<string>>)
    ensures |r| == |lines|
    ensures forall k :: 0 <= k < |lines| ==> r[k] == Tokenize(analyze, withPos, lines[k])
    decreases |lines|
  {
    if |lines| == 0 then []
    else [Tokenize(analyze, withPos, lines[0])] + TokenizeLines(analyze, withPos, lines[1..])
  }

  /** Tokenizing lines works line by line. */
  lemma {:induction false} TokenizeLinesAppend(analyze: Analyzer, withPos: bool, a: seq<string>, b: seq<string>)
    ensures TokenizeLines(analyze, withPos, a + b)
      == TokenizeLines(analyze, withPos, a) + TokenizeLines(analyze, withPos, b)
  {
  }

  /** The sum of the lengths of the sublists. */
  function TotalLength<T>(l: seq<seq<T>>): nat {
    if |l| == 0 then 0 else |l[0]| + TotalLength(l[1..])
  }

  lemma {:induction false} TotalLengthAppend<T>(a: seq<seq<T>>, b: seq<seq<T>>)
    ensures TotalLength(a + b) == TotalLength(a) + TotalLength(b)
    decreases |a|
  {
    if |a| == 0 {
      assert a + b == b;
    } else {
      assert (a + b)[1..] == a[1..] + b;
      TotalLengthAppend(a[1..], b);
    }
  }

  lemma {:induction false} ConcatLength<T>(l: seq<seq<T>>)
    ensures |Concat(l)| == TotalLength(l)
    decreases |l|
  {
    if |l| > 0 {
      ConcatLength(l[1..]);
    }
  }

  /** `flatten`: the items of each sublist, sublist by sublist. */
  method Flatten<T>(l: seq<seq<T>>) returns (r: seq<T>)
    ensures r == Concat(l)
    ensures |r| == TotalLength(l)
  {
    r := [];
    var i := 0;
    while i < |l|
      invariant 0 <= i <= |l|
      invariant r == Concat(l[..i])
    {
      var j := 0;
      while j < |l[i]|
        invariant 0 <= j <= |l[i]|
        invariant r == Concat(l[..i]) + l[i][..j]
      {
        r := r + [l[i][j]];
        j := j + 1;
        assert l[i][..j] == l[i][..j - 1] + [l[i][j - 1]];
      }
      assert l[i][..j] == l[i];
      ConcatAppend(l[..i], [l[i]]);
      assert Concat([l[i]]) == l[i] by {
        assert [l[i]][1..] == [];
      }
      assert l[..i + 1] == l[..i] + [l[i]];
      i := i + 1;
    }
    assert l[..i] == l;
    ConcatLength(l);
  }

  /** The fields `extract_text` reads by default. */
  const DefaultFields: seq<string> := ["ab", "cl", "de"]

  /** `extract_text(text, fields)`: the contents of the fields in order;
      the first field name that is not valid raises. */
  function ExtractText(text: string, fields: seq<string>): Result<string, FieldError>
    decreases |fields|
  {
    if |fields| == 0 then Success("")
    else match ExtractContent(text, fields[0])
      case Failure(e) => Failure(e)
      case Success(a) =>
        match ExtractText(text, fields[1..])
        case Failure(e) => Failure(e)
        case Success(b) => Success(a + b)
  }

  /** The text fails exactly when some field name is invalid, and then with
      the error of the first invalid one. */
  lemma {:induction false} ExtractTextFailure(text: string, fields: seq<string>)
    ensures var r := ExtractText(text, fields);
      (r.Failure? <==> exists k :: 0 <= k < |fields| && ExtractContent(text, fields[k]).Failure?)
      && (r.Failure? ==>
            exists k :: 0 <= k < |fields| && r.error == InvalidField(fields[k])
                     && ExtractContent(text, fields[k]).Failure?
                     && forall m :: 0 <= m < k ==> ExtractContent(text, fields[m]).Success?)
    decreases |fields|
  {
    if |fields| > 0 && ExtractContent(text, fields[0]).Success? {
      ExtractTextFailure(text, fields[1..]);
      var tail := fields[1..];
      assert forall k :: 1 <= k < |fields| ==> fields[k] == tail[k - 1];
      var r := ExtractText(text, tail);
      if r.Failure? {
        var k :| 0 <= k < |tail| && r.error == InvalidField(tail[k])
          && ExtractContent(text, tail[k]).Failure?
          && forall m :: 0 <= m < k ==> ExtractContent(text, tail[m]).Success?;
        assert fields[k + 1] == tail[k];
      }
    }
  }

  /** With valid fields the result is the concatenation of their contents. */
  lemma {:induction false} ExtractTextConcat(text: string, fields: seq<string>)
    requires forall k :: 0 <= k < |fields| ==> ExtractContent(text, fields[k]).Success?
    ensures ExtractText(text, fields).Success?
    ensures ExtractText(text, fields).value
      == Concat(seq(|fields|, k requires 0 <= k < |fields| => ExtractContent(text, fields[k]).value))
    decreases |fields|
  {
    if |fields| > 0 {
      ExtractTextConcat(text, fields[1..]);
      var all := seq(|fields|, k requires 0 <= k < |fields| => ExtractContent(text, fields[k]).value);
      var tail := seq(|fields[1..]|, k requires 0 <= k < |fields[1..]| => ExtractContent(text, fields[1..][k]).value);
      assert all[1..] == tail;
    }
  }

  /** By default the text is the abstract, the claims and the description,
      in that order; with none of them present it is empty. */
  lemma DefaultExtractText(text: string)
    ensures ExtractText(text, DefaultFields) == Success(
      ExtractContent(text, "ab").value + ExtractContent(text, "cl").value + ExtractContent(text, "de").value)
  {
    var ab := ExtractContent(text, "ab");
    var cl := ExtractContent(text, "cl");
    var de := ExtractContent(text, "de");
    assert ab.Success? && cl.Success? && de.Success? by {
      assert IsTaggedField("ab") && IsTaggedField("cl") && IsTaggedField("de");
    }
    assert ExtractText(text, ["de"]) == Success(de.value) by {
      ExtractTextStep(text, ["de"]);
      assert de.value + "" == de.value;
    }
    assert ExtractText(text, ["cl", "de"]) == Success(cl.value + de.value) by {
      assert ["cl", "de"][1..] == ["de"];
      ExtractTextStep(text, ["cl", "de"]);
    }
    assert ExtractText(text, DefaultFields) == Success(ab.value + (cl.value + de.value)) by {
      assert DefaultFields[1..] == ["cl", "de"];
      ExtractTextStep(text, DefaultFields);
    }
    assert ab.value + (cl.value + de.value) == ab.value + cl.value + de.value;
  }

  /** One valid field in front adds its content in front. */
  lemma ExtractTextStep(text: string, fields: seq<string>)
    requires |fields| > 0 && ExtractContent(text, fields[0]).Success?
    requires ExtractText(text, fields[1..]).Success?
    ensures ExtractText(text, fields)
      == Success(ExtractContent(text, fields[0]).value + ExtractText(text, fields[1..]).value)
  {
  }

  /** With none of the three fields present the text is empty. */
  lemma DefaultExtractTextEmpty(text: string)
    requires ExtractContent(text, "ab") == Success("")
    requires ExtractContent(text, "cl") == Success("")
    requires ExtractContent(text, "de") == Success("")
    ensures ExtractText(text, DefaultFields) == Success("")
  {
    DefaultExtractText(text);
    assert "" + "" + "" == "";
  }

  /** The text `preprocessing` cuts into sentences: the default fields of
      the patent, cleaned. */
  function PatentText(patent: string, maps: TextMaps): string {
    match ExtractText(patent, DefaultFields)
    case Success(t) => Clean(t, maps)
    case Failure(_) => ""  // the default fields are all valid: see DefaultExtractText
  }

  /** `f` applied to each item, in order. */
  function MapTexts(items: seq<string>, f: string -> string): (r: seq<string>)
    ensures |r| == |items|
  {
    seq(|items|, k requires 0 <= k < |items| => f(items[k]))
  }

  lemma MapTextsAppend(a: seq<string>, b: seq<string>, f: string -> string)
    ensures MapTexts(a + b, f) == MapTexts(a, f) + MapTexts(b, f)
  {
    var l := MapTexts(a + b, f);
    var r := MapTexts(a, f) + MapTexts(b, f);
    forall k | 0 <= k < |a + b|
      ensures l[k] == r[k]
    {
      if k < |a| {
        assert (a + b)[k] == a[k];
      } else {
        assert (a + b)[k] == b[k - |a|];
      }
    }
  }

  /** The cleaned text of each patent, in order. */
  function PatentTexts(patents: seq<string>, maps: TextMaps): (texts: seq<string>)
    ensures |texts| == |patents|
  {
    MapTexts(patents, p => PatentText(p, maps))
  }

  /** The sentences of each text, in order. */
  function SentencesOf(texts: seq<string>): (docs: seq<seq<string>>)
    ensures |docs| == |texts|
  {
    seq(|texts|, k requires 0 <= k < |texts| => SplitSentence(texts[k]))
  }

  /** `preprocessing(patents)`: the sentences of each cleaned patent text. */
  function Preprocess(patents: seq<string>, maps: TextMaps): (docs: seq<seq<string>>)
    ensures |docs| == |patents|
  {
    SentencesOf(PatentTexts(patents, maps))
  }

  /** The `k`-th document is the sentence split of the cleaned abstract,
      claims and description of the `k`-th patent. */
  lemma PreprocessEach(patents: seq<string>, maps: TextMaps, k: nat)
    requires k < |patents|
    ensures var p := patents[k];
      Preprocess(patents, maps)[k] == SplitSentence(Clean(
        ExtractContent(p, "ab").value + ExtractContent(p, "cl").value + ExtractContent(p, "de").value, maps))
  {
    DefaultExtractText(patents[k]);
    assert PatentTexts(patents, maps)[k] == PatentText(patents[k], maps);
  }

  /** Every sentence of every document is non-empty and ends with the full
      stop. */
  predicate AllEndWithFullStop(docs: seq<seq<string>>) {
    forall k, j :: 0 <= k < |docs| && 0 <= j < |docs[k]| ==>
      |docs[k][j]| > 0 && docs[k][j][|docs[k][j]| - 1] == FullStop
  }

  /** Every sentence handed to the tokenizer is non-empty and ends with the
      full stop, whatever the width and case tables do. */
  lemma PreprocessSentences(patents: seq<string>, maps: TextMaps)
    ensures AllEndWithFullStop(Preprocess(patents, maps))
  {
    SentencesOfEnd(PatentTexts(patents, maps));
  }

  lemma SentencesOfEnd(texts: seq<string>)
    ensures AllEndWithFullStop(SentencesOf(texts))
  {
    var docs := SentencesOf(texts);
    forall k | 0 <= k < |docs|
      ensures forall j :: 0 <= j < |docs[k]| ==> |docs[k][j]| > 0 && docs[k][j][|docs[k][j]| - 1] == FullStop
    {
      SentencesEndWithFullStop(texts[k]);
    }
  }

  /** Preprocessing works patent by patent. */
  lemma PreprocessAppend(a: seq<string>, b: seq<string>, maps: TextMaps)
    ensures Preprocess(a + b, maps) == Preprocess(a, maps) + Preprocess(b, maps)
  {
    MapTextsAppend(a, b, p => PatentText(p, maps));
    SentencesOfAppend(PatentTexts(a, maps), PatentTexts(b, maps));
  }

  lemma SentencesOfAppend(a: seq<string>, b: seq<string>)
    ensures SentencesOf(a + b) == SentencesOf(a) + SentencesOf(b)
  {
    var l := SentencesOf(a + b);
    var r := SentencesOf(a) + SentencesOf(b);
    forall k | 0 <= k < |a + b|
      ensures l[k] == r[k]
    {
      if k < |a| {
        assert (a + b)[k] == a[k];
      } else {
        assert (a + b)[k] == b[k - |a|];
      }
    }
  }

  /** The file type of `load_input_file`: `regex.search(r'\.([A-Za-z]+?)$', path)`. */

  datatype FileKind = Pickle | Csv | Text

  datatype LoadError =
    | NoExtension          // the search finds nothing and `.group` fails
    | UnsupportedType(ext: string)   // no branch binds the result

  /** Where `$` can match: the end, or before a final newline. */
  function ExtEnd(path: string): (e: nat)
    ensures e <= |path|
  {
    if |path| > 0 && path[|path| - 1] == '\n' then |path| - 1 else |path|
  }

  /** The pattern matches at `i`: a dot, then at least one ASCII letter up
      to the end. Letters are not newlines, so `$` before a final newline
      is the only place the lazy group can stop when the path ends with one. */
  predicate ExtMatch(path: string, i: int) {
    0 <= i && i + 1 < ExtEnd(path) && path[i] == '.'
    && forall m :: i + 1 <= m < ExtEnd(path) ==> IsAsciiLetter(path[m])
  }

  /** The start of the run of letters that ends at `e`. */
  function LetterRunStart(s: string, e: nat): (j: nat)
    requires e <= |s|
    ensures j <= e
    ensures forall m :: j <= m < e ==> IsAsciiLetter(s[m])
    ensures j > 0 ==> !IsAsciiLetter(s[j - 1])
    decreases e
  {
    if e > 0 && IsAsciiLetter(s[e - 1]) then LetterRunStart(s, e - 1) else e
  }

  /** The extension group, when the pattern matches. */
  function Extension(path: string): (r: Option<string>)
    ensures r.None? <==> forall i :: !ExtMatch(path, i)
    ensures r.Some? ==> exists i :: ExtMatch(path, i) && r.value == path[i + 1..ExtEnd(path)]
  {
    var e := ExtEnd(path);
    var j := LetterRunStart(path, e);
    if j >= 1 && j < e && path[j - 1] == '.' then
      assert ExtMatch(path, j - 1);
      Some(path[j..e])
    else
      assert forall i :: ExtMatch(path, i) ==> i + 1 >= j && i + 1 <= j by {
        forall i | ExtMatch(path, i)
          ensures i + 1 == j
        {
          assert !IsAsciiLetter(path[i]);
        }
      }
      None
  }

  /** `file_type.lower()` and the three supported types. */
  function FileType(path: string): (r: Result<FileKind, LoadError>)
    ensures r.Failure? && r.error == NoExtension <==> Extension(path).None?
    ensures Extension(path).Some? ==> var ext := AsciiLower(Extension(path).value);
      (r == Success(Pickle) <==> ext == "pkl")
      && (r == Success(Csv) <==> ext == "csv")
      && (r == Success(Text) <==> ext == "txt")
      && (r.Failure? ==> r.error == UnsupportedType(ext))
  {
    match Extension(path)
    case None => Failure(NoExtension)
    case Some(x) =>
      var ext := AsciiLower(x);
      if ext == "pkl" then Success(Pickle)
      else if ext == "csv" then Success(Csv)
      else if ext == "txt" then Success(Text)
      else Failure(UnsupportedType(ext))
  }

  /** Case does not matter. */
  lemma UpperCaseExtension()
    ensures FileType("patents.CSV") == Success(Csv)
  {
    assert LetterRunStart("patents.CSV", 11) == 8;
    assert "patents.CSV"[8..11] == "CSV";
    assert Extension("patents.CSV") == Some("CSV");
    var u := AsciiLower("CSV");
    assert u[0] == 'c' && u[1] == 's' && u[2] == 'v';
    assert u == "csv";
  }

  /** Only the suffix after the last dot counts. */
  lemma LastSuffixOnly()
    ensures FileType("a.tar.gz") == Failure(UnsupportedType("gz"))
  {
    var p := "a.tar.gz";
    assert ExtEnd(p) == 8;
    assert LetterRunStart(p, 8) == 6;
    assert p[5] == '.' && p[6..8] == "gz";
    assert Extension(p) == Some("gz");
    var u := AsciiLower("gz");
    assert u[0] == 'g' && u[1] == 'z';
    assert u == "gz";
  }

  /** `$` also matches before a final newline. */
  lemma TrailingNewline()
    ensures FileType("data.txt\n") == Success(Text)
  {
    var p := "data.txt\n";
    assert ExtEnd(p) == 8;
    assert LetterRunStart(p, 8) == 5;
    assert p[4] == '.' && p[5..8] == "txt";
    assert Extension(p) == Some("txt");
    var u := AsciiLower("txt");
    assert u[0] == 't' && u[1] == 'x' && u[2] == 't';
    assert u == "txt";
  }

  /** A path without a suffix fails. */
  lemma NoSuffix()
    ensures FileType("README") == Failure(NoExtension)
  {
    assert LetterRunStart("README", 6) == 0;
  }
}

=== FILE: wrappers.dfy ===
/** Optional values and results with an error, used wherever the source
    either finds nothing or raises. */
module Wrappers {

  datatype Option<+T> = None | Some(value: T)

  datatype Result<+T, +E> = Success(value: T) | Failure(error: E)
}
